=== FILE: README.md ===
# DEStroy NetNTLMv1 rainbow-table lookup, modelled in Dafny

DEStroy recovers NetNTLMv1 DES key thirds with rainbow tables over the byte#7-7 space: every
7-byte key is numbered by an index below 2^56. A chain alternates two steps:
- hashing the key of the current index, which is DES of the fixed challenge under the
  `setup_des_key` expansion;
- reducing the hash back to an index, with the column number added.

A table stores (start, end) index pairs sorted by end index.

This project models the core of the repository:
- **The index space and the reduction.** `Rainbow` models `src/rainbow.c`.
- **The DES key expansion.** `NetNtlmV1` models `src/netntlmv1.c`.
- **The table file.** `Table` covers the table file and its binary search in `src/table.c`.
- **Hex text.** `Hex` covers the hex conversions of `src/utils.c` and the `%X` formats.
- **Chain walks.** `Lookup` models `verify_chain` and `lookup_crack` from `src/lookup.c`. It
  also gives sequential counterparts of the two GPU kernels.
- **The single-machine tool.** `LookupTool` covers `src/main.c`: the table-name rule, the
  end-index cache file, candidate collection over all tables, and the decision flow of `main`
  from argv to the exit code.
- **The distributed pipeline.**
  - `CandidateLookup` models `src/candidate_lookup_main.c`.
  - `CandidateCheck` models `src/candidate_check_main.c`.
  - The daemon is split in two. `DaemonFiles` holds its file-name rules: the unfinished
    ciphertexts, the table list and Python's `replace`, `split`, `os.path.join` and
    `sorted`. `Daemon` holds its scheduler: a state machine for the poll loop and the GPU
    worker, plus batching and the progress count.

The effects the code cannot compute itself become inputs:
- **The hash.** DES is an oracle `H: Block -> Block` over the 8-byte key buffer.
- **Files.** The contents of files are `Option` values, with `None` meaning the file cannot be
  opened or read. Whether an output file (the cache, the result file) can be opened for
  writing is a boolean.
- **The directory walk.** It is a sequence of (directory, file names) steps.
- **The GPU.** Its availability and any kernel failure are booleans. Its successful results
  are the sequential counterparts `Lookup.Endpoints` and `Lookup.CheckCandidates`.

Integers are unbounded. The `uint64_t` wraps of `fill_plaintext_space_table`,
`hash_to_index` and `index_to_plaintext` are written out, and so is every `snprintf`
truncation. One `uint32_t` wrap is excluded rather than modelled (see
`Rainbow.FillPlaintextSpaceTable` under "Left out").

Behaviour of the code worth knowing:
- `table_load` keeps `size / 16` records and ignores any trailing bytes (`src/table.c:14`).
- `candidate_check` exits 1 both when no candidate verifies and on a hard failure (no GPU,
  no kernel, bad ciphertext). It exits 0 with `NOTFOUND 0`, writing no result file, when the
  candidate store cannot be loaded (`src/candidate_check_main.c:33-38`). A store that loads
  with zero records goes on to the check and exits 1 with a `NOTFOUND` result file.
- `save_cache` returns -1 and writes nothing when the cache file cannot be opened
  (`src/main.c:166-167`); `main` ignores that result (`src/main.c:314`).
- The comments in `include/rainbow.h:11-12` swap `chain_len` and `num_chains`. The code uses
  `CHAIN_LEN 881689` (`src/main.c:24`).
- `include/utils.h:15` declares `bytes_to_hex` as returning `void`, while `src/utils.h:17` and
  `src/utils.c:32` return `int` (-1 when the buffer is too small). The model follows
  `src/utils.c`.

## Model

| member | source | states |
|---|---|---|
| NetNtlmV1.SetupDesKey | src/netntlmv1.c:8-17 | the expanded DES key always has bit 0 (the parity slot) of all eight bytes clear |
| NetNtlmV1.SetupDesKeyLayout | src/netntlmv1.c:8-17 | bits 7..1 of expanded byte i are bits 7i .. 7i+6 of the 56-bit key string, most significant first |
| NetNtlmV1.RecoverSetupDesKey | src/netntlmv1.c:8-17 | the 7 key bytes can be recovered from the expansion (left inverse) |
| NetNtlmV1.SetupRecoveredKey | src/netntlmv1.c:8-17 | every block with clear parity bits is the expansion of the key recovered from it (right inverse) |
| NetNtlmV1.SetupDesKeyInjective | src/netntlmv1.c:8-17 | two keys have the same expansion if and only if they are equal |
| Rainbow.FillPlaintextSpaceTable | src/rainbow.c:4-21 | the loop fills the reference count table, with uint64_t wrap: entry 0 and entries below len_min are 0, each later entry adds charset^i, and the last entry is returned |
| Rainbow.SpaceStep | src/rainbow.c:12-18 | in a table without wrap, entry i exceeds entry i-1 by exactly charset^i from len_min on |
| Rainbow.SpaceEntry | src/rainbow.c:12-18 | in a table without wrap, entry i is the number of plaintexts with a length from len_min to i |
| Rainbow.ByteSevenSpaceTable | src/rainbow.c:4-21 | for charset 256 and lengths 7..7 the table is seven zeros followed by 2^56 |
| Rainbow.HashToIndex | src/rainbow.c:23-38 | the reduced index is below the space total |
| Rainbow.HashToIndexOfEncoding | src/rainbow.c:27-37 | a hash that is the little-endian encoding of v reduces to (v + offset + pos) mod total |
| Rainbow.NextColumnReduction | src/rainbow.c:37 | when the total divides 2^64, column pos+1 reduces a hash to the column-pos index plus 1, modulo the total |
| Rainbow.AdjacentColumnsDiffer | src/rainbow.c:37 | so two adjacent columns never reduce the same hash to the same index |
| Rainbow.FindLength | src/rainbow.c:46-53 | the length search returns the first length (scanning down) whose block start is at most the index, and 0 exactly when there is none |
| Rainbow.IndexToPlaintext | src/rainbow.c:40-66 | the plaintext's length lies between len_min and len_max |
| Rainbow.IndexSplit | src/rainbow.c:46-65 | an index is the start of its length's block plus an offset below charset^len, and the plaintext is the offset's base-charset digits |
| Rainbow.IndexToPlaintextRoundTrip | src/rainbow.c:40-66 | every index below the total names a plaintext of an allowed length over the charset, and the reference numbering maps it back to the index |
| Rainbow.PlaintextToIndexRoundTrip | src/rainbow.c:40-66 | every plaintext of an allowed length over the charset has an index below the total that index_to_plaintext maps back to it |
| Rainbow.BlocksDisjoint | src/rainbow.c:4-21 | the index blocks of different lengths do not overlap |
| Rainbow.ByteSevenPlaintext | src/rainbow.c:40-66 | with (256, 7, 7) every index below 2^56 is the 7-byte big-endian numeral of itself |
| Words.LittleEndianRoundTrip | src/main.c:169-172 | writing the n low bytes of a value little-endian and reading them back gives the value, for every value that fits |
| Table.Words64 | src/table.c:20-25 | reading the file into uint64_t words on a little-endian host: word i is bytes 8i .. 8i+7 |
| Table.TableLoad | src/table.c:6-30 | a table loads exactly when its file can be read; it has size/16 records (trailing bytes ignored), and record m is words 2m (start) and 2m+1 (end) |
| Table.TableFree | src/table.c:32-38 | freeing leaves no array and a record count of 0 |
| Table.TableFreeIdempotent | src/table.c:32-38 | freeing twice is the same as freeing once, and the freed table is safe to search |
| Table.SearchRangeSound | src/table.c:50-64 | whatever the order of the records, a hit names a record in the range whose end is the key, and a miss returns 0 |
| Table.SearchRangeComplete | src/table.c:50-64 | a sorted range that holds the key is searched successfully |
| Table.Search | src/table.c:43-66 | a hit names some record whose end is the key and returns its start; a miss returns 0; an empty table has no hit |
| Table.SearchComplete | src/table.c:43-66 | a sorted table that holds the key in its end column is searched successfully |
| Table.SearchUnique | src/table.c:43-66 | with distinct end indices the start found is the one paired with the key |
| Table.TableSearch | src/table.c:43-66 | the imperative loop over uint64_t bounds (including the mid == 0 exit) returns exactly the reference search's result |
| Hex.HexCharToNibble | src/utils.c:4-9 | the value lies in -1..15, and it is -1 exactly for characters that are not hex digits |
| Hex.DecodePairs | src/utils.c:16-27 | decoding fails exactly when some character is not a hex digit, and otherwise gives half as many bytes |
| Hex.DecodePairsValues | src/utils.c:16-27 | byte i is 16 times the nibble of character 2i plus the nibble of character 2i+1 |
| Hex.HexToBytes | src/utils.c:11-30 | hex_to_bytes fails exactly for an odd length, more bytes than the buffer holds, or a non-hex character; otherwise byte i is built from characters 2i and 2i+1 |
| Hex.EncodeHexNibbles | src/utils.c:37-40 | every output character is a lower-case hex digit, and characters 2i and 2i+1 read back as the high and low nibble of byte i |
| Hex.BytesToHex | src/utils.c:32-44 | bytes_to_hex fails exactly when the buffer cannot hold 2*len+1 characters; otherwise it writes the encoding followed by a NUL |
| Hex.BytesToHexRoundTrip | src/utils.c:11-44 | decoding what bytes_to_hex wrote gives back the bytes |
| Hex.HexToBytesRoundTrip | src/utils.c:11-44 | encoding what hex_to_bytes decoded gives the input text in lower case |
| Hex.UpperHexRoundTrip | src/candidate_lookup_main.c:60 | a %0wX numeral of a value below 16^w consists of hex digits that read back as the value |
| Lookup.LookupInitParams | src/lookup.c:7-20 | the lookup parameters are charset 256, lengths 7..7 and offset 0, with the filled space table, whose total is 2^56 |
| Lookup.KeyOfRoundTrip | src/lookup.c:34-37 | with these parameters the key of an index below 2^56 is its 7-byte big-endian numeral, so distinct indices give distinct keys |
| Lookup.LookupChainsParts | src/lookup.c:76-84 | the lookup walk's plaintext and reduction are index_to_plaintext and hash_to_index with the lookup parameters, and every reduced index is below 2^56 |
| Lookup.WalkCompose | src/lookup.c:72-85 | walking columns a..b and then b..d is walking a..d |
| Lookup.EndpointOfChain | src/lookup.c:66-85 | when a chain hashes to the ciphertext in column pos, the end index computed for pos is that chain's end |
| Lookup.VerifyChainSpec | src/lookup.c:24-55 | corrected verify_chain (hashing the expanded key): it accepts exactly when the chain's hash in column expected_pos is the ciphertext, and then returns that column's key |
| Lookup.VerifyChainAsWritten | src/lookup.c:33-39 | verify_chain as written hashes the never-written key_64 buffer: its answer depends only on H(buffer), not on the chain |
| Lookup.UninitialisedKeyCounterexample | src/lookup.c:39 | a chain whose true key hashes to the ciphertext is rejected as written and accepted by the corrected check |
| Lookup.CrackDown | src/lookup.c:66-102 | with the key expanded, any key the position loop returns hashes to the ciphertext |
| Lookup.LookupCrackAsWritten | src/lookup.c:57-104 | lookup_crack as written (positions down to 1, verify_chain hashing the stale key_64, one `garbage` block standing for that buffer in every call): a key is returned only when the stale buffer, not the key, hashes to the ciphertext |
| Lookup.LookupCrack | src/lookup.c:57-104 | corrected lookup_crack (all positions down to 0): any key returned hashes to the ciphertext |
| Lookup.CrackDownComplete | src/lookup.c:66-102 | a faithful chain of a well-formed table that hashes to the ciphertext in a position the loop visits is found |
| Lookup.ChainPositionVerifies | src/lookup.c:66-93 | at the chain's own position the table search finds that chain's start and verify_chain accepts it |
| Lookup.LookupCrackComplete | src/lookup.c:57-104 | the corrected lookup_crack finds a key whenever a faithful chain hashes to the ciphertext in any column 0..chain_len-2 |
| Lookup.ColumnZeroCounterexample | src/lookup.c:66 | with chain_len 2 and the ciphertext in column 0, the loop as written finds nothing while the corrected one finds the key |
| Lookup.Endpoints | src/main.c:301-302 | the precomputed end indices: one per position 0..chain_len-2, each the end index lookup_crack's inner walk computes |
| Lookup.CheckCandidates | src/main.c:366-368 | the false-alarm check returns a key only if it hashes to the ciphertext, and returns none exactly when no candidate verifies |
| Collect.HitsFromSpec | src/main.c:189-198 | the hits of a table are exactly the positions whose end index the search finds, each with the start found, in strictly increasing position order |
| Collect.HitsSound | src/main.c:189-198 | every hit names a table record whose end index is the end index of its position |
| Collect.TrueChainIsHit | src/main.c:189-198 | a faithful chain that hashes to the ciphertext in column pos yields its start as a hit at pos |
| LookupTool.IsRainbowTable | src/main.c:85-90 | a name is a table exactly when it ends in ".rt" or ".rtc" |
| LookupTool.Truncate | src/main.c:125-131 | snprintf writes a prefix of the text: the whole text when it fits, and exactly size-1 characters otherwise |
| LookupTool.CachePath | src/main.c:125-131 | the cache path is "cache/<ct>.bin" when it fits in 256 characters, and its first 255 characters otherwise |
| LookupTool.WordsBytesRoundTrip | src/main.c:156 | reading whole uint64_t words back from the bytes fwrite laid out gives the words |
| LookupTool.SaveCache | src/main.c:169-172 | the bytes save_cache writes: an 8-byte header (CHAIN_LEN and the count) plus eight bytes per end index; CacheRoundTrip states what reads back |
| LookupTool.SaveCacheFile | src/main.c:161-175 | save_cache returns 0 or -1, -1 exactly when the cache file cannot be opened for writing, and then writes nothing; on 0 the file is at the cache path and load_cache reads it back as the end indices |
| LookupTool.LoadCache | src/main.c:137-159 | loading fails exactly when the file is missing, a header word is missing or differs from CHAIN_LEN and num_indices, or too few words follow; otherwise word i comes from bytes 8+8i .. 15+8i |
| LookupTool.LoadCacheWords | src/main.c:137-159 | a file with a matching header and enough words loads as its first num_indices words |
| LookupTool.CacheRoundTrip | src/main.c:137-175 | loading what save_cache wrote with the same count gives the end indices back, and any other count is rejected |
| LookupTool.CollectFromHits | src/main.c:189-198 | the collection loop appends the table's hits in position order, cut off at max candidates |
| LookupTool.CollectCandidates | src/main.c:177-205 | a table that does not load gives -1 and appends nothing; otherwise the count appended is returned, and the candidates are the table's hits up to the cap |
| LookupTool.CollectTablesHits | src/main.c:335-351 | the table loop collects the first MAX_CANDIDATES hits over all loadable tables, in table order and then position order |
| LookupTool.CollectTablesBound | src/main.c:335-351 | the loop never holds more than MAX_CANDIDATES candidates |
| LookupTool.PlaintextSpaceTotal | src/main.c:280-282 | main's product of seven 256s is 2^56, the total of the space table |
| LookupTool.Ciphertext | src/main.c:218-222 | a ciphertext is accepted exactly when it is 16 hex digits, and it is their decoding |
| LookupTool.EndIndices | src/main.c:297-316 | a cache that loads is used and nothing is written; otherwise the precomputed indices are used, and saved to the cache path only when the cache file can be opened (the -1 of save_cache is ignored); failure happens exactly when the cache does not load and the precomputation fails |
| LookupTool.Verdict | src/main.c:357-378 | a key is found exactly when the kernel does not fail and some candidate verifies, and it hashes to the ciphertext |
| LookupTool.SearchTables | src/main.c:297-378 | after the GPU is ready: exit 1 when the cache does not load and the precomputation fails; exit 0 exactly with a key, which hashes to the ciphertext, is printed as its hex text and comes from a collected candidate that verifies with a working check kernel; at most MAX_CANDIDATES candidates |
| LookupTool.ToolMain | src/main.c:207-407 | main exits 0 or 1, exits 0 exactly when a key was found; exit 1 on a usage error, a bad ciphertext, no tables, or a failed uncached precomputation; a key needs a working GPU and kernels and a collected candidate that verifies, and hashes to the ciphertext given in argv[2]; with valid arguments, tables and a working GPU, main is the table search |
| LookupTool.KeyText | src/main.c:373 | the printed key is 14 lower-case hex digits that fit the 15-character buffer and decode back to the key |
| LookupTool.WrittenCacheLoads | src/main.c:297-316 | the cache file is written exactly when the cache does not load, the precomputation succeeds and the cache file can be opened, and what is written, at the cache path, loads back as the computed end indices |
| LookupTool.SearchTablesFindsKey | src/main.c:297-378 | completeness: a well-formed table holding a chain that hashes to the ciphertext, with a correct or absent cache, gives exit 0 |
| LookupTool.ToolFindsKey | src/main.c:207-407 | end to end in single-table mode: with a valid ciphertext, a working GPU and such a table, main exits 0 |
| CandidateLookup.CandidateLine | src/candidate_lookup_main.c:60 | a candidate line has 25 characters with a colon at index 16 |
| CandidateLookup.CandidateLineRoundTrip | src/candidate_lookup_main.c:60 | a candidate line reads back as the candidate: 16 hex digits worth the start, then 8 worth the position |
| CandidateLookup.RecordFromHits | src/candidate_lookup_main.c:54-63 | the per-table loop records the table's hits in position order, cut off at the cap, although the scan itself runs to the end |
| CandidateLookup.RecordFromFull | src/candidate_lookup_main.c:57 | once the cap is reached, the rest of the scan records nothing |
| CandidateLookup.TableBatch | src/candidate_lookup_main.c:47-63 | a table contributes its first MAX_BATCH_CANDIDATES hits, and nothing when it does not load |
| CandidateLookup.Batches | src/candidate_lookup_main.c:44-63 | batch i is the first MAX_BATCH_CANDIDATES hits of table i, counted from zero for every table independently of the tables before it |
| CandidateLookup.RunTables | src/candidate_lookup_main.c:44-71 | at most one append per table, each non-empty, within the cap, and for this directory and ciphertext |
| CandidateLookup.AppendedBatches | src/candidate_lookup_main.c:68-70 | every append carries one table's batch |
| CandidateLookup.CandidateLookupMain | src/candidate_lookup_main.c:9-77 | the tool exits 1, with no output, exactly on a short command line or when the endpoints do not load; otherwise it exits 0 whatever the tables did, and its output is the table loop over argv[3..] |
| CandidateLookup.RunTablesSplit | src/candidate_lookup_main.c:44-71 | the run over two lists of tables is the run over the first followed by the run over the second |
| CandidateLookup.SkipFailedTable | src/candidate_lookup_main.c:47-51 | a table that does not load prints and appends nothing, and the rest of the run is unchanged |
| CandidateLookup.OneTable | src/candidate_lookup_main.c:47-70 | a single table prints the lines of its first MAX_BATCH_CANDIDATES hits, and appends them exactly when there is at least one |
| CandidateLookup.BatchMeaning | src/candidate_lookup_main.c:54-63 | recorded candidates name real table records in increasing position order; below the cap every found position is recorded |
| CandidateLookup.LinesAreAppends | src/candidate_lookup_main.c:54-70 | the lines printed are exactly the lines of the appended batches, in order |
| CandidateCheck.WorkDir | src/candidate_check_main.c:15-16 | the work directory is argv[2] when it is given, and "working" otherwise |
| CandidateCheck.ResultPath | src/candidate_check_main.c:71-72 | the result path is "<dir>/<ct>.result" with the ciphertext text as given when it fits in 512 characters, and its first 511 characters otherwise (the work directory is not checked) |
| CandidateCheck.ResultFile | src/candidate_check_main.c:66-88 | a result file is written exactly when it can be opened; it holds the key's hex digits and a newline, or "NOTFOUND" and a newline |
| CandidateCheck.CheckOutcome | src/candidate_check_main.c:59-89 | exit 0 exactly with a key, which happens exactly when the kernel does not fail and some candidate verifies; the key hashes to the ciphertext and is printed |
| CandidateCheck.CheckMain | src/candidate_check_main.c:9-90 | exit 1 with nothing written on bad arguments or on a GPU init or kernel-load failure; "NOTFOUND 0", exit 0 and no file exactly when the arguments are valid and the candidate store cannot be loaded; with stored candidates and a working GPU the run is the candidate check, so a key found hashes to the ciphertext and any file written is at the result path |
| CandidateCheck.ResultFileHoldsKey | src/candidate_check_main.c:66-77 | the key file holds 14 lower-case hex digits and a newline, and the digits decode to the key |
| CandidateCheck.CheckFindsKey | src/candidate_check_main.c:9-90 | with stored candidates, a working GPU and one candidate that verifies, the tool exits 0 with a key |
| DaemonFiles.Before | daemon.py:126 | split(sep)[0] is the prefix of the name before the first occurrence of sep: sep occurs nowhere inside it, and it is the whole name or is followed by sep |
| DaemonFiles.RemoveSuffix | daemon.py:122 | replacing ".w" by nothing in "stem.w", for a dot-free stem, gives the stem |
| DaemonFiles.BeforeSuffix | daemon.py:126 | the text before the first ".w" in "stem.w", for a dot-free stem, is the stem |
| DaemonFiles.SuffixIsExtension | daemon.py:121-124 | "stem.ext" ends in ".w" exactly when ext is w, for dot-free parts |
| DaemonFiles.Filter | daemon.py:128 | a ciphertext is kept exactly when it is in the list and not in the finished list |
| DaemonFiles.Unfinished | daemon.py:117-128 | a stem is unfinished exactly when it is a .ct stem and not a finished stem |
| DaemonFiles.CtStemsMembers | daemon.py:120-127 | the .ct stems are the names ending in ".ct", that are not .result files, cut before the first ".ct" |
| DaemonFiles.FinishedStemsMembers | daemon.py:120-122 | the finished stems are the .result names with every ".result" removed |
| DaemonFiles.ReadName | daemon.py:120-127 | for a dot-free entry, the daemon's two tests see its extension, and its two stem computations give back its stem |
| DaemonFiles.UnfinishedWellNamed | daemon.py:117-128 | in a directory of dot-free entries, ct is unfinished exactly when ct.ct exists and ct.result does not |
| DaemonFiles.SameTableRule | daemon.py:112 | the daemon's table rule and the lookup tool's is_rainbow_table accept the same names |
| DaemonFiles.Join | daemon.py:113 | os.path.join: an absolute file name replaces the directory; otherwise a '/' is added between them when the directory does not end in one |
| DaemonFiles.TablesInMembers | daemon.py:111-113 | a directory contributes exactly the joined paths of its table files |
| DaemonFiles.WalkTablesMembers | daemon.py:108-113 | a path is collected exactly when some walked directory holds a table file that joins to it |
| DaemonFiles.StrLeTotal | daemon.py:114 | Python's string order is total |
| DaemonFiles.StrLeTrans | daemon.py:114 | Python's string order is transitive |
| DaemonFiles.StrLeAntisymmetric | daemon.py:114 | Python's string order is antisymmetric |
| DaemonFiles.Insert | daemon.py:114 | insertion keeps a list sorted and adds exactly one copy of the element |
| DaemonFiles.Sort | daemon.py:114 | sorting returns a sorted permutation of the list |
| DaemonFiles.SortedUnique | daemon.py:114 | two sorted permutations of the same list are equal, so the sort is the order sorted() gives |
| DaemonFiles.GetTables | daemon.py:108-114 | the table list is sorted and is a permutation of the collected paths |
| DaemonFiles.GetTablesMembers | daemon.py:108-114 | a path is in the table list exactly when a walked directory holds a table file that joins to it |
| Daemon.Upper | daemon.py:132 | upper-casing keeps the length, leaves no lower-case letter, maps each lower-case letter to its capital and leaves every other character as it is |
| Daemon.Batches | daemon.py:188 | there are ceil(n/10) batches, and batch i is tables[10i : 10i+10] |
| Daemon.BatchesPrefix | daemon.py:188 | the first k batches together hold exactly the first min(10k, n) tables |
| Daemon.BatchesPartition | daemon.py:188 | the batches put back together are the table list, and each holds 1 to 10 tables |
| Daemon.LookupJobs | daemon.py:188-190 | one lookup job per batch, numbered from 0, each carrying the batch count and the table count |
| Daemon.GpuStep | daemon.py:173-180 | a GPU job is queued exactly when the queue is empty, the ciphertext is not in progress, and candidates exist or endpoints do not; the ciphertext then becomes in progress, and the job is a check when candidates exist and a precomputation otherwise |
| Daemon.CpuStep | daemon.py:183-190 | with a non-empty table list, lookups are queued exactly when endpoints exist, candidates do not and the lookups have not started; then every batch is queued and the ciphertext is marked started |
| Daemon.GpuTake | daemon.py:35-38 | the worker runs the job at the head of the queue and removes it |
| Daemon.ReadResultPath | daemon.py:56 | corrected: the worker reads "<dir>/<ct>.result" with the ciphertext as given |
| Daemon.GpuFinish | daemon.py:50-62 | the worker dies, leaving the ciphertext in progress, exactly when a check succeeded and the result file it opens is missing; otherwise the in-progress mark is cleared |
| Daemon.InitialInvariants | daemon.py:18-31 | the empty start state satisfies the GPU and lookup invariants |
| Daemon.GpuStepInvariant | daemon.py:172-180 | the GPU part of a poll keeps at most one waiting job, every waiting or running ciphertext in progress, and no waiting job for the running ciphertext |
| Daemon.CpuStepInvariant | daemon.py:183-190 | the CPU part of a poll keeps each ciphertext's lookups queued (counted by their batch-0 jobs) exactly once if it is marked started, and not at all otherwise |
| Daemon.PollInvariant | daemon.py:169-190 | a whole poll over the unfinished ciphertexts keeps both invariants |
| Daemon.WorkerInvariant | daemon.py:33-63 | taking and finishing GPU jobs keep both invariants |
| Daemon.InProgressBlocksGpu | daemon.py:174-180 | a ciphertext in progress gets no new GPU job |
| Daemon.StartedTargetStalls | daemon.py:183-190 | a started ciphertext whose endpoints exist and whose candidates do not is never scheduled again |
| Daemon.CandidatesOnlyChecked | daemon.py:173-183 | a ciphertext with candidates gets no lookups, and at most a check job |
| Daemon.TablesDoneAsWritten | daemon.py:93 | the logged count as written is at most the total |
| Daemon.TablesDoneCounts | daemon.py:93 | corrected: the count is the number of tables in the batches up to this one, and the total on the last batch |
| Daemon.TablesDoneUnderReports | daemon.py:93 | with 25 tables the last batch logs 15 of 25 as written, and 25 of 25 corrected |
| Daemon.ResultPathCaseCounterexample | daemon.py:56 | for "aa", the check writes working/aa.result, but the worker opens working/AA.result, dies, and "aa" stays in progress |
| Daemon.ResultPathAgrees | daemon.py:56 | with the corrected path, the worker reads the file the check wrote, survives and clears the mark |
| Daemon.UnloadableStoreKillsWorker | src/candidate_check_main.c:33-38 | when the candidate store cannot be loaded, candidate_check prints NOTFOUND 0 and exits 0 with no result file, so the worker dies even with the corrected path |
| Daemon.Startup | daemon.py:148-162 | the daemon starts exactly when the table list is non-empty |

## Left out

- **DES and the GPU.** DES (`des_encrypt_ntlmv1`), OpenCL (`src/opencl_host.c`,
  `src/opencl_dyn.c`) and the kernel sources are not modelled. The hash is an oracle. The
  kernels appear only through their sequential counterparts and a failure flag.
- **Precomputation and file helpers.** `src/precompute_main.c` is not part of this model.
  Neither are the endpoint and candidate file helpers declared at `include/utils.h:22-30`,
  whose definitions this model does not include: the endpoint and candidate stores are inputs. The same goes for
  `get_plaintext_space`, which `src/candidate_check_main.c` uses without a visible definition;
  the model takes it to be 2^56, the same walk as `main`.
- **Timing and logging.** Timing, progress and banner output are left out: `get_time_sec`,
  `format_time`, `format_number`, timestamps, `printf` progress lines and the daemon's `log`
  and `lookup_progress` dictionary. Only the text a later stage reads is modelled: the printed
  key, the candidate lines, `NOTFOUND 0`, and the result and cache files.
- **The directory walk.** `find_tables` in `src/main.c:92-123` is an input (the paths found,
  or None), and so is `os.walk` for the daemon. The MAX_TABLES cap on `find_tables` is
  therefore not modelled.
- Rainbow.FillPlaintextSpaceTable: requires len_max < 0xFFFFFFFF. For len_max = 0xFFFFFFFF
  the `uint32_t` counter at `src/rainbow.c:12` wraps from 0xFFFFFFFF to 0, which still passes
  `i <= plaintext_len_max`, so the C loop never ends and would write past any buffer. A
  non-terminating run is not modelled. Every caller passes 7.
- Lookup.CheckCandidates: the false-alarm kernel's source is not part of this model. The model
  assumes it performs the corrected chain check, expanding the key with `setup_des_key`
  before hashing, unlike `verify_chain` as written (`src/lookup.c:39`, see Findings). It also
  assumes the kernel reports the first candidate that verifies, while
  `src/opencl_host.c:320-325` reads back whichever index the kernel stored. Every verifying
  candidate's key hashes to the ciphertext (`Lookup.VerifyChainSpec`), so the "exit 0 exactly
  when some candidate verifies" and "the key hashes to the ciphertext" clauses of
  `LookupTool.Verdict`, `LookupTool.SearchTables`, `LookupTool.ToolMain`,
  `CandidateCheck.CheckOutcome` and `CandidateCheck.CheckMain` do not depend on which one is
  reported. They do depend on the corrected check.
- CandidateCheck.ResultPath: `snprintf` cuts at 511 bytes, while the model cuts at 511
  characters. The two differ for a work directory or ciphertext with non-ASCII characters,
  which the model does not encode as bytes. The same holds for `LookupTool.Truncate` and
  `LookupTool.CachePath`, where the ciphertext is 16 hex digits by then.
- Daemon.GpuFinish: the worker thread also dies when `subprocess.run` itself raises, for
  example when `./precompute` or `./candidate_check` is missing or not executable
  (`daemon.py:43`, `daemon.py:53`). The model covers only jobs whose program launches.
- **Allocation failures.** `malloc` failures are left out. The model never runs out of memory.
- **Concurrency.** The daemon's CPU worker threads, its interleavings and its sleep are left
  out. Each step of the state machine is atomic, the CPU jobs are only recorded as queued, and
  the Python GIL and queue locking are not modelled.
- **Windows.** Windows path separators and executables are left out. The model uses '/'
  throughout.
- Daemon.Upper: `str.upper()` is modelled on ASCII letters only; its other Unicode mappings
  (such as 'ß' to "SS") are left out, because ciphertexts are hex text.
- **Daemon.CandidatesExist:** the daemon looks for `<CT>.candidates` and `<CT>.endpoints`
  with the ciphertext upper-cased. Whether the helpers declared in `include/utils.h` write
  those names is not modelled, because their definitions are not part of this model.
- **Lookup.LookupCrack:** requires chain_len >= 2. For chain_len 0 or 1, `chain_len - 2`
  wraps to a huge uint32_t in the C code, and that wrap is not modelled.
- **Lookup.CrackDown:** its printed "potential match" and progress lines are left out.
- **Table.TableLoad:** files longer than a `long` can report are not modelled. The input type
  bounds the size.

## Findings

| source | as written | input that shows it | evidently intended | confidence | as-written member | corrected member |
|---|---|---|---|---|---|---|
| src/lookup.c:39 | `verify_chain` hashes `key_64`, which is never written; `setup_des_key` is missing | a chain whose key hashes to the ciphertext, while the stale buffer hashes elsewhere: rejected | expand `key_56` into `key_64` before hashing, as at `src/lookup.c:81` | not executed | Lookup.UninitialisedKeyCounterexample | Lookup.VerifyChainSpec |
| src/lookup.c:66 | the position loop stops at `pos > 0`, so column 0 is never tried | chain_len 2 with the ciphertext in column 0 of a stored chain: nothing found | try every position down to 0 | not executed | Lookup.ColumnZeroCounterexample | Lookup.LookupCrackComplete |
| daemon.py:93 | `tables_done = min((batch_num + 1) * len(batch), total_tables)` uses the last batch's length | 25 tables: the final batch (5 tables) logs 15 of 25 | `batch_num * batch_size + len(batch)` | not executed | Daemon.TablesDoneUnderReports | Daemon.TablesDoneCounts |
| daemon.py:56 | after a successful check the worker opens `<CT>.result` with the ciphertext upper-cased; `src/candidate_check_main.c:72` writes it as given | ciphertext "aa" on a case-sensitive file system: the open raises, the GPU worker thread dies, and "aa" stays in progress | open the name the check writes, `<ct>.result` (this alone does not save the worker when the candidate store cannot be loaded: the check then exits 0 without a result file, see `Daemon.UnloadableStoreKillsWorker`) | not executed | Daemon.ResultPathCaseCounterexample | Daemon.ResultPathAgrees |

=== FILE: candidate_check.dfy ===
/** The false-alarm stage of the distributed pipeline (src/candidate_check_main.c): load the
    candidates the lookup stage stored for a ciphertext, check them against the ciphertext,
    and map the outcome to a line on standard output, a result file and an exit code. */
module CandidateCheck {
  import opened Words
  import opened Wrappers
  import opened NetNtlmV1
  import opened Hex
  import opened Lookup
  import LookupTool

  const MAX_CANDIDATES: nat := 4 * 1024 * 1024
  const DEFAULT_WORK_DIR: string := "working"

  /** What load_candidates_from can deliver into buffers of MAX_CANDIDATES entries. */
  type CandidateBuffer = s: seq<Candidate> | |s| <= MAX_CANDIDATES

  /** The environment: the candidate store keyed by work directory and ciphertext text, the
      GPU, whether the check kernel fails (a -1 result), whether the result file can be
      opened for writing, and the hash oracle. */
  datatype Host = Host(candidatesAt: (string, string) -> Option<CandidateBuffer>,
                       gpuReady: bool,
                       kernelReady: bool,
                       checkFails: bool,
                       resultWritable: bool,
                       H: Oracle)

  /** The outcome of a run: exit code, the key found, what was printed, and the result file
      written as (path, contents). */
  datatype Report = Report(exit: int, key: Option<Key56>, stdout: seq<string>,
                           resultFile: Option<(string, string)>)

  function Failed(): Report
  {
    Report(1, None, [], None)
  }

  /** The result file name: "%s/%s.result" into 512 characters, the ciphertext text as given. */
  function ResultPath(workDir: string, ctHex: string): (path: string)
    ensures |workDir| + |ctHex| <= 503 ==> path == workDir + "/" + ctHex + ".result"
    ensures |workDir| + |ctHex| > 503 ==> path == (workDir + "/" + ctHex + ".result")[..511]
  {
    LookupTool.Truncate(workDir + "/" + ctHex + ".result", 512)
  }

  /** The result file: the key's 14 hex digits or NOTFOUND, then a newline; nothing when the
      file cannot be opened. */
  function ResultFile(host: Host, path: string, key: Option<Key56>): (r: Option<(string, string)>)
    ensures r.Some? <==> host.resultWritable
    ensures r.Some? ==> r.value.0 == path
    ensures r.Some? && key.Some? ==> r.value.1 == EncodeHex(key.value) + "\n"
    ensures r.Some? && key.None? ==> r.value.1 == "NOTFOUND\n"
  {
    if !host.resultWritable then None
    else if key.Some? then Some((path, EncodeHex(key.value) + "\n"))
    else Some((path, "NOTFOUND\n"))
  }

  /** The part after the GPU is ready, for a walk `c`: check the candidates, print and write
      the key and exit 0 when one verifies; otherwise write NOTFOUND and exit 1. */
  function CheckOutcome(c: Chains, host: Host, path: string, ct: Block, cands: seq<Candidate>): (r: Report)
    ensures r.exit == 0 <==> r.key.Some?
    ensures r.exit == 0 || r.exit == 1
    ensures r.key.Some? <==> !host.checkFails && exists i | 0 <= i < |cands| ::
      VerifyChain(c, Expanded, cands[i].start, cands[i].pos, ct).Some?
    ensures r.key.Some? ==> c.H(SetupDesKey(r.key.value)) == ct && r.stdout == [EncodeHex(r.key.value)]
    ensures r.key.None? ==> r.stdout == []
    ensures r.resultFile == ResultFile(host, path, r.key)
  {
    var verdict := if host.checkFails then None else CheckCandidates(c, ct, cands);
    match verdict
    case Some(k) => Report(0, Some(k), [EncodeHex(k)], ResultFile(host, path, Some(k)))
    case None => Report(1, None, [], ResultFile(host, path, None))
  }

  /** candidate_check's main: argv is the ciphertext and, optionally, the work directory
      ("working" by default). Exit 1 with no result file on a short command line, a ciphertext
      that is not 16 hex digits, or a GPU or kernel failure; print "NOTFOUND 0" and exit 0,
      again with no result file, when the candidate store cannot be loaded; otherwise as CheckOutcome. */
  function CheckMain(args: seq<string>, host: Host): (r: Report)
    ensures r.exit == 0 || r.exit == 1
    ensures |args| < 2 || LookupTool.Ciphertext(args[1]).None? ==> r == Failed()
    ensures r.key.Some? ==> r.exit == 0 && |args| >= 2 && LookupTool.Ciphertext(args[1]).Some?
    ensures r.key.Some? ==> host.H(SetupDesKey(r.key.value)) == LookupTool.Ciphertext(args[1]).value
    ensures r.exit == 0 && r.key.None? <==>
      |args| >= 2 && LookupTool.Ciphertext(args[1]).Some?
      && host.candidatesAt(WorkDir(args), args[1]).None?
    ensures r.exit == 0 && r.key.None? ==> r.stdout == ["NOTFOUND 0"] && r.resultFile.None?
    ensures r.resultFile.Some? ==> r.resultFile == ResultFile(host, ResultPath(WorkDir(args), args[1]), r.key)
    ensures (|args| >= 2 && LookupTool.Ciphertext(args[1]).Some? && host.candidatesAt(WorkDir(args), args[1]).Some?
             && (!host.gpuReady || !host.kernelReady)) ==> r == Failed()
    ensures (|args| >= 2 && LookupTool.Ciphertext(args[1]).Some? && host.candidatesAt(WorkDir(args), args[1]).Some?
             && host.gpuReady && host.kernelReady) ==>
      r == CheckOutcome(LookupTool.ToolChains(host.H), host, ResultPath(WorkDir(args), args[1]),
                        LookupTool.Ciphertext(args[1]).value, host.candidatesAt(WorkDir(args), args[1]).value)
  {
    if |args| < 2 then Failed()
    else
      var workDir := WorkDir(args);
      var ct := LookupTool.Ciphertext(args[1]);
      if ct.None? then Failed()
      else
        var cands := host.candidatesAt(workDir, args[1]);
        if cands.None? then Report(0, None, ["NOTFOUND 0"], None)
        else if !host.gpuReady || !host.kernelReady then Failed()
        else CheckOutcome(LookupTool.ToolChains(host.H), host, ResultPath(workDir, args[1]), ct.value, cands.value)
  }

  /** The work directory: argv[2] when given, "working" otherwise. */
  function WorkDir(args: seq<string>): (dir: string)
    requires |args| >= 2
    ensures |args| > 2 ==> dir == args[2]
    ensures |args| == 2 ==> dir == DEFAULT_WORK_DIR
  {
    if |args| > 2 then args[2] else DEFAULT_WORK_DIR
  }

  /** The key file written on success holds 14 lower-case hex digits and a newline, and the
      digits decode to the key. */
  lemma ResultFileHoldsKey(host: Host, path: string, k: Key56)
    requires host.resultWritable
    ensures var text := ResultFile(host, path, Some(k)).value.1;
      && |text| == 15 && text[14] == '\n'
      && (forall i | 0 <= i < 14 :: IsLowerHexChar(text[i]))
      && HexToBytes(text[..14], 7).Some? && HexToBytes(text[..14], 7).value == k
  {
    LookupTool.KeyText(k);
    var text := ResultFile(host, path, Some(k)).value.1;
    assert text[..14] == EncodeHex(k);
  }

  /** Completeness: with a valid ciphertext, stored candidates, a working GPU and a candidate
      that verifies, the run exits 0 with the key. */
  lemma CheckFindsKey(args: seq<string>, host: Host, i: nat)
    requires |args| >= 2 && LookupTool.Ciphertext(args[1]).Some?
    requires host.candidatesAt(WorkDir(args), args[1]).Some?
    requires host.gpuReady && host.kernelReady && !host.checkFails
    requires var cands := host.candidatesAt(WorkDir(args), args[1]).value;
      i < |cands| && VerifyChain(LookupTool.ToolChains(host.H), Expanded, cands[i].start, cands[i].pos,
                                 LookupTool.Ciphertext(args[1]).value).Some?
    ensures CheckMain(args, host).exit == 0 && CheckMain(args, host).key.Some?
  {
  }
}

=== FILE: candidate_lookup.dfy ===
/** The table-lookup stage of the distributed pipeline (src/candidate_lookup_main.c): with
    the end indices another stage precomputed for a ciphertext, search every table given on
    the command line, print each recorded candidate as a line, and append each table's
    candidates, at most MAX_BATCH_CANDIDATES of them, to the candidate store. */
module CandidateLookup {
  import opened Words
  import opened Wrappers
  import opened Table
  import opened Hex
  import opened Lookup
  import opened Collect
  import LookupTool

  const MAX_BATCH_CANDIDATES: nat := 100000

  /** What load_endpoints_from can deliver: at most the CHAIN_LEN - 1 words the buffer holds. */
  type EndsBuffer = s: seq<u64> | |s| <= LookupTool.NUM_INDICES

  /** One call of append_candidates_to: the work directory, the ciphertext text and the pairs. */
  datatype Append = Append(dir: string, ctHex: string, batch: seq<Candidate>)

  /** The environment: the endpoint store, keyed by work directory and ciphertext text, and
      the table files. */
  datatype Host = Host(endpointsAt: (string, string) -> Option<EndsBuffer>,
                       fileAt: string -> Option<FileBytes>)

  /** Standard output and the appends, in the order the run makes them. */
  datatype Output = Output(lines: seq<string>, appends: seq<Append>)

  datatype Report = Report(exit: int, out: Output)

  /** The line printed for a candidate: "%016llX:%08X". */
  function CandidateLine(x: Candidate): (line: string)
    ensures |line| == 25 && line[16] == ':'
  {
    UpperHex(x.start, 16) + ":" + UpperHex(x.pos, 8)
  }

  /** A candidate line reads back as the candidate: sixteen hex digits worth the start, a
      colon, eight hex digits worth the position. */
  lemma CandidateLineRoundTrip(x: Candidate)
    ensures var line := CandidateLine(x);
      && (forall i | 0 <= i < 25 && i != 16 :: IsHexChar(line[i]))
      && HexValue(line[..16]) == x.start && HexValue(line[17..]) == x.pos
  {
    Pow16Values();
    UpperHexRoundTrip(x.start, 16);
    UpperHexRoundTrip(x.pos, 8);
    var line := CandidateLine(x);
    assert line[..16] == UpperHex(x.start, 16);
    assert line[17..] == UpperHex(x.pos, 8);
  }

  /** The per-table loop over positions pos .. |ends|-1: a found position is recorded while
      fewer than `max` are recorded; the scan itself always runs to the end. */
  function RecordFrom(t: RtTable, ends: seq<u64>, pos: nat, recorded: seq<Candidate>, max: nat): seq<Candidate>
    requires Searchable(t) && pos <= |ends| <= TWO_TO_32
    decreases |ends| - pos
  {
    if pos == |ends| then recorded
    else
      var h := Search(t, ends[pos]);
      var next := if h.found && |recorded| < max then recorded + [Candidate(h.start, pos)] else recorded;
      RecordFrom(t, ends, pos + 1, next, max)
  }

  /** The loop records the table's hits in position order, cut off at `max`. */
  lemma {:induction false} RecordFromHits(t: RtTable, ends: seq<u64>, pos: nat, recorded: seq<Candidate>, max: nat)
    requires Searchable(t) && pos <= |ends| <= TWO_TO_32
    ensures RecordFrom(t, ends, pos, recorded, max) == recorded + Take(HitsFrom(t, ends, pos), max - |recorded|)
    decreases |ends| - pos
  {
    if |recorded| >= max {
      RecordFromFull(t, ends, pos, recorded, max);
    } else if pos < |ends| {
      var h := Search(t, ends[pos]);
      var rest := HitsFrom(t, ends, pos + 1);
      var k := max - |recorded|;
      if h.found {
        var x := Candidate(h.start, pos);
        assert RecordFrom(t, ends, pos, recorded, max) == (recorded + [x]) + Take(rest, k - 1) by {
          RecordFromHits(t, ends, pos + 1, recorded + [x], max);
        }
        assert HitsFrom(t, ends, pos) == [x] + rest;
        TakeConsSplit(recorded, x, rest, k);
      } else {
        assert RecordFrom(t, ends, pos, recorded, max) == recorded + Take(rest, k) by {
          RecordFromHits(t, ends, pos + 1, recorded, max);
        }
        assert HitsFrom(t, ends, pos) == rest;
      }
    }
  }

  /** Once the cap is reached the rest of the scan records nothing. */
  lemma {:induction false} RecordFromFull(t: RtTable, ends: seq<u64>, pos: nat, recorded: seq<Candidate>, max: nat)
    requires Searchable(t) && pos <= |ends| <= TWO_TO_32 && |recorded| >= max
    ensures RecordFrom(t, ends, pos, recorded, max) == recorded
    decreases |ends| - pos
  {
    if pos < |ends| {
      RecordFromFull(t, ends, pos + 1, recorded, max);
    }
  }

  /** The candidates one table contributes: nothing when it does not load, otherwise its first
      MAX_BATCH_CANDIDATES hits; the count starts from zero for every table. */
  function TableBatch(file: Option<FileBytes>, ends: seq<u64>): (batch: seq<Candidate>)
    requires |ends| <= TWO_TO_32
    ensures batch == Take(TableHits(file, ends), MAX_BATCH_CANDIDATES)
    ensures |batch| <= MAX_BATCH_CANDIDATES
  {
    var table := TableLoad(file);
    if table.None? then []
    else
      RecordFromHits(table.value, ends, 0, [], MAX_BATCH_CANDIDATES);
      RecordFrom(table.value, ends, 0, [], MAX_BATCH_CANDIDATES)
  }

  /** The lines printed for a batch, one per candidate. */
  function Lines(batch: seq<Candidate>): (lines: seq<string>)
    ensures |lines| == |batch| && forall i | 0 <= i < |batch| :: lines[i] == CandidateLine(batch[i])
  {
    seq(|batch|, i requires 0 <= i < |batch| => CandidateLine(batch[i]))
  }

  /** The batch of each table, in command-line order. */
  function Batches(host: Host, ends: seq<u64>, paths: seq<string>): (bs: seq<seq<Candidate>>)
    requires |ends| <= TWO_TO_32
    ensures |bs| == |paths| && forall i | 0 <= i < |paths| ::
      bs[i] == Take(TableHits(host.fileAt(paths[i]), ends), MAX_BATCH_CANDIDATES)
  {
    seq(|paths|, i requires 0 <= i < |paths| => TableBatch(host.fileAt(paths[i]), ends))
  }

  /** The lines the table loop prints for the batches, one table after another. */
  function PrintedLines(batches: seq<seq<Candidate>>): seq<string>
  {
    if |batches| == 0 then [] else Lines(batches[0]) + PrintedLines(batches[1..])
  }

  /** The appends the table loop makes for the batches: one per non-empty batch, in order. */
  function Appended(dir: string, ctHex: string, batches: seq<seq<Candidate>>): (r: seq<Append>)
    ensures |r| <= |batches|
    ensures forall i | 0 <= i < |r| :: r[i].dir == dir && r[i].ctHex == ctHex && |r[i].batch| > 0
  {
    if |batches| == 0 then []
    else (if |batches[0]| > 0 then [Append(dir, ctHex, batches[0])] else []) + Appended(dir, ctHex, batches[1..])
  }

  /** The table loop of candidate_lookup. */
  function RunTables(host: Host, dir: string, ctHex: string, ends: seq<u64>, paths: seq<string>): (r: Output)
    requires |ends| <= TWO_TO_32
    ensures |r.appends| <= |paths|
    ensures forall i | 0 <= i < |r.appends| ::
      && r.appends[i].dir == dir && r.appends[i].ctHex == ctHex
      && 0 < |r.appends[i].batch| <= MAX_BATCH_CANDIDATES
  {
    var bs := Batches(host, ends, paths);
    AppendedBatches(dir, ctHex, bs);
    Output(PrintedLines(bs), Appended(dir, ctHex, bs))
  }

  /** Every append carries one of the batches. */
  lemma {:induction false} AppendedBatches(dir: string, ctHex: string, batches: seq<seq<Candidate>>)
    ensures forall i | 0 <= i < |Appended(dir, ctHex, batches)| :: Appended(dir, ctHex, batches)[i].batch in batches
  {
    if |batches| > 0 {
      AppendedBatches(dir, ctHex, batches[1..]);
      var rest := Appended(dir, ctHex, batches[1..]);
      forall i | 0 <= i < |rest|
        ensures rest[i].batch in batches
      {
        assert rest[i].batch in batches[1..];
      }
    }
  }

  /** candidate_lookup's main: argv is ciphertext, work directory and at least one table.
      Exit 1 on a short command line or when the endpoints do not load, before any table is
      read; otherwise run the table loop and exit 0, whatever the tables did. */
  function CandidateLookupMain(args: seq<string>, host: Host): (r: Report)
    ensures r.exit == 0 || r.exit == 1
    ensures r.exit == 1 <==> |args| < 4 || host.endpointsAt(args[2], args[1]).None?
    ensures r.exit == 1 ==> r.out == Output([], [])
    ensures r.exit == 0 ==> forall i | 0 <= i < |r.out.appends| ::
      r.out.appends[i].dir == args[2] && r.out.appends[i].ctHex == args[1]
    ensures r.exit == 0 ==> r.out == RunTables(host, args[2], args[1], host.endpointsAt(args[2], args[1]).value, args[3..])
  {
    if |args| < 4 then Report(1, Output([], []))
    else
      var ends := host.endpointsAt(args[2], args[1]);
      if ends.None? then Report(1, Output([], []))
      else Report(0, RunTables(host, args[2], args[1], ends.value, args[3..]))
  }

  /** The run over a list of tables is the run over its first part followed by the run over
      the rest: nothing carries over from one table to the next. */
  lemma RunTablesSplit(host: Host, dir: string, ctHex: string, ends: seq<u64>, a: seq<string>, b: seq<string>)
    requires |ends| <= TWO_TO_32
    ensures var ra, rb := RunTables(host, dir, ctHex, ends, a), RunTables(host, dir, ctHex, ends, b);
      RunTables(host, dir, ctHex, ends, a + b) == Output(ra.lines + rb.lines, ra.appends + rb.appends)
  {
    var ba, bb := Batches(host, ends, a), Batches(host, ends, b);
    BatchesSplit(host, ends, a, b);
    PrintedLinesSplit(ba, bb);
    AppendedSplit(dir, ctHex, ba, bb);
  }

  lemma BatchesSplit(host: Host, ends: seq<u64>, a: seq<string>, b: seq<string>)
    requires |ends| <= TWO_TO_32
    ensures Batches(host, ends, a + b) == Batches(host, ends, a) + Batches(host, ends, b)
  {
    var l, r := Batches(host, ends, a + b), Batches(host, ends, a) + Batches(host, ends, b);
    forall i | 0 <= i < |a| + |b|
      ensures l[i] == r[i]
    {
      if i < |a| {
        assert (a + b)[i] == a[i];
      } else {
        assert (a + b)[i] == b[i - |a|];
      }
    }
  }

  lemma {:induction false} PrintedLinesSplit(a: seq<seq<Candidate>>, b: seq<seq<Candidate>>)
    ensures PrintedLines(a + b) == PrintedLines(a) + PrintedLines(b)
  {
    if |a| > 0 {
      assert (a + b)[0] == a[0] && (a + b)[1..] == a[1..] + b;
      PrintedLinesSplit(a[1..], b);
    } else {
      assert a + b == b;
    }
  }

  lemma {:induction false} AppendedSplit(dir: string, ctHex: string, a: seq<seq<Candidate>>, b: seq<seq<Candidate>>)
    ensures Appended(dir, ctHex, a + b) == Appended(dir, ctHex, a) + Appended(dir, ctHex, b)
  {
    if |a| > 0 {
      assert (a + b)[0] == a[0] && (a + b)[1..] == a[1..] + b;
      AppendedSplit(dir, ctHex, a[1..], b);
    } else {
      assert a + b == b;
    }
  }

  /** A table that does not load is skipped: it prints nothing and appends nothing, and the
      tables after it are processed as if it were absent. */
  lemma SkipFailedTable(host: Host, dir: string, ctHex: string, ends: seq<u64>, path: string, rest: seq<string>)
    requires |ends| <= TWO_TO_32 && host.fileAt(path).None?
    ensures RunTables(host, dir, ctHex, ends, [path] + rest) == RunTables(host, dir, ctHex, ends, rest)
  {
    var bs := Batches(host, ends, [path] + rest);
    assert bs[0] == [];
    assert bs[1..] == Batches(host, ends, rest);
    assert Lines([]) == [];
  }

  /** One table's share of the run: its first MAX_BATCH_CANDIDATES hits, printed, and
      appended exactly when there is at least one. */
  lemma OneTable(host: Host, dir: string, ctHex: string, ends: seq<u64>, path: string)
    requires |ends| <= TWO_TO_32 && host.fileAt(path).Some?
    ensures var r := RunTables(host, dir, ctHex, ends, [path]);
      var hits := HitsFrom(TableLoad(host.fileAt(path)).value, ends, 0);
      && r.lines == Lines(Take(hits, MAX_BATCH_CANDIDATES))
      && (|hits| == 0 <==> r.appends == [])
      && (|hits| > 0 ==> r.appends == [Append(dir, ctHex, Take(hits, MAX_BATCH_CANDIDATES))])
  {
    var t := TableLoad(host.fileAt(path)).value;
    assert TableHits(host.fileAt(path), ends) == HitsFrom(t, ends, 0);
    var bs := Batches(host, ends, [path]);
    assert bs[1..] == [];
    assert PrintedLines(bs) == Lines(bs[0]) + PrintedLines([]);
    assert Lines(bs[0]) + [] == Lines(bs[0]);
  }

  /** What a batch means: every recorded candidate names a table record whose end index is
      the end index of its position, positions strictly increase, and when the table has
      no more hits than the cap every found position is recorded. */
  lemma BatchMeaning(file: Option<FileBytes>, ends: seq<u64>)
    requires |ends| <= TWO_TO_32 && file.Some?
    ensures var t := TableLoad(file).value;
      var batch := TableBatch(file, ends);
      && (forall i | 0 <= i < |batch| ::
            batch[i].pos < |ends| && Search(t, ends[batch[i].pos]) == Hit(true, batch[i].start))
      && (forall i, j | 0 <= i < j < |batch| :: batch[i].pos < batch[j].pos)
      && (|HitsFrom(t, ends, 0)| <= MAX_BATCH_CANDIDATES ==>
            forall q | 0 <= q < |ends| && Search(t, ends[q]).found ::
              Candidate(Search(t, ends[q]).start, q) in batch)
  {
    var t := TableLoad(file).value;
    HitsFromSpec(t, ends, 0);
    assert TableHits(file, ends) == HitsFrom(t, ends, 0);
  }

  /** The lines printed are the lines of the appended batches, in order. */
  lemma LinesAreAppends(host: Host, dir: string, ctHex: string, ends: seq<u64>, paths: seq<string>)
    requires |ends| <= TWO_TO_32
    ensures RunTables(host, dir, ctHex, ends, paths).lines == AllLines(RunTables(host, dir, ctHex, ends, paths).appends)
  {
    PrintedAppended(dir, ctHex, Batches(host, ends, paths));
  }

  lemma {:induction false} PrintedAppended(dir: string, ctHex: string, batches: seq<seq<Candidate>>)
    ensures PrintedLines(batches) == AllLines(Appended(dir, ctHex, batches))
  {
    if |batches| > 0 {
      PrintedAppended(dir, ctHex, batches[1..]);
      var rest := Appended(dir, ctHex, batches[1..]);
      if |batches[0]| > 0 {
        assert ([Append(dir, ctHex, batches[0])] + rest)[1..] == rest;
      } else {
        assert Lines(batches[0]) == [];
        assert Appended(dir, ctHex, batches) == rest;
      }
    }
  }

  /** The lines for a sequence of appends, batch after batch. */
  function AllLines(appends: seq<Append>): seq<string>
  {
    if |appends| == 0 then [] else Lines(appends[0].batch) + AllLines(appends[1..])
  }
}

=== FILE: collect.dfy ===
/** The candidates one table yields for a list of end indices (the loop shared by
    collect_candidates in src/main.c and the per-table loop of src/candidate_lookup_main.c):
    position by position, in increasing order, the start that table_search returns when it
    finds that position's end index. */
module Collect {
  import opened Words
  import opened Wrappers
  import opened NetNtlmV1
  import opened Table
  import opened Lookup

  /** The first k elements of s, or all of s when it is shorter. */
  function Take<T>(s: seq<T>, k: int): (r: seq<T>)
    ensures |r| == if k <= 0 then 0 else if k < |s| then k else |s|
    ensures r == s[..|r|]
  {
    if k <= 0 then [] else if k < |s| then s[..k] else s
  }

  /** Taking from a concatenation whose first part is no longer than the count. */
  lemma TakeAppendShort<T>(a: seq<T>, b: seq<T>, k: int)
    requires |a| <= k
    ensures Take(a + b, k) == a + Take(b, k - |a|)
  {
    var r := Take(a + b, k);
    var q := a + Take(b, k - |a|);
    assert |r| == |q|;
    forall i | 0 <= i < |r|
      ensures r[i] == q[i]
    {
      if i >= |a| {
        assert q[i] == Take(b, k - |a|)[i - |a|] == b[i - |a|];
      }
    }
  }

  /** Taking k >= 1 from x :: rest after `prefix` is appending x and then k - 1 of rest. */
  lemma TakeConsSplit<T>(prefix: seq<T>, x: T, rest: seq<T>, k: int)
    requires k >= 1
    ensures (prefix + [x]) + Take(rest, k - 1) == prefix + Take([x] + rest, k)
  {
    TakeAppendShort([x], rest, k);
  }

  /** Taking from a concatenation whose first part already has enough elements. */
  lemma TakeAppendLong<T>(a: seq<T>, b: seq<T>, k: int)
    requires k <= |a|
    ensures Take(a + b, k) == Take(a, k)
  {
  }

  /** The reference: the hits for positions pos .. |ends|-1, in position order. */
  function HitsFrom(t: RtTable, ends: seq<u64>, pos: nat): seq<Candidate>
    requires Searchable(t) && pos <= |ends| <= TWO_TO_32
    decreases |ends| - pos
  {
    if pos == |ends| then []
    else
      var h := Search(t, ends[pos]);
      (if h.found then [Candidate(h.start, pos)] else []) + HitsFrom(t, ends, pos + 1)
  }

  /** The hits are exactly the positions whose end index the search finds, in strictly
      increasing position order, each with the start the search returns. */
  lemma {:induction false} HitsFromSpec(t: RtTable, ends: seq<u64>, pos: nat)
    requires Searchable(t) && pos <= |ends| <= TWO_TO_32
    ensures var hs := HitsFrom(t, ends, pos);
      && |hs| <= |ends| - pos
      && (forall i | 0 <= i < |hs| ::
            pos <= hs[i].pos < |ends| && Search(t, ends[hs[i].pos]) == Hit(true, hs[i].start))
      && (forall i, j | 0 <= i < j < |hs| :: hs[i].pos < hs[j].pos)
      && (forall q | pos <= q < |ends| && Search(t, ends[q]).found ::
            Candidate(Search(t, ends[q]).start, q) in hs)
    decreases |ends| - pos
  {
    if pos < |ends| {
      HitsFromSpec(t, ends, pos + 1);
      var h := Search(t, ends[pos]);
      var rest := HitsFrom(t, ends, pos + 1);
      var hs := HitsFrom(t, ends, pos);
      if h.found {
        assert hs == [Candidate(h.start, pos)] + rest;
        assert forall i | 1 <= i < |hs| :: hs[i] == rest[i - 1];
      } else {
        assert hs == rest;
      }
    }
  }

  /** The hits of one table file: none when it does not load. */
  function TableHits(file: Option<FileBytes>, ends: seq<u64>): (hs: seq<Candidate>)
    requires |ends| <= TWO_TO_32
    ensures |hs| <= |ends|
  {
    var table := TableLoad(file);
    if table.None? then []
    else
      HitsFromSpec(table.value, ends, 0);
      HitsFrom(table.value, ends, 0)
  }

  /** Every hit names a record of the table whose end index is the position's end index. */
  lemma HitsSound(t: RtTable, ends: seq<u64>, x: Candidate)
    requires Searchable(t) && |ends| <= TWO_TO_32 && x in HitsFrom(t, ends, 0)
    ensures x.pos < |ends|
    ensures exists m | 0 <= m < t.numChains :: Start(t, m) == x.start && End(t, m) == ends[x.pos]
  {
    HitsFromSpec(t, ends, 0);
    var i :| 0 <= i < |HitsFrom(t, ends, 0)| && HitsFrom(t, ends, 0)[i] == x;
  }

  /** The pipeline's completeness: when a well-formed table faithfully records a chain whose
      hash in column `pos` is the ciphertext, the hits over the ciphertext's end indices
      include that chain's start at that position. */
  lemma TrueChainIsHit(c: Chains, t: RtTable, ciphertext: Block, m: nat, pos: nat)
    requires 2 <= c.chainLen && WellFormed(t) && HoldsChain(c, t, m) && pos <= c.chainLen - 2
    requires ChainHash(c, Expanded, Column(c, Start(t, m), pos)) == ciphertext
    ensures Candidate(Start(t, m), pos) in HitsFrom(t, Endpoints(c, ciphertext), 0)
  {
    var ends := Endpoints(c, ciphertext);
    ChainPositionVerifies(c, t, ciphertext, m, pos);
    assert Search(t, ends[pos]) == Hit(true, Start(t, m));
    HitsFromSpec(t, ends, 0);
  }
}

=== FILE: daemon.dfy ===
/** The scheduler of the daemon (daemon.py): one poll over the unfinished ciphertexts decides
    which GPU job (a candidate check or a precomputation) and which lookup batches to queue,
    and the GPU worker takes jobs and clears the in-progress mark when a job ends. The
    threads are modelled as separate steps of one state machine, each step atomic. */
module Daemon {
  import opened Wrappers
  import opened LookupTool
  import opened DaemonFiles
  import CandidateCheck

  /** The batch size of the lookup jobs; the arithmetic below writes it as the literal 10. */
  const BATCH_SIZE: nat := 10

  datatype JobKind = Precompute | CandidateCheck

  datatype GpuJob = GpuJob(kind: JobKind, ct: string)

  /** A lookup job: the ciphertext, its batch of tables, the batch number, the number of
      batches and the number of tables. */
  datatype CpuJob = CpuJob(ct: string, batch: seq<string>, batchNum: nat, totalBatches: nat, totalTables: nat)

  /** The daemon's shared state: the GPU queue, the GPU job running, the in-progress and
      lookups-started sets, every lookup job ever queued, and whether the GPU worker thread
      is still alive. */
  datatype State = State(gpuQueue: seq<GpuJob>,
                         running: Option<GpuJob>,
                         gpuInProgress: set<string>,
                         lookupsStarted: set<string>,
                         cpuQueued: seq<CpuJob>,
                         gpuAlive: bool)

  const Initial: State := State([], None, {}, {}, [], true)

  /** str.upper() on ASCII letters. */
  function Upper(s: string): (r: string)
    ensures |r| == |s|
    ensures forall i | 0 <= i < |r| :: !('a' <= r[i] <= 'z')
    ensures forall i | 0 <= i < |s| && !('a' <= s[i] <= 'z') :: r[i] == s[i]
    ensures forall i | 0 <= i < |s| && 'a' <= s[i] <= 'z' :: 'A' <= r[i] <= 'Z' && r[i] as int + 32 == s[i] as int
  {
    seq(|s|, i requires 0 <= i < |s| => if 'a' <= s[i] <= 'z' then (s[i] as int - 32) as char else s[i])
  }

  predicate CandidatesExist(present: set<string>, ct: string)
  {
    Upper(ct) + ".candidates" in present
  }

  predicate EndpointsExist(present: set<string>, ct: string)
  {
    Upper(ct) + ".endpoints" in present
  }

  /** [tables[i:i + BATCH_SIZE] for i in range(0, len(tables), BATCH_SIZE)]. */
  function Batches(tables: seq<string>): (bs: seq<seq<string>>)
    ensures |bs| == (|tables| + 9) / 10
    ensures forall i | 0 <= i < |bs| :: bs[i] == tables[10 * i .. Min(10 * i + 10, |tables|)]
  {
    var n := (|tables| + 9) / 10;
    seq(n, i requires 0 <= i < n => tables[10 * i .. Min(10 * i + 10, |tables|)])
  }

  function Min(a: int, b: int): int
  {
    if a <= b then a else b
  }

  function Concat(bs: seq<seq<string>>): seq<string>
  {
    if |bs| == 0 then [] else bs[0] + Concat(bs[1..])
  }

  lemma {:induction false} ConcatSnoc(bs: seq<seq<string>>, b: seq<string>)
    ensures Concat(bs + [b]) == Concat(bs) + b
  {
    if |bs| > 0 {
      assert (bs + [b])[1..] == bs[1..] + [b];
      ConcatSnoc(bs[1..], b);
    } else {
      assert bs + [b] == [b];
    }
  }

  /** The first k batches hold exactly the first min(BATCH_SIZE * k, n) tables. */
  lemma {:induction false} BatchesPrefix(tables: seq<string>, k: nat)
    requires k <= |Batches(tables)|
    ensures Concat(Batches(tables)[..k]) == tables[..Min(10 * k, |tables|)]
  {
    var bs := Batches(tables);
    if k > 0 {
      BatchesPrefix(tables, k - 1);
      ConcatSnoc(bs[..k - 1], bs[k - 1]);
      assert bs[..k] == bs[..k - 1] + [bs[k - 1]];
      assert tables[..Min(10 * k, |tables|)] == tables[..10 * (k - 1)] + bs[k - 1];
    }
  }

  /** The batches put back together are the table list, and each holds 1 to BATCH_SIZE
      tables. */
  lemma BatchesPartition(tables: seq<string>)
    ensures Concat(Batches(tables)) == tables
    ensures forall i | 0 <= i < |Batches(tables)| :: 0 < |Batches(tables)[i]| <= BATCH_SIZE
  {
    var bs := Batches(tables);
    BatchesPrefix(tables, |bs|);
    assert bs[..|bs|] == bs;
  }

  /** The lookup jobs queued for a ciphertext: one per batch, numbered from 0. */
  function LookupJobs(ct: string, tables: seq<string>): (jobs: seq<CpuJob>)
    ensures var bs := Batches(tables);
      |jobs| == |bs| && forall i | 0 <= i < |jobs| ::
        jobs[i] == CpuJob(ct, bs[i], i, |bs|, |tables|)
  {
    var bs := Batches(tables);
    seq(|bs|, i requires 0 <= i < |bs| => CpuJob(ct, bs[i], i, |bs|, |tables|))
  }

  /** The GPU part of one poll for one ciphertext: a check when its candidates exist,
      otherwise a precomputation when its endpoints do not exist either; either only when
      the GPU queue is empty and the ciphertext is not in progress, marking it first. */
  function GpuStep(s: State, ct: string, present: set<string>): (r: State)
    ensures r.running == s.running && r.lookupsStarted == s.lookupsStarted
    ensures r.cpuQueued == s.cpuQueued && r.gpuAlive == s.gpuAlive
    ensures r.gpuQueue == s.gpuQueue || (
      && |s.gpuQueue| == 0 && ct !in s.gpuInProgress
      && r.gpuInProgress == s.gpuInProgress + {ct}
      && r.gpuQueue == [GpuJob(if CandidatesExist(present, ct) then CandidateCheck else Precompute, ct)]
      && (CandidatesExist(present, ct) || !EndpointsExist(present, ct)))
    ensures r.gpuQueue == s.gpuQueue ==> r.gpuInProgress == s.gpuInProgress
    ensures r.gpuQueue != s.gpuQueue <==>
      |s.gpuQueue| == 0 && ct !in s.gpuInProgress && (CandidatesExist(present, ct) || !EndpointsExist(present, ct))
  {
    var kind := if CandidatesExist(present, ct) then Some(CandidateCheck)
                else if !EndpointsExist(present, ct) then Some(Precompute)
                else None;
    if kind.Some? && |s.gpuQueue| == 0 && ct !in s.gpuInProgress then
      s.(gpuInProgress := s.gpuInProgress + {ct}, gpuQueue := s.gpuQueue + [GpuJob(kind.value, ct)])
    else s
  }

  /** The CPU part of one poll for one ciphertext: when its endpoints exist, its candidates
      do not and its lookups have not started, mark them started and queue every batch. */
  function CpuStep(s: State, ct: string, present: set<string>, tables: seq<string>): (r: State)
    ensures r.gpuQueue == s.gpuQueue && r.running == s.running
    ensures r.gpuInProgress == s.gpuInProgress && r.gpuAlive == s.gpuAlive
    ensures r.cpuQueued == s.cpuQueued || (
      && EndpointsExist(present, ct) && !CandidatesExist(present, ct) && ct !in s.lookupsStarted
      && r.lookupsStarted == s.lookupsStarted + {ct}
      && r.cpuQueued == s.cpuQueued + LookupJobs(ct, tables))
    ensures r.cpuQueued == s.cpuQueued ==> r.lookupsStarted == s.lookupsStarted || |LookupJobs(ct, tables)| == 0
    ensures |tables| > 0 ==> (r.cpuQueued != s.cpuQueued <==>
      EndpointsExist(present, ct) && !CandidatesExist(present, ct) && ct !in s.lookupsStarted)
  {
    if EndpointsExist(present, ct) && !CandidatesExist(present, ct) && ct !in s.lookupsStarted then
      s.(lookupsStarted := s.lookupsStarted + {ct}, cpuQueued := s.cpuQueued + LookupJobs(ct, tables))
    else s
  }

  /** One poll: the unfinished ciphertexts of the listing, in order, each the GPU part then
      the CPU part. `present` is the set of names in the working directory. */
  function Poll(s: State, cts: seq<string>, present: set<string>, tables: seq<string>): State
    decreases |cts|
  {
    if |cts| == 0 then s
    else Poll(CpuStep(GpuStep(s, cts[0], present), cts[0], present, tables), cts[1..], present, tables)
  }

  function PollListing(s: State, listing: seq<string>, tables: seq<string>): State
  {
    Poll(s, Unfinished(listing), set f | f in listing :: f, tables)
  }

  /** The GPU worker takes the job at the head of the queue. */
  function GpuTake(s: State): (r: State)
    requires s.gpuAlive && s.running.None? && |s.gpuQueue| > 0
    ensures r.running == Some(s.gpuQueue[0]) && r.gpuQueue == s.gpuQueue[1..]
  {
    s.(running := Some(s.gpuQueue[0]), gpuQueue := s.gpuQueue[1..])
  }

  /** The path the GPU worker reads after a successful check, as written: the ciphertext
      upper-cased. */
  function ReadResultPathAsWritten(workDir: string, ct: string): string
  {
    Join(workDir, Upper(ct) + ".result")
  }

  /** The path the GPU worker should read: the name candidate_check writes, the ciphertext
      as given. */
  function ReadResultPath(workDir: string, ct: string): (path: string)
    ensures |workDir| > 0 && workDir[|workDir| - 1] != '/' && (|ct| == 0 || ct[0] != '/') ==>
      path == workDir + "/" + ct + ".result"
  {
    Join(workDir, ct + ".result")
  }

  /** The end of the running GPU job with the check's exit code and the files present: a
      successful check opens the result file; when it is missing the open raises, the worker
      thread dies and the ciphertext stays in progress; otherwise the mark is cleared. */
  function GpuFinish(s: State, exit: int, files: set<string>, readPath: string): (r: State)
    requires s.gpuAlive && s.running.Some?
    ensures r.running.None? && r.gpuQueue == s.gpuQueue && r.lookupsStarted == s.lookupsStarted
    ensures r.gpuAlive ==> r.gpuInProgress == s.gpuInProgress - {s.running.value.ct}
    ensures !r.gpuAlive ==> r.gpuInProgress == s.gpuInProgress
    ensures !r.gpuAlive <==> s.running.value.kind == CandidateCheck && exit == 0 && readPath !in files
  {
    var job := s.running.value;
    if job.kind == CandidateCheck && exit == 0 && readPath !in files then
      s.(running := None, gpuAlive := false)
    else
      s.(running := None, gpuInProgress := s.gpuInProgress - {job.ct})
  }

  /** The GPU invariant: at most one job waits, every waiting or running job's ciphertext is
      marked in progress, and the waiting job is not for the running ciphertext. */
  predicate GpuInvariant(s: State)
  {
    && |s.gpuQueue| <= 1
    && (forall j | j in s.gpuQueue :: j.ct in s.gpuInProgress)
    && (s.running.Some? ==> s.running.value.ct in s.gpuInProgress
                            && forall j | j in s.gpuQueue :: j.ct != s.running.value.ct)
  }

  /** The number of times lookups were queued for a ciphertext: its jobs with batch number 0. */
  function Starts(jobs: seq<CpuJob>, ct: string): nat
  {
    if |jobs| == 0 then 0
    else (if jobs[0].ct == ct && jobs[0].batchNum == 0 then 1 else 0) + Starts(jobs[1..], ct)
  }

  /** The lookup invariant: every ciphertext's lookups were queued once if started and never
      otherwise. */
  ghost predicate LookupInvariant(s: State)
  {
    forall ct :: Starts(s.cpuQueued, ct) == if ct in s.lookupsStarted then 1 else 0
  }

  lemma InitialInvariants()
    ensures GpuInvariant(Initial) && LookupInvariant(Initial)
  {
  }

  lemma GpuStepInvariant(s: State, ct: string, present: set<string>)
    requires GpuInvariant(s)
    ensures GpuInvariant(GpuStep(s, ct, present))
  {
  }

  lemma {:induction false} StartsAppend(a: seq<CpuJob>, b: seq<CpuJob>, ct: string)
    ensures Starts(a + b, ct) == Starts(a, ct) + Starts(b, ct)
  {
    if |a| > 0 {
      assert (a + b)[1..] == a[1..] + b;
      StartsAppend(a[1..], b, ct);
    } else {
      assert a + b == b;
    }
  }

  /** The jobs of one start hold one batch numbered 0 for their ciphertext, none for any other,
      as long as there is a table. */
  lemma {:induction false} StartsOfLookupJobs(ct: string, tables: seq<string>, other: string)
    requires |tables| > 0
    ensures Starts(LookupJobs(ct, tables), other) == if other == ct then 1 else 0
  {
    var jobs := LookupJobs(ct, tables);
    assert |jobs| >= 1;
    assert jobs == [jobs[0]] + jobs[1..];
    StartsNone(jobs[1..], other);
  }

  lemma {:induction false} StartsNone(jobs: seq<CpuJob>, ct: string)
    requires forall i | 0 <= i < |jobs| :: jobs[i].batchNum > 0
    ensures Starts(jobs, ct) == 0
  {
    if |jobs| > 0 {
      StartsNone(jobs[1..], ct);
    }
  }

  lemma CpuStepInvariant(s: State, ct: string, present: set<string>, tables: seq<string>)
    requires LookupInvariant(s) && |tables| > 0
    ensures LookupInvariant(CpuStep(s, ct, present, tables))
  {
    var r := CpuStep(s, ct, present, tables);
    if r.cpuQueued != s.cpuQueued {
      forall other
        ensures Starts(r.cpuQueued, other) == if other in r.lookupsStarted then 1 else 0
      {
        StartsAppend(s.cpuQueued, LookupJobs(ct, tables), other);
        StartsOfLookupJobs(ct, tables, other);
      }
    }
  }

  /** A poll keeps both invariants. */
  lemma {:induction false} PollInvariant(s: State, cts: seq<string>, present: set<string>, tables: seq<string>)
    requires GpuInvariant(s) && LookupInvariant(s) && |tables| > 0
    ensures GpuInvariant(Poll(s, cts, present, tables)) && LookupInvariant(Poll(s, cts, present, tables))
    decreases |cts|
  {
    if |cts| > 0 {
      var g := GpuStep(s, cts[0], present);
      GpuStepInvariant(s, cts[0], present);
      assert LookupInvariant(g);
      CpuStepInvariant(g, cts[0], present, tables);
      assert GpuInvariant(CpuStep(g, cts[0], present, tables));
      PollInvariant(CpuStep(g, cts[0], present, tables), cts[1..], present, tables);
    }
  }

  /** The worker's steps keep both invariants. */
  lemma WorkerInvariant(s: State, exit: int, files: set<string>, readPath: string)
    requires GpuInvariant(s) && LookupInvariant(s) && s.gpuAlive
    ensures s.running.None? && |s.gpuQueue| > 0 ==> GpuInvariant(GpuTake(s)) && LookupInvariant(GpuTake(s))
    ensures s.running.Some? ==> GpuInvariant(GpuFinish(s, exit, files, readPath))
                                && LookupInvariant(GpuFinish(s, exit, files, readPath))
  {
  }

  /** A ciphertext in progress gets no new GPU job: in particular, one whose worker died on
      the missing result file is never scheduled again. */
  lemma InProgressBlocksGpu(s: State, ct: string, present: set<string>)
    requires ct in s.gpuInProgress
    ensures GpuStep(s, ct, present) == s
  {
  }

  /** Once a ciphertext's lookups have started, a poll never queues lookups for it again; so
      when its lookups produce no candidates file (none of its tables had a hit) and its
      endpoints exist, every later poll leaves the state as it is: it is never checked and
      never finished. */
  lemma StartedTargetStalls(s: State, ct: string, present: set<string>, tables: seq<string>)
    requires ct in s.lookupsStarted && EndpointsExist(present, ct) && !CandidatesExist(present, ct)
    ensures CpuStep(GpuStep(s, ct, present), ct, present, tables) == s
  {
  }

  /** Candidates rule out a precomputation, and both GPU kinds rule out lookups in the same
      poll: a ciphertext with candidates is only ever checked. */
  lemma CandidatesOnlyChecked(s: State, ct: string, present: set<string>, tables: seq<string>)
    requires CandidatesExist(present, ct)
    ensures var g := GpuStep(s, ct, present);
      && CpuStep(g, ct, present, tables) == g
      && (g.gpuQueue != s.gpuQueue ==> g.gpuQueue == [GpuJob(CandidateCheck, ct)])
  {
  }

  /** tables_done as written: min((batch_num + 1) * len(batch), total_tables). */
  function TablesDoneAsWritten(job: CpuJob): (done: nat)
    ensures done <= job.totalTables
  {
    Min((job.batchNum + 1) * |job.batch|, job.totalTables)
  }

  /** The number of tables in batches 0 .. batch_num: batch_num * BATCH_SIZE + len(batch). */
  function TablesDone(job: CpuJob): nat
  {
    job.batchNum * 10 + |job.batch|
  }

  /** For every queued lookup job the corrected count is the number of tables in its batch
      and the ones before it, so it never exceeds the total and reaches it on the last batch. */
  lemma TablesDoneCounts(ct: string, tables: seq<string>, i: nat)
    requires i < |LookupJobs(ct, tables)|
    ensures var job := LookupJobs(ct, tables)[i];
      && TablesDone(job) == |Concat(Batches(tables)[..i + 1])| <= |tables|
      && (i == |LookupJobs(ct, tables)| - 1 ==> TablesDone(job) == |tables|)
  {
    var bs := Batches(tables);
    BatchesPrefix(tables, i + 1);
    BatchesPartition(tables);
    if i == |bs| - 1 {
      assert bs[..i + 1] == bs;
    }
  }

  /** As written, the last batch of 25 tables (batch 2, five tables) reports 15 of 25 done. */
  lemma TablesDoneUnderReports(ct: string, tables: seq<string>)
    requires |tables| == 25
    ensures var job := LookupJobs(ct, tables)[2];
      && |LookupJobs(ct, tables)| == 3
      && TablesDoneAsWritten(job) == 15 && TablesDone(job) == 25
  {
    var bs := Batches(tables);
    assert |bs| == 3;
    assert bs[2] == tables[20..25];
  }

  /** As written, after candidate_check succeeds for "aa" in "working" it wrote
      working/aa.result, the worker opens working/AA.result, dies, and "aa" stays in
      progress. */
  lemma ResultPathCaseCounterexample(s: State)
    requires s.gpuAlive && s.running == Some(GpuJob(CandidateCheck, "aa"))
    ensures var written := CandidateCheck.ResultPath("working", "aa");
      && written == "working/aa.result"
      && ReadResultPathAsWritten("working", "aa") == "working/AA.result"
      && var r := GpuFinish(s, 0, {written}, ReadResultPathAsWritten("working", "aa"));
         !r.gpuAlive && (("aa" in r.gpuInProgress) == ("aa" in s.gpuInProgress))
  {
    assert Upper("aa") == "AA";
  }

  /** With the corrected path, the file a successful candidate_check wrote is the file the
      worker reads, so the worker survives and the in-progress mark is cleared. */
  lemma ResultPathAgrees(s: State, workDir: string, ct: string, files: set<string>)
    requires s.gpuAlive && s.running == Some(GpuJob(CandidateCheck, ct))
    requires |workDir| > 0 && workDir[|workDir| - 1] != '/' && (|ct| == 0 || ct[0] != '/')
    requires |workDir| + |ct| <= 503
    requires CandidateCheck.ResultPath(workDir, ct) in files
    ensures ReadResultPath(workDir, ct) == CandidateCheck.ResultPath(workDir, ct)
    ensures var r := GpuFinish(s, 0, files, ReadResultPath(workDir, ct));
      r.gpuAlive && ct !in r.gpuInProgress
  {
    assert workDir + "/" + (ct + ".result") == workDir + "/" + ct + ".result";
  }

  /** The corrected path does not save the worker in every case: when the candidate store
      cannot be loaded, candidate_check prints NOTFOUND 0 and exits 0 without writing a result
      file, so the worker's open fails and it dies even with the corrected name. */
  lemma UnloadableStoreKillsWorker(s: State, ct: string, workDir: string, host: CandidateCheck.Host,
                                   files: set<string>)
    requires s.gpuAlive && s.running == Some(GpuJob(CandidateCheck, ct))
    requires Ciphertext(ct).Some? && host.candidatesAt(workDir, ct).None?
    requires ReadResultPath(workDir, ct) !in files
    ensures var rep := CandidateCheck.CheckMain(["candidate_check", ct, workDir], host);
      && rep.exit == 0 && rep.stdout == ["NOTFOUND 0"] && rep.resultFile.None?
      && !GpuFinish(s, rep.exit, files, ReadResultPath(workDir, ct)).gpuAlive
  {
  }

  /** The daemon starts only when the table directory holds a table. */
  function Startup(walk: seq<WalkStep>): (r: Option<seq<string>>)
    ensures r.None? <==> |GetTables(walk)| == 0
    ensures r.Some? ==> r.value == GetTables(walk) && |r.value| > 0
  {
    var tables := GetTables(walk);
    if |tables| == 0 then None else Some(tables)
  }
}

=== FILE: daemon_files.dfy ===
/** The file-name rules of the daemon (daemon.py): which ciphertexts in the working directory
    are unfinished, which files are tables, and the sorted table list. Strings follow Python:
    str.replace replaces every occurrence from left to right, split(sep)[0] is the text before
    the first occurrence, sorted compares code points, and os.path.join adds a separator only
    when the first part does not end in one. */
module DaemonFiles {
  import opened LookupTool

  predicate DotFree(s: string)
  {
    forall i | 0 <= i < |s| :: s[i] != '.'
  }

  /** s.replace(pat, ""): every occurrence of pat, scanning from the left without overlap,
      removed. */
  function RemoveAll(s: string, pat: string): string
    requires |pat| > 0
    decreases |s|
  {
    if |s| < |pat| then s
    else if s[..|pat|] == pat then RemoveAll(s[|pat|..], pat)
    else [s[0]] + RemoveAll(s[1..], pat)
  }

  /** sep occurs in s at index i. */
  predicate At(s: string, sep: string, i: int)
  {
    0 <= i && i + |sep| <= |s| && s[i..i + |sep|] == sep
  }

  /** s.split(sep)[0]: the text before the first occurrence of sep, or all of s. */
  function Before(s: string, sep: string): (r: string)
    requires |sep| > 0
    ensures |r| <= |s| && r == s[..|r|]
    ensures r == s || At(s, sep, |r|)
    ensures forall i | 0 <= i < |r| :: !At(s, sep, i)
    decreases |s|
  {
    if |s| < |sep| then s
    else if s[..|sep|] == sep then []
    else
      var r := [s[0]] + Before(s[1..], sep);
      BeforeShift(s, sep, Before(s[1..], sep));
      r
  }

  /** Occurrences in s[1..] are occurrences in s one index later; with none at 0 in s, the
      facts about Before(s[1..], sep) carry over to [s[0]] + Before(s[1..], sep). */
  lemma BeforeShift(s: string, sep: string, t: string)
    requires |sep| > 0 && |s| >= |sep| && s[..|sep|] != sep
    requires |t| <= |s| - 1 && t == s[1..][..|t|]
    requires t == s[1..] || At(s[1..], sep, |t|)
    requires forall i | 0 <= i < |t| :: !At(s[1..], sep, i)
    ensures [s[0]] + t == s || At(s, sep, |t| + 1)
    ensures forall i | 0 <= i < |t| + 1 :: !At(s, sep, i)
  {
    forall i | 0 <= i <= |s| - 1 - |sep|
      ensures At(s[1..], sep, i) <==> At(s, sep, i + 1)
    {
      assert s[1..][i..i + |sep|] == s[i + 1..i + 1 + |sep|];
    }
    if t == s[1..] {
      assert [s[0]] + t == s;
    }
    forall i | 0 <= i < |t| + 1
      ensures !At(s, sep, i)
    {
      if i == 0 {
        assert s[0..|sep|] == s[..|sep|];
      } else if i + |sep| <= |s| {
        assert !At(s[1..], sep, i - 1);
        assert s[1..][i - 1..i - 1 + |sep|] == s[i..i + |sep|];
      }
    }
  }

  /** Removing a suffix from a name whose stem has no dot gives the stem. */
  lemma {:induction false} RemoveSuffix(stem: string, w: string)
    requires DotFree(stem) && DotFree(w)
    ensures RemoveAll(stem + "." + w, "." + w) == stem
    decreases |stem|
  {
    var s := stem + "." + w;
    if |stem| > 0 {
      assert s[0] == stem[0] != '.';
      assert s[1..] == stem[1..] + "." + w;
      RemoveSuffix(stem[1..], w);
      assert s == [stem[0]] + s[1..];
    } else {
      assert s == "." + w;
      assert s[|"." + w|..] == [];
    }
  }

  /** The text before the first ".w" of a name whose stem has no dot is the stem. */
  lemma {:induction false} BeforeSuffix(stem: string, w: string)
    requires DotFree(stem)
    ensures Before(stem + "." + w, "." + w) == stem
    decreases |stem|
  {
    var s := stem + "." + w;
    if |stem| > 0 {
      assert s[0] == stem[0] != '.';
      assert s[1..] == stem[1..] + "." + w;
      BeforeSuffix(stem[1..], w);
    } else {
      assert s[..|"." + w|] == "." + w;
    }
  }

  /** A name stem.ext with dot-free stem and extension ends in ".w" (w dot-free) exactly when
      its extension is w. */
  lemma SuffixIsExtension(stem: string, ext: string, w: string)
    requires DotFree(stem) && DotFree(ext) && DotFree(w)
    ensures EndsWith(stem + "." + ext, "." + w) <==> ext == w
  {
    var f := stem + "." + ext;
    var n := |f|;
    if ext == w {
      assert f[n - |w| - 1..] == "." + w;
    } else if |ext| > |w| {
      assert f[n - |w| - 1] == ext[|ext| - |w| - 1] != '.';
    } else if |ext| < |w| {
      assert f[n - |ext| - 1] == '.' != w[|w| - |ext| - 1];
      assert n - |w| - 1 >= 0 ==> f[n - |w| - 1..][|w| - |ext|] == f[n - |ext| - 1];
    } else {
      assert n - |w| - 1 >= 0 && f[n - |w|..] == ext;
      assert f[n - |w| - 1..][1..] == ext;
    }
  }

  /** The stems of the .ct files of a listing, in listing order; a .result file is never one. */
  function CtStems(listing: seq<string>): (stems: seq<string>)
  {
    if |listing| == 0 then []
    else
      var f := listing[0];
      (if EndsWith(f, ".result") || !EndsWith(f, ".ct") then [] else [Before(f, ".ct")])
      + CtStems(listing[1..])
  }

  /** The finished ciphertexts of a listing: every .result file with ".result" removed. */
  function FinishedStems(listing: seq<string>): (stems: seq<string>)
  {
    if |listing| == 0 then []
    else
      var f := listing[0];
      (if EndsWith(f, ".result") then [RemoveAll(f, ".result")] else []) + FinishedStems(listing[1..])
  }

  function Filter(s: seq<string>, out: seq<string>): (r: seq<string>)
    ensures forall x :: x in r <==> x in s && x !in out
  {
    if |s| == 0 then []
    else (if s[0] in out then [] else [s[0]]) + Filter(s[1..], out)
  }

  /** get_unfinished_cipher_texts over one listing of the working directory. */
  function Unfinished(listing: seq<string>): (cts: seq<string>)
    ensures forall ct :: ct in cts <==> ct in CtStems(listing) && ct !in FinishedStems(listing)
  {
    Filter(CtStems(listing), FinishedStems(listing))
  }

  lemma {:induction false} CtStemsMembers(listing: seq<string>, ct: string)
    ensures ct in CtStems(listing) <==> exists i | 0 <= i < |listing| ::
      EndsWith(listing[i], ".ct") && !EndsWith(listing[i], ".result") && Before(listing[i], ".ct") == ct
  {
    if |listing| > 0 {
      CtStemsMembers(listing[1..], ct);
      if exists i | 1 <= i < |listing| ::
        EndsWith(listing[i], ".ct") && !EndsWith(listing[i], ".result") && Before(listing[i], ".ct") == ct
      {
        var i :| 1 <= i < |listing| &&
          EndsWith(listing[i], ".ct") && !EndsWith(listing[i], ".result") && Before(listing[i], ".ct") == ct;
        assert listing[1..][i - 1] == listing[i];
      }
    }
  }

  lemma {:induction false} FinishedStemsMembers(listing: seq<string>, ct: string)
    ensures ct in FinishedStems(listing) <==> exists i | 0 <= i < |listing| ::
      EndsWith(listing[i], ".result") && RemoveAll(listing[i], ".result") == ct
  {
    if |listing| > 0 {
      FinishedStemsMembers(listing[1..], ct);
      if exists i | 1 <= i < |listing| :: EndsWith(listing[i], ".result") && RemoveAll(listing[i], ".result") == ct {
        var i :| 1 <= i < |listing| && EndsWith(listing[i], ".result") && RemoveAll(listing[i], ".result") == ct;
        assert listing[1..][i - 1] == listing[i];
      }
    }
  }

  /** A directory entry named stem.ext. */
  datatype Entry = Entry(stem: string, ext: string)

  function Name(e: Entry): string
  {
    e.stem + "." + e.ext
  }

  function Names(es: seq<Entry>): (names: seq<string>)
    ensures |names| == |es| && forall i | 0 <= i < |es| :: names[i] == Name(es[i])
  {
    seq(|es|, i requires 0 <= i < |es| => Name(es[i]))
  }

  predicate WellNamed(es: seq<Entry>)
  {
    forall i | 0 <= i < |es| :: DotFree(es[i].stem) && DotFree(es[i].ext)
  }

  /** How the daemon reads a well-named entry's name. */
  lemma ReadName(e: Entry)
    requires DotFree(e.stem) && DotFree(e.ext)
    ensures EndsWith(Name(e), ".ct") <==> e.ext == "ct"
    ensures EndsWith(Name(e), ".result") <==> e.ext == "result"
    ensures e.ext == "ct" ==> Before(Name(e), ".ct") == e.stem
    ensures e.ext == "result" ==> RemoveAll(Name(e), ".result") == e.stem
  {
    Extensions();
    ReadExtension(e, "ct");
    ReadExtension(e, "result");
  }

  lemma Extensions()
    ensures DotFree("ct") && "." + "ct" == ".ct"
    ensures DotFree("result") && "." + "result" == ".result"
  {
    assert "result"[0] == 'r' && "result"[1] == 'e' && "result"[2] == 's';
    assert "result"[3] == 'u' && "result"[4] == 'l' && "result"[5] == 't';
  }

  lemma ReadExtension(e: Entry, w: string)
    requires DotFree(e.stem) && DotFree(e.ext) && DotFree(w)
    ensures EndsWith(Name(e), "." + w) <==> e.ext == w
    ensures e.ext == w ==> Before(Name(e), "." + w) == e.stem
    ensures e.ext == w ==> RemoveAll(Name(e), "." + w) == e.stem
  {
    SuffixIsExtension(e.stem, e.ext, w);
    if e.ext == w {
      BeforeSuffix(e.stem, w);
      RemoveSuffix(e.stem, w);
    }
  }

  /** For a directory whose entries are all stem.ext with dot-free stem and extension, a
      dot-free ciphertext is unfinished exactly when ct.ct is present and ct.result is not. */
  lemma UnfinishedWellNamed(es: seq<Entry>, ct: string)
    requires WellNamed(es)
    ensures ct in Unfinished(Names(es)) <==> Entry(ct, "ct") in es && Entry(ct, "result") !in es
  {
    CtStemsWellNamed(es, ct);
    FinishedWellNamed(es, ct);
  }

  lemma CtStemsWellNamed(es: seq<Entry>, ct: string)
    requires WellNamed(es)
    ensures ct in CtStems(Names(es)) <==> Entry(ct, "ct") in es
  {
    var listing := Names(es);
    CtStemsMembers(listing, ct);
    if ct in CtStems(listing) {
      var i :| 0 <= i < |listing| &&
        EndsWith(listing[i], ".ct") && !EndsWith(listing[i], ".result") && Before(listing[i], ".ct") == ct;
      ReadName(es[i]);
      assert es[i] == Entry(ct, "ct");
    }
    if Entry(ct, "ct") in es {
      var i :| 0 <= i < |es| && es[i] == Entry(ct, "ct");
      ReadName(es[i]);
      assert EndsWith(listing[i], ".ct") && !EndsWith(listing[i], ".result") && Before(listing[i], ".ct") == ct;
    }
  }

  lemma FinishedWellNamed(es: seq<Entry>, ct: string)
    requires WellNamed(es)
    ensures ct in FinishedStems(Names(es)) <==> Entry(ct, "result") in es
  {
    var listing := Names(es);
    FinishedStemsMembers(listing, ct);
    if ct in FinishedStems(listing) {
      var i :| 0 <= i < |listing| && EndsWith(listing[i], ".result") && RemoveAll(listing[i], ".result") == ct;
      ReadName(es[i]);
      assert es[i] == Entry(ct, "result");
    }
    if Entry(ct, "result") in es {
      var i :| 0 <= i < |es| && es[i] == Entry(ct, "result");
      ReadName(es[i]);
      assert EndsWith(listing[i], ".result") && RemoveAll(listing[i], ".result") == ct;
    }
  }

  /** The daemon's table rule: f.endswith(".rt") or f.endswith(".rtc"). */
  predicate IsTableName(f: string)
  {
    EndsWith(f, ".rt") || EndsWith(f, ".rtc")
  }

  /** The daemon and the lookup tool agree on what a table is. */
  lemma SameTableRule(f: string)
    ensures IsTableName(f) <==> IsRainbowTable(f)
  {
  }

  /** os.path.join(root, f) for a file name f: f itself when absolute, otherwise root and f
      with one "/" between them unless root is empty or already ends in "/". */
  function Join(root: string, f: string): (path: string)
    ensures |f| > 0 && f[0] == '/' ==> path == f
    ensures !(|f| > 0 && f[0] == '/') && (|root| == 0 || root[|root| - 1] == '/') ==> path == root + f
    ensures !(|f| > 0 && f[0] == '/') && |root| > 0 && root[|root| - 1] != '/' ==> path == root + "/" + f
  {
    if |f| > 0 && f[0] == '/' then f
    else if |root| == 0 || root[|root| - 1] == '/' then root + f
    else root + "/" + f
  }

  /** One step of os.walk: a directory and the names of the files in it. */
  datatype WalkStep = WalkStep(root: string, files: seq<string>)

  function TablesIn(root: string, files: seq<string>): seq<string>
  {
    if |files| == 0 then []
    else (if IsTableName(files[0]) then [Join(root, files[0])] else []) + TablesIn(root, files[1..])
  }

  /** The loop of get_tables before sorting: the joined path of every table file, in walk
      order. */
  function WalkTables(walk: seq<WalkStep>): seq<string>
  {
    if |walk| == 0 then [] else TablesIn(walk[0].root, walk[0].files) + WalkTables(walk[1..])
  }

  lemma {:induction false} TablesInMembers(root: string, files: seq<string>, p: string)
    ensures p in TablesIn(root, files) <==> exists i | 0 <= i < |files| :: IsTableName(files[i]) && Join(root, files[i]) == p
  {
    if |files| > 0 {
      TablesInMembers(root, files[1..], p);
      if exists i | 1 <= i < |files| :: IsTableName(files[i]) && Join(root, files[i]) == p {
        var i :| 1 <= i < |files| && IsTableName(files[i]) && Join(root, files[i]) == p;
        assert files[1..][i - 1] == files[i];
      }
    }
  }

  /** A path is collected exactly when some walked directory holds a table file it joins to. */
  lemma {:induction false} WalkTablesMembers(walk: seq<WalkStep>, p: string)
    ensures p in WalkTables(walk) <==> exists k, i | 0 <= k < |walk| && 0 <= i < |walk[k].files| ::
      IsTableName(walk[k].files[i]) && Join(walk[k].root, walk[k].files[i]) == p
  {
    if |walk| > 0 {
      WalkTablesMembers(walk[1..], p);
      TablesInMembers(walk[0].root, walk[0].files, p);
      if exists k, i | 1 <= k < |walk| && 0 <= i < |walk[k].files| ::
        IsTableName(walk[k].files[i]) && Join(walk[k].root, walk[k].files[i]) == p
      {
        var k, i :| 1 <= k < |walk| && 0 <= i < |walk[k].files| &&
          IsTableName(walk[k].files[i]) && Join(walk[k].root, walk[k].files[i]) == p;
        assert walk[1..][k - 1] == walk[k];
      }
    }
  }

  /** Python's string order: code point by code point, a proper prefix first. */
  predicate StrLe(a: string, b: string)
    decreases |a|
  {
    |a| == 0 || (|b| > 0 && (a[0] < b[0] || (a[0] == b[0] && StrLe(a[1..], b[1..]))))
  }

  lemma {:induction false} StrLeTotal(a: string, b: string)
    ensures StrLe(a, b) || StrLe(b, a)
    decreases |a|
  {
    if |a| > 0 && |b| > 0 && a[0] == b[0] {
      StrLeTotal(a[1..], b[1..]);
    }
  }

  lemma {:induction false} StrLeTrans(a: string, b: string, c: string)
    requires StrLe(a, b) && StrLe(b, c)
    ensures StrLe(a, c)
    decreases |a|
  {
    if |a| > 0 && a[0] == b[0] && b[0] == c[0] {
      StrLeTrans(a[1..], b[1..], c[1..]);
    }
  }

  lemma {:induction false} StrLeAntisymmetric(a: string, b: string)
    requires StrLe(a, b) && StrLe(b, a)
    ensures a == b
    decreases |a|
  {
    if |a| > 0 {
      StrLeAntisymmetric(a[1..], b[1..]);
      assert a == [a[0]] + a[1..] && b == [b[0]] + b[1..];
    }
  }

  predicate Sorted(s: seq<string>)
  {
    forall i, j | 0 <= i < j < |s| :: StrLe(s[i], s[j])
  }

  /** Insert x into a sorted list after every element below it. */
  function Insert(x: string, s: seq<string>): (r: seq<string>)
    requires Sorted(s)
    ensures multiset(r) == multiset(s) + multiset{x}
    ensures Sorted(r)
  {
    if |s| == 0 then [x]
    else if StrLe(x, s[0]) then
      InsertFront(x, s);
      [x] + s
    else
      StrLeTotal(x, s[0]);
      assert s == [s[0]] + s[1..];
      var rest := Insert(x, s[1..]);
      InsertBehind(x, s, rest);
      [s[0]] + rest
  }

  lemma InsertFront(x: string, s: seq<string>)
    requires Sorted(s) && |s| > 0 && StrLe(x, s[0])
    ensures Sorted([x] + s)
  {
    forall j | 0 < j < |s|
      ensures StrLe(x, s[j])
    {
      StrLeTrans(x, s[0], s[j]);
    }
  }

  lemma InsertBehind(x: string, s: seq<string>, rest: seq<string>)
    requires Sorted(s) && |s| > 0 && StrLe(s[0], x)
    requires Sorted(rest) && multiset(rest) == multiset(s[1..]) + multiset{x}
    ensures Sorted([s[0]] + rest)
  {
    forall k | 0 <= k < |rest|
      ensures StrLe(s[0], rest[k])
    {
      assert rest[k] in multiset(rest);
      if rest[k] != x {
        assert rest[k] in multiset(s[1..]);
        var j :| 0 <= j < |s[1..]| && s[1..][j] == rest[k];
        assert s[j + 1] == rest[k];
      }
    }
    var r := [s[0]] + rest;
    forall i, j | 0 <= i < j < |r|
      ensures StrLe(r[i], r[j])
    {
      if i > 0 {
        assert r[i] == rest[i - 1] && r[j] == rest[j - 1];
      }
    }
  }

  /** sorted(): the elements in ascending order. */
  function Sort(s: seq<string>): (r: seq<string>)
    ensures multiset(r) == multiset(s) && Sorted(r)
  {
    if |s| == 0 then []
    else
      assert s == [s[0]] + s[1..];
      Insert(s[0], Sort(s[1..]))
  }

  lemma {:induction false} StrLeReflexive(a: string)
    ensures StrLe(a, a)
    decreases |a|
  {
    if |a| > 0 {
      StrLeReflexive(a[1..]);
    }
  }

  /** Two sorted arrangements of the same elements are equal, so Sort is the list Python's
      sorted returns, whatever algorithm computes it. */
  lemma {:induction false} SortedUnique(a: seq<string>, b: seq<string>)
    requires Sorted(a) && Sorted(b) && multiset(a) == multiset(b)
    ensures a == b
    decreases |a|
  {
    assert |a| == |multiset(a)| == |multiset(b)| == |b|;
    if |a| > 0 {
      SortedHeads(a, b);
      assert a == [a[0]] + a[1..] && b == [b[0]] + b[1..];
      assert multiset(a[1..]) == multiset(a) - multiset{a[0]};
      assert multiset(b[1..]) == multiset(b) - multiset{b[0]};
      SortedUnique(a[1..], b[1..]);
    }
  }

  /** The least element heads every sorted arrangement. */
  lemma SortedHeads(a: seq<string>, b: seq<string>)
    requires Sorted(a) && Sorted(b) && multiset(a) == multiset(b) && |a| > 0 && |b| > 0
    ensures a[0] == b[0]
  {
    assert a[0] in multiset(b) && b[0] in multiset(a);
    var i :| 0 <= i < |b| && b[i] == a[0];
    var j :| 0 <= j < |a| && a[j] == b[0];
    StrLeReflexive(a[0]);
    StrLeReflexive(b[0]);
    assert StrLe(b[0], b[i]);
    assert StrLe(a[0], a[j]);
    StrLeAntisymmetric(a[0], b[0]);
  }

  /** get_tables: the table files under the walked directories, sorted. */
  function GetTables(walk: seq<WalkStep>): (tables: seq<string>)
    ensures Sorted(tables) && multiset(tables) == multiset(WalkTables(walk))
  {
    Sort(WalkTables(walk))
  }

  /** A path is in the table list exactly when a walked directory holds a file with a table
      name that joins to it. */
  lemma GetTablesMembers(walk: seq<WalkStep>, p: string)
    ensures p in GetTables(walk) <==> exists k, i | 0 <= k < |walk| && 0 <= i < |walk[k].files| ::
      IsRainbowTable(walk[k].files[i]) && Join(walk[k].root, walk[k].files[i]) == p
  {
    WalkTablesMembers(walk, p);
    assert p in GetTables(walk) <==> p in multiset(GetTables(walk));
  }
}

=== FILE: hex.dfy ===
/** Hexadecimal text (src/utils.c and the printf formats of the command-line tools): nibble
    classification, hex_to_bytes, bytes_to_hex, and fixed-width upper-case numerals. */
module Hex {
  import opened Words
  import opened Wrappers

  const LowerDigits: string := "0123456789abcdef"
  const UpperDigits: string := "0123456789ABCDEF"

  predicate IsHexChar(c: char)
  {
    '0' <= c <= '9' || 'a' <= c <= 'f' || 'A' <= c <= 'F'
  }

  predicate IsLowerHexChar(c: char)
  {
    '0' <= c <= '9' || 'a' <= c <= 'f'
  }

  /** ASCII lower-casing; every other character is unchanged. */
  function ToLower(c: char): char
  {
    if 'A' <= c <= 'Z' then (c as int + 32) as char else c
  }

  function LowerString(s: string): (r: string)
    ensures |r| == |s| && forall i | 0 <= i < |s| :: r[i] == ToLower(s[i])
  {
    seq(|s|, i requires 0 <= i < |s| => ToLower(s[i]))
  }

  /** hex_char_to_nibble: the value of a hex digit, either case, and -1 for any other
      character. */
  function HexCharToNibble(c: char): (n: int)
    ensures -1 <= n < 16
    ensures n == -1 <==> !IsHexChar(c)
  {
    if '0' <= c <= '9' then c as int - '0' as int
    else if 'a' <= c <= 'f' then c as int - 'a' as int + 10
    else if 'A' <= c <= 'F' then c as int - 'A' as int + 10
    else -1
  }

  /** Every digit of either table reads back as its own position. */
  lemma NibbleOfDigit(i: nat)
    requires i < 16
    ensures IsLowerHexChar(LowerDigits[i]) && IsHexChar(UpperDigits[i])
    ensures HexCharToNibble(LowerDigits[i]) == i && HexCharToNibble(UpperDigits[i]) == i
  {
  }

  /** A hex character's value names its lower-case form in the digit table. */
  lemma NibbleNamesDigit(c: char)
    requires IsHexChar(c)
    ensures LowerDigits[HexCharToNibble(c)] == ToLower(c)
  {
  }

  /** The byte built from two nibbles: (high << 4) | low, which is 16 * high + low. */
  function NibblesToByte(high: nat, low: nat): (b: bv8)
    requires high < 16 && low < 16
    ensures b as nat == 16 * high + low
  {
    ByteOf(16 * high + low)
  }

  /** The pairs loop of hex_to_bytes over an even-length string: byte i is made of the
      nibbles of characters 2i and 2i+1; any non-hex character fails the whole call. */
  function DecodePairs(hex: string): (r: Option<seq<bv8>>)
    requires |hex| % 2 == 0
    ensures r.None? <==> exists i | 0 <= i < |hex| :: !IsHexChar(hex[i])
    ensures r.Some? ==> |r.value| == |hex| / 2
    decreases |hex|
  {
    if |hex| == 0 then Some([])
    else
      var high := HexCharToNibble(hex[0]);
      var low := HexCharToNibble(hex[1]);
      var rest := DecodePairs(hex[2..]);
      assert forall i | 2 <= i < |hex| :: hex[i] == hex[2..][i - 2];
      if high < 0 || low < 0 then None
      else if rest.None? then None
      else Some([NibblesToByte(high, low)] + rest.value)
  }

  /** Byte i of a successful decoding is made of the nibbles of characters 2i and 2i+1. */
  lemma DecodePairsValues(hex: string)
    requires |hex| % 2 == 0 && DecodePairs(hex).Some?
    ensures forall i | 0 <= i < |hex| / 2 ::
      DecodePairs(hex).value[i] as int == 16 * HexCharToNibble(hex[2 * i]) + HexCharToNibble(hex[2 * i + 1])
  {
    forall i | 0 <= i < |hex| / 2
      ensures DecodePairs(hex).value[i] as int == 16 * HexCharToNibble(hex[2 * i]) + HexCharToNibble(hex[2 * i + 1])
    {
      DecodePairsAt(hex, i);
    }
  }

  lemma {:induction false} DecodePairsAt(hex: string, i: nat)
    requires |hex| % 2 == 0 && DecodePairs(hex).Some? && i < |hex| / 2
    ensures DecodePairs(hex).value[i] as int == 16 * HexCharToNibble(hex[2 * i]) + HexCharToNibble(hex[2 * i + 1])
    decreases i
  {
    var tail := hex[2..];
    assert DecodePairs(hex).value == [NibblesToByte(HexCharToNibble(hex[0]), HexCharToNibble(hex[1]))] + DecodePairs(tail).value;
    if i > 0 {
      DecodePairsAt(tail, i - 1);
      assert hex[2 * i] == tail[2 * (i - 1)] && hex[2 * i + 1] == tail[2 * (i - 1) + 1];
    }
  }

  /** hex_to_bytes with an output buffer of outLen bytes: None (-1) for an odd length, for
      more bytes than fit, or for a non-hex character; otherwise the hex_len / 2 bytes. */
  function HexToBytes(hex: string, outLen: nat): (r: Option<seq<bv8>>)
    ensures r.None? <==> |hex| % 2 != 0 || |hex| / 2 > outLen || exists i | 0 <= i < |hex| :: !IsHexChar(hex[i])
    ensures r.Some? ==> |r.value| == |hex| / 2 <= outLen
    ensures r.Some? ==> forall i | 0 <= i < |hex| / 2 ::
      r.value[i] as int == 16 * HexCharToNibble(hex[2 * i]) + HexCharToNibble(hex[2 * i + 1])
  {
    if |hex| % 2 != 0 then None
    else if |hex| / 2 > outLen then None
    else
      var r := DecodePairs(hex);
      if r.None? then r
      else
        DecodePairsValues(hex);
        r
  }

  /** The digit for the high nibble of a byte, (b >> 4) & 0x0f. */
  function HighDigit(b: bv8): (c: char)
    ensures IsLowerHexChar(c) && HexCharToNibble(c) == b as int / 16
  {
    NibbleOfDigit(b as int / 16);
    LowerDigits[b as int / 16]
  }

  /** The digit for the low nibble of a byte, b & 0x0f. */
  function LowDigit(b: bv8): (c: char)
    ensures IsLowerHexChar(c) && HexCharToNibble(c) == b as int % 16
  {
    NibbleOfDigit(b as int % 16);
    LowerDigits[b as int % 16]
  }

  /** The loop of bytes_to_hex: characters 2i and 2i+1 are the high and the low nibble of
      byte i, taken from the lower-case digit table. */
  function EncodeHex(bytes: seq<bv8>): (s: string)
    ensures |s| == 2 * |bytes|
  {
    seq(2 * |bytes|, j requires 0 <= j < 2 * |bytes| =>
      if j % 2 == 0 then HighDigit(bytes[j / 2]) else LowDigit(bytes[j / 2]))
  }

  /** What the encoding means: every character is a lower-case hex digit, and the pair for
      byte i reads back as its high and low nibble. */
  lemma EncodeHexNibbles(bytes: seq<bv8>)
    ensures forall j | 0 <= j < 2 * |bytes| :: IsLowerHexChar(EncodeHex(bytes)[j])
    ensures forall i | 0 <= i < |bytes| ::
      && HexCharToNibble(EncodeHex(bytes)[2 * i]) == bytes[i] as int / 16
      && HexCharToNibble(EncodeHex(bytes)[2 * i + 1]) == bytes[i] as int % 16
  {
    forall i | 0 <= i < |bytes|
      ensures EncodeHex(bytes)[2 * i] == HighDigit(bytes[i])
      ensures EncodeHex(bytes)[2 * i + 1] == LowDigit(bytes[i])
    {
      EncodeHexAt(bytes, i);
    }
  }

  lemma EncodeHexAt(bytes: seq<bv8>, i: nat)
    requires i < |bytes|
    ensures EncodeHex(bytes)[2 * i] == HighDigit(bytes[i])
    ensures EncodeHex(bytes)[2 * i + 1] == LowDigit(bytes[i])
  {
    Halves(i);
  }

  lemma Halves(i: nat)
    ensures (2 * i) / 2 == i && (2 * i) % 2 == 0
    ensures (2 * i + 1) / 2 == i && (2 * i + 1) % 2 == 1
  {
  }

  /** bytes_to_hex with an output buffer of outLen characters: None (-1) exactly when the
      buffer cannot hold 2 * len characters and the terminating NUL; otherwise the buffer's
      written prefix, NUL included. */
  function BytesToHex(bytes: seq<bv8>, outLen: nat): (r: Option<string>)
    ensures r.None? <==> outLen < 2 * |bytes| + 1
    ensures r.Some? ==> |r.value| == 2 * |bytes| + 1 && r.value[2 * |bytes|] == '\0'
    ensures r.Some? ==> r.value[..2 * |bytes|] == EncodeHex(bytes)
  {
    if outLen < 2 * |bytes| + 1 then None
    else
      var s := EncodeHex(bytes) + ['\0'];
      assert s[..2 * |bytes|] == EncodeHex(bytes);
      Some(s)
  }

  /** Decoding the text bytes_to_hex writes gives the bytes back. */
  lemma BytesToHexRoundTrip(bytes: seq<bv8>, outLen: nat)
    requires BytesToHex(bytes, outLen).Some?
    ensures HexToBytes(BytesToHex(bytes, outLen).value[..2 * |bytes|], |bytes|) == Some(bytes)
  {
    var s := EncodeHex(bytes);
    EncodeHexNibbles(bytes);
    var r := HexToBytes(s, |bytes|);
    assert r.Some?;
    forall i | 0 <= i < |bytes|
      ensures r.value[i] == bytes[i]
    {
      SameByte(r.value[i], bytes[i]);
    }
    assert r.value == bytes;
  }

  lemma SameByte(a: bv8, b: bv8)
    requires a as int == 16 * (b as int / 16) + b as int % 16
    ensures a == b
  {
    NatOfByte(a);
    NatOfByte(b);
  }

  /** Encoding what hex_to_bytes decoded gives the input, lower-cased. */
  lemma HexToBytesRoundTrip(hex: string, outLen: nat)
    requires HexToBytes(hex, outLen).Some?
    ensures EncodeHex(HexToBytes(hex, outLen).value) == LowerString(hex)
  {
    var s := EncodeHex(HexToBytes(hex, outLen).value);
    forall j | 0 <= j < |hex|
      ensures s[j] == ToLower(hex[j])
    {
      HexToBytesRoundTripChar(hex, outLen, j);
    }
  }

  lemma HexToBytesRoundTripChar(hex: string, outLen: nat, j: nat)
    requires HexToBytes(hex, outLen).Some? && j < |hex|
    ensures EncodeHex(HexToBytes(hex, outLen).value)[j] == ToLower(hex[j])
  {
    var i := j / 2;
    HexToBytesRoundTripAt(hex, outLen, i);
    if j % 2 == 0 {
      assert j == 2 * i;
    } else {
      assert j == 2 * i + 1;
    }
  }

  /** The round trip for the pair of characters of byte i. */
  lemma HexToBytesRoundTripAt(hex: string, outLen: nat, i: nat)
    requires HexToBytes(hex, outLen).Some? && i < |hex| / 2
    ensures var s := EncodeHex(HexToBytes(hex, outLen).value);
      s[2 * i] == ToLower(hex[2 * i]) && s[2 * i + 1] == ToLower(hex[2 * i + 1])
  {
    var bs := HexToBytes(hex, outLen).value;
    var s := EncodeHex(bs);
    var hi, lo := HexCharToNibble(hex[2 * i]), HexCharToNibble(hex[2 * i + 1]);
    assert IsHexChar(hex[2 * i]) && IsHexChar(hex[2 * i + 1]);
    NibblesOfByte(bs[i], hi, lo);
    EncodeHexAt(bs, i);
    SameNibble(s[2 * i], hex[2 * i]);
    SameNibble(s[2 * i + 1], hex[2 * i + 1]);
  }

  lemma NibblesOfByte(b: bv8, hi: int, lo: int)
    requires 0 <= hi < 16 && 0 <= lo < 16 && b as int == 16 * hi + lo
    ensures b as int / 16 == hi && b as int % 16 == lo
  {
  }

  /** A lower-case hex character is the lower-case form of every hex character with its value. */
  lemma SameNibble(a: char, b: char)
    requires IsLowerHexChar(a) && IsHexChar(b) && HexCharToNibble(a) == HexCharToNibble(b)
    ensures a == ToLower(b)
  {
  }

  /** The printf conversion %0<width>X of a value that fits: `width` upper-case hex digits,
      most significant first. */
  function UpperHex(x: nat, width: nat): (s: string)
    ensures |s| == width
  {
    var ds := Digits(x, 16, width);
    DigitsBelowCharset(x, 16, width);
    seq(width, i requires 0 <= i < width => UpperDigits[ds[i]])
  }

  /** Eight hex digits hold a u32 and sixteen a u64. */
  lemma Pow16Values()
    ensures Pow(16, 8) == TWO_TO_32 && Pow(16, 16) == TWO_TO_64
  {
    assert Pow(16, 2) == 256;
    PowAdd(16, 2, 2);
    PowAdd(16, 4, 4);
    PowAdd(16, 8, 8);
  }

  /** The value of a string of hex digits, most significant first. */
  function HexValue(s: string): nat
    requires forall i | 0 <= i < |s| :: IsHexChar(s[i])
  {
    BigEndianValue(seq(|s|, i requires 0 <= i < |s| => HexCharToNibble(s[i]) as nat), 16)
  }

  /** Reading an upper-case numeral back gives the value it was printed from. */
  lemma UpperHexRoundTrip(x: nat, width: nat)
    requires x < Pow(16, width)
    ensures forall i | 0 <= i < width :: IsHexChar(UpperHex(x, width)[i])
    ensures HexValue(UpperHex(x, width)) == x
  {
    var ds := Digits(x, 16, width);
    DigitsBelowCharset(x, 16, width);
    var s := UpperHex(x, width);
    forall i | 0 <= i < width
      ensures IsHexChar(s[i]) && HexCharToNibble(s[i]) as nat == ds[i]
    {
      NibbleOfDigit(ds[i]);
    }
    assert seq(|s|, i requires 0 <= i < |s| => HexCharToNibble(s[i]) as nat) == ds;
    DigitsValue(x, 16, width);
  }
}

=== FILE: lookup.dfy ===
/** Chain walks over the byte#7-7 index space (src/lookup.c): the parameters of the lookup,
    the false-alarm check verify_chain, the backwards search lookup_crack, and the sequential
    counterparts of the two GPU kernels (endpoint precomputation and the false-alarm check).
    The walk functions are stated over a Chains value (hash oracle, plaintext enumeration,
    reduction, chain length), so every lemma about them holds for any such choice;
    LookupChains is the choice lookup_init_params sets up. */
module Lookup {
  import opened Words
  import opened Wrappers
  import opened NetNtlmV1
  import opened Rainbow
  import opened Table

  /** lookup_params: the plaintext space table has eight entries, for lengths 0..7. */
  datatype LookupParams = LookupParams(charsetLen: u32, lenMin: u32, lenMax: u32, chainLen: u32,
                                       offset: u32, total: u64, space: seq<u64>)

  /** lookup_init_params: 256 symbols, lengths 7..7, reduction offset 0, and the space total
      and table that fill_plaintext_space_table produces for them. */
  function LookupInitParams(chainLen: u32): (p: LookupParams)
    ensures p.charsetLen == 256 && p.lenMin == 7 && p.lenMax == 7 && p.offset == 0
    ensures p.chainLen == chainLen
    ensures p.space == SpaceTable(p.charsetLen, p.lenMin, p.lenMax) && p.total == p.space[p.lenMax]
    ensures p.total == TWO_TO_56
  {
    ByteSevenSpaceTable();
    LookupParams(256, 7, 7, chainLen, 0, TWO_TO_56, [0, 0, 0, 0, 0, 0, 0, TWO_TO_56])
  }

  /** The parameters every caller passes: those of lookup_init_params for some chain length
      of at least 2 (the first position tried is chain_len - 2, a uint32_t). */
  predicate Initialised(p: LookupParams)
  {
    && p.charsetLen == 256 && p.lenMin == 7 && p.lenMax == 7 && p.offset == 0
    && p.total == TWO_TO_56 && p.space == [0, 0, 0, 0, 0, 0, 0, TWO_TO_56]
    && p.chainLen >= 2
  }

  /** index_to_plaintext with the lookup parameters: always 7 key bytes. */
  function KeyOf(p: LookupParams, index: u64): Key56
    requires Initialised(p)
  {
    IndexToPlaintext(index, p.charsetLen, p.lenMin, p.lenMax, p.space)
  }

  /** The reduction of hash_to_index with the lookup parameters, at column `col`. */
  function Reduce(p: LookupParams, hash: Block, col: u32): u64
    requires Initialised(p)
  {
    HashToIndex(hash, p.offset, p.total, col)
  }

  /** Every index below 2^56 names a distinct key: reading the key back as a base-256 number
      gives the index. */
  lemma KeyOfRoundTrip(p: LookupParams, index: u64)
    requires Initialised(p) && index < TWO_TO_56
    ensures BigEndianValue(ByteValues(KeyOf(p, index)), 256) == index
  {
    ByteSevenSpaceTable();
    ByteSevenPlaintext(index);
  }

  /** What a chain walk is made of: the hash oracle, the plaintext numbered by an index, the
      reduction of a hash in a column, and the chain length. */
  datatype Chains = Chains(H: Oracle, plain: u64 -> Key56, reduce: (Block, u32) -> u64, chainLen: u32)

  /** The walk of lookup.c: index_to_plaintext and hash_to_index with the lookup parameters. */
  function LookupChains(H: Oracle, p: LookupParams): (c: Chains)
    requires Initialised(p)
    ensures c.H == H && c.chainLen == p.chainLen && c.chainLen >= 2
  {
    Chains(H, index => KeyOf(p, index), (hash, col) => Reduce(p, hash, col), p.chainLen)
  }

  /** The lookup walk's plaintexts are those of index_to_plaintext and its steps those of
      hash_to_index, which stay inside the 2^56 plaintext space. */
  lemma LookupChainsParts(H: Oracle, p: LookupParams, index: u64, hash: Block, col: u32)
    requires Initialised(p)
    ensures LookupChains(H, p).plain(index) == KeyOf(p, index)
    ensures LookupChains(H, p).reduce(hash, col) == Reduce(p, hash, col)
    ensures LookupChains(H, p).reduce(hash, col) < TWO_TO_56
  {
  }

  /** What the 8-byte buffer handed to netntlmv1_hash holds: the expansion of the key
      (setup_des_key was called first), or bytes that were never written. */
  datatype Keying = Expanded | Uninitialised(garbage: Block)

  function KeyBuffer(keying: Keying, key: Key56): Block
  {
    match keying
    case Expanded => SetupDesKey(key)
    case Uninitialised(garbage) => garbage
  }

  /** The hash of the plaintext numbered `index`. */
  function ChainHash(c: Chains, keying: Keying, index: u64): Block
  {
    c.H(KeyBuffer(keying, c.plain(index)))
  }

  /** Columns lo .. hi-1 of a chain walk: each column hashes the current plaintext (with
      setup_des_key) and reduces the hash with its own column number. */
  function WalkFrom(c: Chains, index: u64, lo: nat, hi: nat): u64
    requires lo <= hi <= TWO_TO_32
    decreases hi - lo
  {
    if lo == hi then index else WalkFrom(c, c.reduce(ChainHash(c, Expanded, index), lo), lo + 1, hi)
  }

  /** The index in column `col` of the chain that starts at `start`. */
  function Column(c: Chains, start: u64, col: nat): u64
    requires col <= TWO_TO_32
  {
    WalkFrom(c, start, 0, col)
  }

  /** Walking a..b and then b..d is walking a..d. */
  lemma {:induction false} WalkCompose(c: Chains, x: u64, a: nat, b: nat, d: nat)
    requires a <= b <= d <= TWO_TO_32
    ensures WalkFrom(c, x, a, d) == WalkFrom(c, WalkFrom(c, x, a, b), b, d)
    decreases b - a
  {
    if a < b {
      WalkCompose(c, c.reduce(ChainHash(c, Expanded, x), a), a + 1, b, d);
    }
  }

  /** The end index lookup_crack computes for position `pos`: reduce the ciphertext with
      `pos`, then walk columns pos+1 .. chain_len-2. */
  function EndpointFor(c: Chains, target: Block, pos: nat): u64
    requires 2 <= c.chainLen && pos <= c.chainLen - 2
  {
    WalkFrom(c, c.reduce(target, pos), pos + 1, c.chainLen - 1)
  }

  /** Endpoint consistency: when the chain from `start` hashes to the ciphertext in column
      `pos`, the end index computed for `pos` is that chain's end index. */
  lemma EndpointOfChain(c: Chains, start: u64, pos: nat, target: Block)
    requires 2 <= c.chainLen && pos <= c.chainLen - 2
    requires ChainHash(c, Expanded, Column(c, start, pos)) == target
    ensures EndpointFor(c, target, pos) == Column(c, start, c.chainLen - 1)
  {
    WalkCompose(c, start, 0, pos, c.chainLen - 1);
  }

  /** The loop of verify_chain from column `pos` on, with the current index. */
  function VerifyFrom(c: Chains, keying: Keying, index: u64, pos: nat, expectedPos: nat,
                      target: Block): Option<Key56>
    requires pos <= expectedPos < TWO_TO_32
    decreases expectedPos - pos
  {
    var key := c.plain(index);
    var hash := c.H(KeyBuffer(keying, key));
    if pos == expectedPos then
      if hash == target then Some(key) else None
    else VerifyFrom(c, keying, c.reduce(hash, pos), pos + 1, expectedPos, target)
  }

  /** verify_chain: replay the chain from start_index up to column expected_pos and compare
      that column's hash with the ciphertext; Some(key) is the 1 result with key_out set,
      None the 0 result. `keying` says what the hashed buffer holds. */
  function VerifyChain(c: Chains, keying: Keying, start: u64, expectedPos: u32,
                       target: Block): Option<Key56>
  {
    VerifyFrom(c, keying, start, 0, expectedPos, target)
  }

  lemma {:induction false} VerifyFromExpanded(c: Chains, x: u64, pos: nat, e: nat, target: Block)
    requires pos <= e < TWO_TO_32
    ensures var y := WalkFrom(c, x, pos, e);
      VerifyFrom(c, Expanded, x, pos, e, target)
      == if ChainHash(c, Expanded, y) == target then Some(c.plain(y)) else None
    decreases e - pos
  {
    if pos < e {
      VerifyFromExpanded(c, c.reduce(ChainHash(c, Expanded, x), pos), pos + 1, e, target);
    }
  }

  /** With the key expanded, verify_chain accepts exactly when the chain's hash in column
      expected_pos is the ciphertext, and then yields that column's plaintext. */
  lemma VerifyChainSpec(c: Chains, start: u64, e: u32, target: Block)
    ensures var y := Column(c, start, e);
      VerifyChain(c, Expanded, start, e, target)
      == if ChainHash(c, Expanded, y) == target then Some(c.plain(y)) else None
  {
    VerifyFromExpanded(c, start, 0, e, target);
  }

  lemma {:induction false} VerifyFromUninitialised(c: Chains, g: Block, x: u64, pos: nat, e: nat,
                                                   target: Block)
    requires pos <= e < TWO_TO_32
    ensures VerifyFrom(c, Uninitialised(g), x, pos, e, target).Some? <==> c.H(g) == target
    ensures pos < e ==> VerifyFrom(c, Uninitialised(g), x, pos, e, target)
                        == VerifyFrom(c, Uninitialised(g), c.reduce(c.H(g), e - 1), e, e, target)
    decreases e - pos
  {
    if pos < e {
      VerifyFromUninitialised(c, g, c.reduce(c.H(g), pos), pos + 1, e, target);
    }
  }

  /** verify_chain as written hashes the never-written key_64 buffer in every column: whether
      it accepts depends only on the oracle's value at that buffer, never on the chain, and
      past column 0 the key it yields does not depend on the start index. */
  lemma VerifyChainAsWritten(c: Chains, g: Block, start: u64, e: u32, target: Block)
    ensures VerifyChain(c, Uninitialised(g), start, e, target).Some? <==> c.H(g) == target
    ensures e > 0 ==> VerifyChain(c, Uninitialised(g), start, e, target)
                      == (if c.H(g) == target then Some(c.plain(c.reduce(c.H(g), e - 1))) else None)
  {
    VerifyFromUninitialised(c, g, start, 0, e, target);
  }

  /** Concrete disagreement: with the identity oracle and a stale buffer whose low bit is set,
      the written code rejects the true chain at column 0 (no expanded key has that bit set),
      and accepts a chain whose hash is not the ciphertext. */
  lemma UninitialisedKeyCounterexample(plain: u64 -> Key56, reduce: (Block, u32) -> u64,
                                       chainLen: u32, start: u64)
    ensures var c := Chains(b => b, plain, reduce, chainLen);
      var g: Block := [1, 0, 0, 0, 0, 0, 0, 0];
      && VerifyChain(c, Expanded, start, 0, SetupDesKey(plain(start))) == Some(plain(start))
      && VerifyChain(c, Uninitialised(g), start, 0, SetupDesKey(plain(start))) == None
      && VerifyChain(c, Uninitialised(g), start, 0, g).Some?
      && VerifyChain(c, Expanded, start, 0, g) == None
  {
    var g: Block := [1, 0, 0, 0, 0, 0, 0, 0];
    var d := SetupDesKey(plain(start));
    assert d[0] & 1 == 0;
    assert g[0] & 1 == 1;
  }

  /** The loop of lookup_crack from position `pos` down to `lowest`: compute the end index for
      the position, search the table, and on a hit run verify_chain; a verified hit ends the
      search with its key. */
  function CrackDown(c: Chains, keying: Keying, table: RtTable, target: Block,
                     pos: int, lowest: nat): (r: Option<Key56>)
    requires 2 <= c.chainLen && Searchable(table) && pos <= c.chainLen - 2
    ensures keying.Expanded? && r.Some? ==> c.H(SetupDesKey(r.value)) == target
    ensures keying.Uninitialised? && r.Some? ==> c.H(keying.garbage) == target
    decreases pos + 1 - lowest
  {
    if pos < lowest then None
    else
      var hit := Search(table, EndpointFor(c, target, pos));
      var verified := if hit.found then VerifyChain(c, keying, hit.start, pos, target) else None;
      if verified.Some? then
        VerifyChainSpec(c, hit.start, pos, target);
        if keying.Uninitialised? then
          VerifyChainAsWritten(c, keying.garbage, hit.start, pos, target);
          verified
        else verified
      else CrackDown(c, keying, table, target, pos - 1, lowest)
  }

  /** lookup_crack as written: positions chain_len-2 down to 1 (position 0 is never tried), and
      the hash in verify_chain is taken of the stale buffer `garbage`. Some(key) is the 0
      result with key_out set, None the -1 result. One `garbage` block stands for key_64 in
      every verify_chain call. As written, a key is returned only when the stale buffer, not
      the key, hashes to the ciphertext. */
  function LookupCrackAsWritten(c: Chains, garbage: Block, table: RtTable, ciphertext: Block): (r: Option<Key56>)
    requires 2 <= c.chainLen && Searchable(table)
    ensures r.Some? ==> c.H(garbage) == ciphertext
  {
    CrackDown(c, Uninitialised(garbage), table, ciphertext, c.chainLen - 2, 1)
  }

  /** lookup_crack as intended: every position chain_len-2 down to 0, with verify_chain
      hashing the expanded key. A key is returned only if it hashes to the ciphertext. */
  function LookupCrack(c: Chains, table: RtTable, ciphertext: Block): (r: Option<Key56>)
    requires 2 <= c.chainLen && Searchable(table)
    ensures r.Some? ==> c.H(SetupDesKey(r.value)) == ciphertext
  {
    CrackDown(c, Expanded, table, ciphertext, c.chainLen - 2, 0)
  }

  /** The table records chain `m` faithfully: its end is the start's column chain_len-1. */
  predicate HoldsChain(c: Chains, table: RtTable, m: nat)
    requires 2 <= c.chainLen && Searchable(table)
  {
    m < table.numChains && End(table, m) == Column(c, Start(table, m), c.chainLen - 1)
  }

  /** Tables as generated: ascending, pairwise distinct end indices. */
  predicate WellFormed(table: RtTable)
  {
    && Searchable(table) && Sorted(table)
    && forall i, j | 0 <= i < j < table.numChains :: End(table, i) != End(table, j)
  }

  lemma {:induction false} CrackDownComplete(c: Chains, table: RtTable, target: Block,
                                             top: int, lowest: nat, m: nat, pos: nat)
    requires 2 <= c.chainLen && WellFormed(table) && HoldsChain(c, table, m)
    requires lowest <= pos <= top <= c.chainLen - 2
    requires ChainHash(c, Expanded, Column(c, Start(table, m), pos)) == target
    ensures CrackDown(c, Expanded, table, target, top, lowest).Some?
    decreases top - pos
  {
    if top == pos {
      ChainPositionVerifies(c, table, target, m, pos);
    } else {
      var hit := Search(table, EndpointFor(c, target, top));
      var verified := if hit.found then VerifyChain(c, Expanded, hit.start, top, target) else None;
      if verified.None? {
        CrackDownComplete(c, table, target, top - 1, lowest, m, pos);
      }
    }
  }

  /** At the chain's own position the search finds the chain and verify_chain accepts it. */
  lemma ChainPositionVerifies(c: Chains, table: RtTable, target: Block, m: nat, pos: nat)
    requires 2 <= c.chainLen && WellFormed(table) && HoldsChain(c, table, m)
    requires pos <= c.chainLen - 2
    requires ChainHash(c, Expanded, Column(c, Start(table, m), pos)) == target
    ensures Search(table, EndpointFor(c, target, pos)) == Hit(true, Start(table, m))
    ensures VerifyChain(c, Expanded, Start(table, m), pos, target).Some?
  {
    var s := Start(table, m);
    EndpointOfChain(c, s, pos, target);
    SearchUnique(table, EndpointFor(c, target, pos), m);
    VerifyChainSpec(c, s, pos, target);
  }

  /** Inverse consistency: if a faithful chain of a well-formed table hashes to the ciphertext in
      any column 0 .. chain_len-2, lookup_crack finds a key (one that hashes to it). */
  lemma LookupCrackComplete(c: Chains, table: RtTable, ciphertext: Block, m: nat, pos: nat)
    requires 2 <= c.chainLen && WellFormed(table) && HoldsChain(c, table, m)
    requires pos <= c.chainLen - 2
    requires ChainHash(c, Expanded, Column(c, Start(table, m), pos)) == ciphertext
    ensures LookupCrack(c, table, ciphertext).Some?
  {
    CrackDownComplete(c, table, ciphertext, c.chainLen - 2, 0, m, pos);
  }

  /** Concrete disagreement for the skipped column: with chain_len 2 the only column a
      ciphertext can sit in is 0; the one-record table holding the chain from `start` cracks
      its column-0 hash as intended, while the written loop tries no position at all. */
  lemma ColumnZeroCounterexample(H: Oracle, plain: u64 -> Key56, reduce: (Block, u32) -> u64,
                                 garbage: Block, start: u64)
    ensures var c := Chains(H, plain, reduce, 2);
      var table := RtTable(Some([start, Column(c, start, 1)]), 1);
      var ciphertext := ChainHash(c, Expanded, start);
      && LookupCrack(c, table, ciphertext).Some?
      && LookupCrackAsWritten(c, garbage, table, ciphertext) == None
  {
    var c := Chains(H, plain, reduce, 2);
    var table := RtTable(Some([start, Column(c, start, 1)]), 1);
    assert WellFormed(table);
    assert HoldsChain(c, table, 0);
    LookupCrackComplete(c, table, ChainHash(c, Expanded, start), 0, 0);
  }

  /** A candidate: a chain start and the column the ciphertext is believed to sit in. */
  datatype Candidate = Candidate(start: u64, pos: u32)

  /** Sequential counterpart of the endpoint precomputation kernel: the end index for every
      position 0 .. chain_len-2, in position order. */
  function Endpoints(c: Chains, ciphertext: Block): (ends: seq<u64>)
    requires 2 <= c.chainLen
    ensures |ends| == c.chainLen - 1
    ensures forall pos | 0 <= pos < |ends| :: ends[pos] == EndpointFor(c, ciphertext, pos)
  {
    seq(c.chainLen - 1, pos requires 0 <= pos < c.chainLen - 1 => EndpointFor(c, ciphertext, pos))
  }

  /** Sequential counterpart of the false-alarm kernel: the key of the first candidate that
      the corrected chain check (VerifyChain with the key expanded) accepts. */
  function CheckCandidates(c: Chains, ciphertext: Block, cands: seq<Candidate>): (r: Option<Key56>)
    ensures r.Some? ==> c.H(SetupDesKey(r.value)) == ciphertext
    ensures r.None? <==> forall i | 0 <= i < |cands| ::
      VerifyChain(c, Expanded, cands[i].start, cands[i].pos, ciphertext).None?
  {
    if |cands| == 0 then None
    else
      var v := VerifyChain(c, Expanded, cands[0].start, cands[0].pos, ciphertext);
      VerifyChainSpec(c, cands[0].start, cands[0].pos, ciphertext);
      var rest := CheckCandidates(c, ciphertext, cands[1..]);
      assert forall i | 1 <= i < |cands| :: cands[i] == cands[1..][i - 1];
      if v.Some? then v else rest
  }
}

=== FILE: lookup_tool.dfy ===
/** The GPU lookup tool (src/main.c): the table-name rule, the end-index cache file, the
    candidate collection over all tables, and the decision flow of main from the arguments
    to the exit code. The GPU kernels enter through their sequential counterparts in Lookup;
    the file system, the directory walk and the GPU's availability are inputs. */
module LookupTool {
  import opened Words
  import opened Wrappers
  import opened NetNtlmV1
  import opened Rainbow
  import opened Table
  import opened Hex
  import opened Lookup
  import opened Collect

  const CHAIN_LEN: nat := 881689
  const MAX_TABLES: nat := 4096
  const MAX_CANDIDATES: nat := 4 * 1024 * 1024
  /** The number of end indices: one per position 0 .. CHAIN_LEN - 2. */
  const NUM_INDICES: nat := CHAIN_LEN - 1

  predicate EndsWith(s: string, suffix: string)
  {
    |suffix| <= |s| && s[|s| - |suffix|..] == suffix
  }

  /** is_rainbow_table: compare the last three characters with ".rt" and, for names of at
      least four characters, the last four with ".rtc". */
  function IsRainbowTable(name: string): (r: bool)
    ensures r <==> EndsWith(name, ".rt") || EndsWith(name, ".rtc")
  {
    var n := |name|;
    assert |".rt"| == 3 && |".rtc"| == 4;
    if n < 3 then false
    else name[n - 3..] == ".rt" || (n >= 4 && name[n - 4..] == ".rtc")
  }

  /** snprintf into a buffer of `size` characters: at most size - 1 characters and a NUL. */
  function Truncate(s: string, size: nat): (r: string)
    requires size > 0
    ensures |r| <= size - 1 && |r| <= |s| && r == s[..|r|]
    ensures |s| < size ==> r == s
    ensures |s| >= size ==> |r| == size - 1
  {
    if |s| < size then s else s[..size - 1]
  }

  /** get_cache_path with the 256-character buffer of load_cache and save_cache. */
  function CachePath(ctHex: string): (path: string)
    ensures |path| <= 255 && |path| <= |ctHex| + 10 && path == ("cache/" + ctHex + ".bin")[..|path|]
    ensures |ctHex| <= 245 ==> path == "cache/" + ctHex + ".bin"
    ensures |ctHex| > 245 ==> path == ("cache/" + ctHex + ".bin")[..255]
  {
    Truncate("cache/" + ctHex + ".bin", 256)
  }

  /** The uint64_t words of an array as fwrite lays them out on a little-endian host. */
  function WordsBytes(ws: seq<u64>): (bs: seq<bv8>)
    ensures |bs| == 8 * |ws|
  {
    if |ws| == 0 then [] else LittleEndianBytes(ws[0], 8) + WordsBytes(ws[1..])
  }

  /** Reading whole words back from their bytes gives the words. */
  lemma {:induction false} WordsBytesRoundTrip(ws: seq<u64>)
    ensures Words64(WordsBytes(ws)) == ws
  {
    if |ws| > 0 {
      var bs := WordsBytes(ws);
      WordsBytesRoundTrip(ws[1..]);
      Pow256Values();
      LittleEndianRoundTrip(ws[0], 8);
      assert bs[..8] == LittleEndianBytes(ws[0], 8);
      assert bs[8..] == WordsBytes(ws[1..]);
      var r := Words64(bs);
      assert r[0] == LittleEndian(bs[..8]) == ws[0];
      Words64Tail(bs);
    }
  }

  /** The words after the first are the words of the bytes after the first eight. */
  lemma Words64Tail(bs: seq<bv8>)
    requires |bs| >= 8
    ensures Words64(bs) == [Word64(bs[..8])] + Words64(bs[8..])
  {
  }

  /** save_cache: the file holds CHAIN_LEN and num_indices as uint32_t, then the end indices
      as uint64_t, all little-endian. */
  function SaveCache(ends: seq<u64>): (file: seq<bv8>)
    requires |ends| < TWO_TO_32
    ensures |file| == 8 + 8 * |ends|
  {
    LittleEndianBytes(CHAIN_LEN, 4) + LittleEndianBytes(|ends|, 4) + WordsBytes(ends)
  }

  /** load_cache: None (-1) when the file cannot be opened, when either header word is
      missing or differs from CHAIN_LEN and num_indices, or when fewer than num_indices words
      follow; otherwise the first num_indices words after the header. */
  function LoadCache(file: Option<seq<bv8>>, numIndices: u32): (r: Option<seq<u64>>)
    ensures r.None? <==> || file.None? || |file.value| < 8
                         || LittleEndian(file.value[..4]) != CHAIN_LEN
                         || LittleEndian(file.value[4..8]) != numIndices
                         || |file.value| < 8 + 8 * numIndices
    ensures r.Some? ==> |r.value| == numIndices && forall i | 0 <= i < numIndices ::
      r.value[i] == LittleEndian(file.value[8 + 8 * i..16 + 8 * i])
  {
    match file
    case None => None
    case Some(bytes) =>
      if |bytes| < 8 then None
      else if LittleEndian(bytes[..4]) != CHAIN_LEN || LittleEndian(bytes[4..8]) != numIndices then None
      else if |bytes| - 8 < 8 * numIndices then None
      else
        PayloadWords(bytes, numIndices);
        Some(Words64(bytes[8..8 + 8 * numIndices]))
  }

  /** The words after the 8-byte header: word i is bytes 8 + 8i .. 16 + 8i. */
  lemma PayloadWords(bytes: seq<bv8>, n: nat)
    requires |bytes| >= 8 + 8 * n
    ensures var ws := Words64(bytes[8..8 + 8 * n]);
      |ws| == n && forall i | 0 <= i < n :: ws[i] == LittleEndian(bytes[8 + 8 * i..16 + 8 * i])
  {
    var payload := bytes[8..8 + 8 * n];
    var ws := Words64(payload);
    assert |payload| == 8 * n;
    forall i | 0 <= i < n
      ensures ws[i] == LittleEndian(bytes[8 + 8 * i..16 + 8 * i])
    {
      SliceOfSlice(bytes, 8, 8 + 8 * n, 8 * i, 8 * i + 8);
    }
  }

  lemma SliceOfSlice<T>(s: seq<T>, lo: nat, hi: nat, a: nat, b: nat)
    requires lo <= hi <= |s| && a <= b <= hi - lo
    ensures s[lo..hi][a..b] == s[lo + a..lo + b]
  {
    var l, r := s[lo..hi][a..b], s[lo + a..lo + b];
    assert |l| == |r|;
    forall k | 0 <= k < |l|
      ensures l[k] == r[k]
    {
    }
  }

  /** A file whose header matches and that holds enough words loads as those words. */
  lemma LoadCacheWords(bytes: seq<bv8>, numIndices: u32)
    requires |bytes| >= 8 + 8 * numIndices
    requires LittleEndian(bytes[..4]) == CHAIN_LEN && LittleEndian(bytes[4..8]) == numIndices
    ensures LoadCache(Some(bytes), numIndices) == Some(Words64(bytes[8..8 + 8 * numIndices]))
  {
  }

  /** Loading what save_cache wrote, with the same count, gives the end indices back; with
      any other count the header check rejects it. */
  lemma CacheRoundTrip(ends: seq<u64>, numIndices: u32)
    requires |ends| < TWO_TO_32
    ensures numIndices == |ends| ==> LoadCache(Some(SaveCache(ends)), numIndices) == Some(ends)
    ensures numIndices != |ends| ==> LoadCache(Some(SaveCache(ends)), numIndices) == None
  {
    var file := SaveCache(ends);
    CacheHeader(ends);
    if numIndices == |ends| {
      WordsBytesRoundTrip(ends);
      assert file[8..8 + 8 * numIndices] == WordsBytes(ends);
      LoadCacheWords(file, numIndices);
    }
  }

  /** save_cache: -1 and nothing written when the cache file cannot be opened for writing
      (among other reasons, because the cache directory could not be created); otherwise 0,
      and the file at the cache path holds what load_cache reads back as the end indices. */
  function SaveCacheFile(ctHex: string, ends: seq<u64>, writable: bool): (r: (int, Option<(string, seq<bv8>)>))
    requires |ends| < TWO_TO_32
    ensures r.0 == 0 || r.0 == -1
    ensures r.0 == 0 <==> writable
    ensures r.1.Some? <==> r.0 == 0
    ensures r.1.Some? ==> r.1.value.0 == CachePath(ctHex)
    ensures r.1.Some? ==> LoadCache(Some(r.1.value.1), |ends| as u32) == Some(ends)
  {
    if !writable then (-1, None)
    else
      CacheRoundTrip(ends, |ends| as u32);
      (0, Some((CachePath(ctHex), SaveCache(ends))))
  }

  /** The header save_cache writes reads back as CHAIN_LEN and the count. */
  lemma CacheHeader(ends: seq<u64>)
    requires |ends| < TWO_TO_32
    ensures LittleEndian(SaveCache(ends)[..4]) == CHAIN_LEN
    ensures LittleEndian(SaveCache(ends)[4..8]) == |ends|
    ensures SaveCache(ends)[8..] == WordsBytes(ends)
  {
    var file := SaveCache(ends);
    Pow256Values();
    LittleEndianRoundTrip(CHAIN_LEN, 4);
    LittleEndianRoundTrip(|ends|, 4);
    assert file[..4] == LittleEndianBytes(CHAIN_LEN, 4);
    assert file[4..8] == LittleEndianBytes(|ends|, 4);
  }

  /** The loop of collect_candidates over one loaded table: positions pos .. on, while the
      candidate count is below max; every hit is appended with its position. */
  function CollectFrom(t: RtTable, ends: seq<u64>, pos: nat, cands: seq<Candidate>, max: nat): seq<Candidate>
    requires Searchable(t) && pos <= |ends| <= TWO_TO_32
    decreases |ends| - pos
  {
    if pos == |ends| || |cands| >= max then cands
    else
      var h := Search(t, ends[pos]);
      CollectFrom(t, ends, pos + 1, if h.found then cands + [Candidate(h.start, pos)] else cands, max)
  }

  /** The loop appends the hits of the table in position order, cut off at max candidates. */
  lemma {:induction false} CollectFromHits(t: RtTable, ends: seq<u64>, pos: nat, cands: seq<Candidate>, max: nat)
    requires Searchable(t) && pos <= |ends| <= TWO_TO_32
    ensures CollectFrom(t, ends, pos, cands, max) == cands + Take(HitsFrom(t, ends, pos), max - |cands|)
    decreases |ends| - pos
  {
    if pos < |ends| && |cands| < max {
      var h := Search(t, ends[pos]);
      var rest := HitsFrom(t, ends, pos + 1);
      if h.found {
        var x := Candidate(h.start, pos);
        assert CollectFrom(t, ends, pos, cands, max) == (cands + [x]) + Take(rest, max - |cands| - 1) by {
          CollectFromHits(t, ends, pos + 1, cands + [x], max);
        }
        assert HitsFrom(t, ends, pos) == [x] + rest;
        TakeConsSplit(cands, x, rest, max - |cands|);
      } else {
        assert CollectFrom(t, ends, pos, cands, max) == cands + Take(rest, max - |cands|) by {
          CollectFromHits(t, ends, pos + 1, cands, max);
        }
        assert HitsFrom(t, ends, pos) == rest;
      }
    }
  }

  /** collect_candidates: -1 and nothing appended when the table does not load; otherwise
      the number of candidates appended, which are the table's hits in position order as far
      as the cap allows. */
  function CollectCandidates(file: Option<FileBytes>, ends: seq<u64>, cands: seq<Candidate>, max: nat): (r: (int, seq<Candidate>))
    requires |ends| <= TWO_TO_32
    ensures file.None? ==> r == (-1, cands)
    ensures file.Some? ==> r.1 == cands + Take(TableHits(file, ends), max - |cands|)
    ensures file.Some? ==> r.0 == |r.1| - |cands| >= 0
    ensures |r.1| <= max || r.1 == cands
  {
    var table := TableLoad(file);
    if table.None? then (-1, cands)
    else
      var next := CollectFrom(table.value, ends, 0, cands, max);
      CollectFromHits(table.value, ends, 0, cands, max);
      (|next| - |cands|, next)
  }

  /** The hits of every table that loads, table after table. */
  function AllHits(files: seq<Option<FileBytes>>, ends: seq<u64>): seq<Candidate>
    requires |ends| <= TWO_TO_32
  {
    if |files| == 0 then []
    else
      TableHits(files[0], ends) + AllHits(files[1..], ends)
  }

  /** The table loop of main: collect from each table in turn (a table that does not load
      contributes nothing), and stop once the total reaches MAX_CANDIDATES. */
  function CollectTables(files: seq<Option<FileBytes>>, ends: seq<u64>, cands: seq<Candidate>): seq<Candidate>
    requires |ends| <= TWO_TO_32
  {
    if |files| == 0 then cands
    else
      var next := CollectCandidates(files[0], ends, cands, MAX_CANDIDATES).1;
      if |next| >= MAX_CANDIDATES then next else CollectTables(files[1..], ends, next)
  }

  /** What the loop collects: the first MAX_CANDIDATES hits over all loadable tables, in
      table order and, within a table, in position order. */
  lemma {:induction false} CollectTablesHits(files: seq<Option<FileBytes>>, ends: seq<u64>, cands: seq<Candidate>)
    requires |ends| <= TWO_TO_32 && |cands| <= MAX_CANDIDATES
    ensures CollectTables(files, ends, cands) == cands + Take(AllHits(files, ends), MAX_CANDIDATES - |cands|)
  {
    if |files| > 0 {
      var first := TableHits(files[0], ends);
      var rest := AllHits(files[1..], ends);
      var k := MAX_CANDIDATES - |cands|;
      var next := CollectCandidates(files[0], ends, cands, MAX_CANDIDATES).1;
      assert next == cands + Take(first, k);
      assert AllHits(files, ends) == first + rest;
      if |next| >= MAX_CANDIDATES {
        assert CollectTables(files, ends, cands) == next;
        TakeAppendLong(first, rest, k);
      } else {
        assert CollectTables(files, ends, cands) == CollectTables(files[1..], ends, next);
        CollectTablesShort(first, rest, cands, next, k);
        CollectTablesHits(files[1..], ends, next);
      }
    }
  }

  /** The arithmetic of one step of the table loop below the cap. */
  lemma CollectTablesShort(first: seq<Candidate>, rest: seq<Candidate>, cands: seq<Candidate>, next: seq<Candidate>, k: int)
    requires next == cands + Take(first, k) && |next| < MAX_CANDIDATES && k == MAX_CANDIDATES - |cands|
    ensures next + Take(rest, MAX_CANDIDATES - |next|) == cands + Take(first + rest, k)
  {
    assert Take(first, k) == first;
    TakeAppendShort(first, rest, k);
  }

  /** The main loop never holds more than MAX_CANDIDATES candidates. */
  lemma CollectTablesBound(files: seq<Option<FileBytes>>, ends: seq<u64>)
    requires |ends| <= TWO_TO_32
    ensures |CollectTables(files, ends, [])| <= MAX_CANDIDATES
    ensures CollectTables(files, ends, []) == Take(AllHits(files, ends), MAX_CANDIDATES)
  {
    CollectTablesHits(files, ends, []);
  }

  /** The plaintext space size main computes: 256 multiplied in seven times, the total of
      fill_plaintext_space_table for (256, 7, 7). */
  method PlaintextSpaceTotal() returns (total: u64)
    ensures total == Pow(256, 7) == TWO_TO_56
    ensures total == SpaceTable(256, 7, 7)[7]
  {
    Pow256Values();
    ByteSevenSpaceTable();
    total := 1;
    var i := 0;
    while i < 7
      invariant 0 <= i <= 7 && total == Pow(256, i)
    {
      PowMonotone(256, i + 1, 7);
      total := total * 256;
      i := i + 1;
    }
  }

  /** What main cannot compute itself: the file system, the directory walk and the GPU.
      `tablePaths` is what the walk of a directory found (None when it cannot be opened);
      `cacheWritable` says whether save_cache can open its file for writing;
      `precomputeFails` and `checkFails` are negative results of the two kernels, whose
      successful results are their sequential counterparts over the oracle H. */
  datatype Host = Host(
    isDirectory: bool,
    tablePaths: Option<seq<string>>,
    fileAt: string -> Option<FileBytes>,
    gpuReady: bool,
    kernelsReady: bool,
    cacheAt: string -> Option<seq<bv8>>,
    cacheWritable: bool,
    precomputeFails: bool,
    checkFails: bool,
    H: Oracle)

  /** The outcome of a run: the exit code, the key found and the text printed for it, the
      cache file written, and the candidates collected. */
  datatype Report = Report(exit: int, key: Option<Key56>, keyText: Option<string>,
                           cacheWritten: Option<(string, seq<bv8>)>, candidates: seq<Candidate>)

  function Failed(): Report
  {
    Report(1, None, None, None, [])
  }

  /** The walk main performs: the lookup parameters with CHAIN_LEN. */
  function ToolChains(H: Oracle): (c: Chains)
    ensures c.chainLen == CHAIN_LEN && c.H == H
  {
    LookupChains(H, LookupInitParams(CHAIN_LEN))
  }

  /** The ciphertext main accepts: hex_to_bytes must yield exactly 8 bytes. */
  function Ciphertext(ctHex: string): (r: Option<Block>)
    ensures r.Some? <==> |ctHex| == 16 && forall i | 0 <= i < |ctHex| :: IsHexChar(ctHex[i])
    ensures r.Some? ==> HexToBytes(ctHex, 8).Some? && HexToBytes(ctHex, 8).value == r.value
  {
    var bytes := HexToBytes(ctHex, 8);
    if bytes.None? || |bytes.value| != 8 then None
    else
      var block: Block := bytes.value;
      Some(block)
  }

  /** The file contents of each table path, in order. */
  function TableFiles(fileAt: string -> Option<FileBytes>, paths: seq<string>): (files: seq<Option<FileBytes>>)
    ensures |files| == |paths| && forall i | 0 <= i < |paths| :: files[i] == fileAt(paths[i])
  {
    seq(|paths|, i requires 0 <= i < |paths| => fileAt(paths[i]))
  }

  /** The end indices main works with and the cache file it writes: the cache when it
      loads (nothing written), otherwise the precomputed ones, saved when the cache file can
      be opened (main ignores save_cache's result); None when the cache does not load and the
      precomputation fails. */
  function EndIndices(c: Chains, host: Host, ctHex: string, ct: Block): (r: Option<(seq<u64>, Option<(string, seq<bv8>)>)>)
    requires c.chainLen == CHAIN_LEN
    ensures r.None? <==> LoadCache(host.cacheAt(CachePath(ctHex)), NUM_INDICES).None? && host.precomputeFails
    ensures r.Some? ==> |r.value.0| == NUM_INDICES
    ensures r.Some? && LoadCache(host.cacheAt(CachePath(ctHex)), NUM_INDICES).Some? ==>
      r.value == (LoadCache(host.cacheAt(CachePath(ctHex)), NUM_INDICES).value, None)
    ensures r.Some? && LoadCache(host.cacheAt(CachePath(ctHex)), NUM_INDICES).None? ==>
      && r.value.0 == Endpoints(c, ct)
      && r.value.1 == (if host.cacheWritable then Some((CachePath(ctHex), SaveCache(Endpoints(c, ct)))) else None)
  {
    var cached := LoadCache(host.cacheAt(CachePath(ctHex)), NUM_INDICES);
    if cached.Some? then Some((cached.value, None))
    else if host.precomputeFails then None
    else
      var ends := Endpoints(c, ct);
      Some((ends, SaveCacheFile(ctHex, ends, host.cacheWritable).1))
  }

  /** The check of main: no key without candidates or when the kernel fails; otherwise the
      key of the first candidate that verifies. */
  function Verdict(c: Chains, ct: Block, cands: seq<Candidate>, checkFails: bool): (r: Option<Key56>)
    ensures r.Some? ==> c.H(SetupDesKey(r.value)) == ct
    ensures r.Some? <==> !checkFails && exists i | 0 <= i < |cands| ::
      VerifyChain(c, Expanded, cands[i].start, cands[i].pos, ct).Some?
  {
    if |cands| == 0 || checkFails then None else CheckCandidates(c, ct, cands)
  }

  /** The part of main after the GPU is ready, for a walk `c`: take the end indices from the
      cache or compute (and save) them, collect the candidates of all tables, and check them
      when there are any. */
  function SearchTables(c: Chains, host: Host, ctHex: string, ct: Block, paths: seq<string>): (r: Report)
    requires c.chainLen == CHAIN_LEN
    ensures r.exit == 0 || r.exit == 1
    ensures r.exit == 0 <==> r.key.Some?
    ensures r.key.Some? ==> c.H(SetupDesKey(r.key.value)) == ct && r.keyText == Some(EncodeHex(r.key.value))
    ensures r.key.None? ==> r.keyText.None?
    ensures |r.candidates| <= MAX_CANDIDATES
    ensures EndIndices(c, host, ctHex, ct).None? ==> r == Failed()
    ensures r.key.Some? ==> !host.checkFails && exists i | 0 <= i < |r.candidates| ::
      VerifyChain(c, Expanded, r.candidates[i].start, r.candidates[i].pos, ct).Some?
  {
    var ei := EndIndices(c, host, ctHex, ct);
    if ei.None? then Failed()
    else
      var (ends, written) := ei.value;
      var files := TableFiles(host.fileAt, paths);
      var cands := CollectTables(files, ends, []);
      CollectTablesBound(files, ends);
      match Verdict(c, ct, cands, host.checkFails)
      case None => Report(1, None, None, written, cands)
      case Some(k) => Report(0, Some(k), Some(EncodeHex(k)), written, cands)
  }

  /** The tables main searches: the files the walk of argv[1] found when it is a directory
      (None when it cannot be opened), otherwise argv[1] itself. */
  function TablePaths(args: seq<string>, host: Host): (paths: Option<seq<string>>)
    requires |args| >= 3
    ensures host.isDirectory ==> paths == host.tablePaths
    ensures !host.isDirectory ==> paths == Some([args[1]])
  {
    if host.isDirectory then host.tablePaths else Some([args[1]])
  }

  /** main: `args` is argv (args[0] the program name). Exit 1 on a usage error, a ciphertext
      that is not 16 hex digits, a directory without tables, a GPU or kernel failure, or a
      failed precomputation when the cache does not load; otherwise collect candidates from
      the tables and, if there are any, check them; exit 0 exactly when a key was found, a
      key that hashes to the ciphertext. */
  function ToolMain(args: seq<string>, host: Host): (r: Report)
    ensures r.exit == 0 || r.exit == 1
    ensures r.exit == 0 <==> r.key.Some?
    ensures r.key.Some? ==> |args| >= 3 && Ciphertext(args[2]).Some?
    ensures r.key.Some? ==> host.H(SetupDesKey(r.key.value)) == Ciphertext(args[2]).value
    ensures r.key.Some? ==> r.keyText == Some(EncodeHex(r.key.value))
    ensures |r.candidates| <= MAX_CANDIDATES
    ensures |args| < 3 || Ciphertext(args[2]).None? ==> r == Failed()
    ensures |args| >= 3 && (TablePaths(args, host).None? || |TablePaths(args, host).value| == 0) ==> r == Failed()
    ensures r.key.Some? ==> host.gpuReady && host.kernelsReady
    ensures |args| >= 3 && Ciphertext(args[2]).Some? && EndIndices(ToolChains(host.H), host, args[2], Ciphertext(args[2]).value).None?
      ==> r == Failed()
    ensures r.key.Some? ==> !host.checkFails && exists i | 0 <= i < |r.candidates| ::
      VerifyChain(ToolChains(host.H), Expanded, r.candidates[i].start, r.candidates[i].pos, Ciphertext(args[2]).value).Some?
    ensures (|args| >= 3 && Ciphertext(args[2]).Some? && TablePaths(args, host).Some? && |TablePaths(args, host).value| > 0
             && host.gpuReady && host.kernelsReady) ==>
      r == SearchTables(ToolChains(host.H), host, args[2], Ciphertext(args[2]).value, TablePaths(args, host).value)
  {
    if |args| < 3 then Failed()
    else
      var ct := Ciphertext(args[2]);
      if ct.None? then Failed()
      else
        var paths := TablePaths(args, host);
        if paths.None? || |paths.value| == 0 then Failed()
        else if !host.gpuReady || !host.kernelsReady then Failed()
        else SearchTables(ToolChains(host.H), host, args[2], ct.value, paths.value)
  }

  /** The printed key (bytes_to_hex into 15 characters) is 14 lower-case hex digits that
      decode to the key. */
  lemma KeyText(k: Key56)
    ensures |EncodeHex(k)| == 14 && forall i | 0 <= i < 14 :: IsLowerHexChar(EncodeHex(k)[i])
    ensures BytesToHex(k, 15) == Some(EncodeHex(k) + ['\0'])
    ensures HexToBytes(EncodeHex(k), 7).Some? && HexToBytes(EncodeHex(k), 7).value == k
  {
    EncodeHexNibbles(k);
    BytesToHexRoundTrip(k, 15);
    assert BytesToHex(k, 15).value[..14] == EncodeHex(k);
  }

  /** The cache is written exactly when main computes the end indices itself and the cache
      file can be opened, and what it writes, at the cache path, loads back as them. */
  lemma WrittenCacheLoads(c: Chains, host: Host, ctHex: string, ct: Block, paths: seq<string>)
    requires c.chainLen == CHAIN_LEN
    ensures var w := SearchTables(c, host, ctHex, ct, paths).cacheWritten;
      w.Some? <==> (LoadCache(host.cacheAt(CachePath(ctHex)), NUM_INDICES).None? && !host.precomputeFails
                    && host.cacheWritable)
    ensures var w := SearchTables(c, host, ctHex, ct, paths).cacheWritten;
      w.Some? ==> w.value.0 == CachePath(ctHex) && LoadCache(Some(w.value.1), NUM_INDICES) == Some(Endpoints(c, ct))
  {
    CacheRoundTrip(Endpoints(c, ct), NUM_INDICES);
  }

  /** Completeness of the search over one table: if the table is well formed and records a
      chain whose hash in some column 0 .. CHAIN_LEN-2 is the ciphertext, and the cache is
      absent or holds the true end indices, a key is found. */
  lemma SearchTablesFindsKey(c: Chains, host: Host, ctHex: string, ct: Block, path: string, m: nat, pos: nat)
    requires c.chainLen == CHAIN_LEN && !host.checkFails && host.fileAt(path).Some?
    requires var t := TableLoad(host.fileAt(path)).value;
      && WellFormed(t) && HoldsChain(c, t, m) && pos <= CHAIN_LEN - 2
      && ChainHash(c, Expanded, Column(c, Start(t, m), pos)) == ct
    requires var cached := LoadCache(host.cacheAt(CachePath(ctHex)), NUM_INDICES);
      if cached.Some? then cached.value == Endpoints(c, ct) else !host.precomputeFails
    ensures SearchTables(c, host, ctHex, ct, [path]).exit == 0
  {
    var t := TableLoad(host.fileAt(path)).value;
    var ends := Endpoints(c, ct);
    assert EndIndices(c, host, ctHex, ct).Some? && EndIndices(c, host, ctHex, ct).value.0 == ends;
    var files := TableFiles(host.fileAt, [path]);
    assert files == [host.fileAt(path)];
    var cands := CollectTables(files, ends, []);
    var x := Candidate(Start(t, m), pos);
    OneTableCandidate(c, host.fileAt(path), ct, m, pos);
    ChainPositionVerifies(c, t, ct, m, pos);
    var i :| 0 <= i < |cands| && cands[i] == x;
    assert VerifyChain(c, Expanded, cands[i].start, cands[i].pos, ct).Some?;
    assert Verdict(c, ct, cands, host.checkFails).Some?;
  }

  /** The chain's start at its position is among the candidates of a one-table run. */
  lemma OneTableCandidate(c: Chains, file: Option<FileBytes>, ct: Block, m: nat, pos: nat)
    requires c.chainLen == CHAIN_LEN && file.Some?
    requires var t := TableLoad(file).value;
      && WellFormed(t) && HoldsChain(c, t, m) && pos <= CHAIN_LEN - 2
      && ChainHash(c, Expanded, Column(c, Start(t, m), pos)) == ct
    ensures Candidate(Start(TableLoad(file).value, m), pos) in CollectTables([file], Endpoints(c, ct), [])
  {
    var t := TableLoad(file).value;
    var ends := Endpoints(c, ct);
    var hits := TableHits(file, ends);
    assert hits == HitsFrom(t, ends, 0);
    TrueChainIsHit(c, t, ct, m, pos);
    assert AllHits([file], ends) == hits + AllHits([], ends);
    CollectTablesBound([file], ends);
  }

  /** End-to-end completeness in single-table mode: with a valid ciphertext, a working GPU,
      a table as in SearchTablesFindsKey and a cache that is absent or correct, main exits 0. */
  lemma ToolFindsKey(args: seq<string>, host: Host, m: nat, pos: nat)
    requires |args| >= 3 && Ciphertext(args[2]).Some?
    requires !host.isDirectory && host.gpuReady && host.kernelsReady && !host.checkFails
    requires host.fileAt(args[1]).Some?
    requires var t := TableLoad(host.fileAt(args[1])).value;
      && WellFormed(t) && HoldsChain(ToolChains(host.H), t, m) && pos <= CHAIN_LEN - 2
      && ChainHash(ToolChains(host.H), Expanded, Column(ToolChains(host.H), Start(t, m), pos))
         == Ciphertext(args[2]).value
    requires var cached := LoadCache(host.cacheAt(CachePath(args[2])), NUM_INDICES);
      if cached.Some? then cached.value == Endpoints(ToolChains(host.H), Ciphertext(args[2]).value)
      else !host.precomputeFails
    ensures ToolMain(args, host).exit == 0
  {
    SearchTablesFindsKey(ToolChains(host.H), host, args[2], Ciphertext(args[2]).value, args[1], m, pos);
  }
}

=== FILE: netntlmv1.dfy ===
/** NetNTLMv1 key handling (src/netntlmv1.c). The DES encryption of the fixed challenge has no
    visible implementation; it enters the model as an oracle over the 8-byte key buffer that
    the callers hand to netntlmv1_hash. */
module NetNtlmV1 {

  /** 7 bytes of key material: one NTLMv1 DES key third, MSB-first 56-bit string. */
  type Key56 = k: seq<bv8> | |k| == 7 witness [0, 0, 0, 0, 0, 0, 0]

  /** An 8-byte block: a DES key with parity slots, or a ciphertext. */
  type Block = b: seq<bv8> | |b| == 8 witness [0, 0, 0, 0, 0, 0, 0, 0]

  /** The hash oracle: DES encryption of Challenge under the given key buffer. Deterministic,
      without side effects, and otherwise unknown to the model. */
  type Oracle = Block -> Block

  /** The fixed server challenge the tables were built for (NTLMV1_CHALLENGE). */
  const Challenge: Block := [0x11, 0x22, 0x33, 0x44, 0x55, 0x66, 0x77, 0x88]

  /** The 7 key bytes as one 56-bit word, key[0] most significant. */
  function Word56(k: Key56): bv56
  {
    ((k[0] as bv56) << 48) | ((k[1] as bv56) << 40) | ((k[2] as bv56) << 32)
    | ((k[3] as bv56) << 24) | ((k[4] as bv56) << 16) | ((k[5] as bv56) << 8) | (k[6] as bv56)
  }

  /** The i-th 7-bit group (MSB-first) of a 56-bit word, placed in bits 7..1 of a byte. */
  function Group(w: bv56, shift: bv56): bv8
    requires shift <= 49
  {
    (((w >> shift) & 0x7F) as bv8) << 1
  }

  /** Reference layout: the 56-bit string cut into eight 7-bit groups, each followed by a zero
      parity bit. */
  function SevenBitGroups(w: bv56): Block
  {
    [Group(w, 49), Group(w, 42), Group(w, 35), Group(w, 28),
     Group(w, 21), Group(w, 14), Group(w, 7), Group(w, 0)]
  }

  /** setup_des_key: spread 56 key bits over 8 bytes, 7 bits per byte, leaving bit 0 (the DES
      parity bit) of every byte zero rather than setting odd parity. */
  function SetupDesKey(k: Key56): (r: Block)
    ensures ParityBitsClear(r)
  {
    [ ((k[0] >> 1) & 0x7f) << 1,
      (((k[0] & 0x01) << 6) | ((k[1] >> 2) & 0x3f)) << 1,
      (((k[1] & 0x03) << 5) | ((k[2] >> 3) & 0x1f)) << 1,
      (((k[2] & 0x07) << 4) | ((k[3] >> 4) & 0x0f)) << 1,
      (((k[3] & 0x0f) << 3) | ((k[4] >> 5) & 0x07)) << 1,
      (((k[4] & 0x1f) << 2) | ((k[5] >> 6) & 0x03)) << 1,
      (((k[5] & 0x3f) << 1) | ((k[6] >> 7) & 0x01)) << 1,
      (k[6] & 0x7f) << 1 ]
  }

  /** Bits 7..1 of expanded byte i are bits 7i .. 7i+6 of the MSB-first 56-bit key string. */
  lemma SetupDesKeyLayout(k: Key56)
    ensures SetupDesKey(k) == SevenBitGroups(Word56(k))
  {
    LayoutBytes(k, 0);
    LayoutBytes(k, 2);
    LayoutBytes(k, 4);
    LayoutBytes(k, 6);
  }

  /** Two adjacent bytes of the layout, checked separately to keep each proof small. */
  lemma LayoutBytes(k: Key56, i: nat)
    requires i in {0, 2, 4, 6}
    ensures SetupDesKey(k)[i] == SevenBitGroups(Word56(k))[i]
    ensures SetupDesKey(k)[i + 1] == SevenBitGroups(Word56(k))[i + 1]
  {
  }

  /** Inverse of SetupDesKey: drop the parity bits and close the gaps. */
  function RecoverKey56(d: Block): Key56
  {
    [ d[0] | (d[1] >> 7), (d[1] << 1) | (d[2] >> 6), (d[2] << 2) | (d[3] >> 5),
      (d[3] << 3) | (d[4] >> 4), (d[4] << 4) | (d[5] >> 3), (d[5] << 5) | (d[6] >> 2),
      (d[6] << 6) | (d[7] >> 1) ]
  }

  predicate ParityBitsClear(d: Block)
  {
    forall i | 0 <= i < 8 :: d[i] & 1 == 0
  }

  /** The key material is recoverable from the expanded key. */
  lemma RecoverSetupDesKey(k: Key56)
    ensures RecoverKey56(SetupDesKey(k)) == k
  {
    RecoverBytes(k, 0);
    RecoverBytes(k, 2);
    RecoverBytes(k, 4);
    RecoverBytes(k, 5);
  }

  /** Two adjacent key bytes of the round trip, checked separately to keep each proof small. */
  lemma RecoverBytes(k: Key56, i: nat)
    requires i in {0, 2, 4, 5}
    ensures RecoverKey56(SetupDesKey(k))[i] == k[i]
    ensures RecoverKey56(SetupDesKey(k))[i + 1] == k[i + 1]
  {
  }

  /** Every block with clear parity bits is the expansion of exactly the key recovered from it. */
  lemma SetupRecoveredKey(d: Block)
    requires ParityBitsClear(d)
    ensures SetupDesKey(RecoverKey56(d)) == d
  {
    SetupRecoveredBytes(d, 0);
    SetupRecoveredBytes(d, 2);
    SetupRecoveredBytes(d, 4);
    SetupRecoveredBytes(d, 6);
  }

  lemma SetupRecoveredBytes(d: Block, i: nat)
    requires ParityBitsClear(d) && i in {0, 2, 4, 6}
    ensures SetupDesKey(RecoverKey56(d))[i] == d[i]
    ensures SetupDesKey(RecoverKey56(d))[i + 1] == d[i + 1]
  {
    assert d[i] & 1 == 0 && d[i + 1] & 1 == 0;
  }

  /** Distinct key material gives distinct DES keys. */
  lemma SetupDesKeyInjective(a: Key56, b: Key56)
    ensures SetupDesKey(a) == SetupDesKey(b) <==> a == b
  {
    if SetupDesKey(a) == SetupDesKey(b) {
      RecoverSetupDesKey(a);
      RecoverSetupDesKey(b);
    }
  }
}

=== FILE: rainbow.dfy ===
/** The rainbow-table index space and reduction family (src/rainbow.c): a dense index numbers
    every plaintext of length len_min..len_max over a charset of charset_len symbols, and a
    position-dependent reduction maps a hash back into that index space. */
module Rainbow {
  import opened Words
  import opened NetNtlmV1

  /** Reference count: the number of plaintexts with a length in lo..hi (lo >= 1). */
  function SumPow(c: nat, lo: nat, hi: nat): nat
    requires lo >= 1
  {
    if hi < lo then 0 else SumPow(c, lo, hi - 1) + Pow(c, hi)
  }

  /** Lengths are counted from 1: the C loop starts at i = 1, so length 0 is never counted. */
  function CountedFrom(lenMin: nat): nat
  {
    if lenMin == 0 then 1 else lenMin
  }

  /** Reference space table: entry i counts the plaintexts of an allowed length at most i,
      reduced modulo 2^64 like the uint64_t entries of plaintext_space_up_to_index. */
  function SpaceTable(c: nat, lenMin: nat, lenMax: nat): (space: seq<u64>)
    ensures |space| == lenMax + 1
  {
    seq(lenMax + 1, (i: nat) => SumPow(c, CountedFrom(lenMin), i) % TWO_TO_64)
  }

  /** fill_plaintext_space_table: entry 0 is 0, entries below len_min stay 0, and entry i
      adds charset_len^i to entry i-1 from len_min on; every product and sum wraps modulo
      2^64 exactly like the uint64_t arithmetic. Returns the table and its last entry. With
      len_max = 0xFFFFFFFF the uint32_t counter wraps to 0, which is still <= len_max, and the
      C loop never ends; the method is therefore stated for smaller len_max only. */
  method FillPlaintextSpaceTable(charsetLen: u32, lenMin: u32, lenMax: u32)
    returns (space: seq<u64>, total: u64)
    requires lenMax < TWO_TO_32 - 1
    ensures space == SpaceTable(charsetLen, lenMin, lenMax)
    ensures total == space[lenMax]
    ensures space[0] == 0
    ensures forall i | 1 <= i < lenMin && i <= lenMax :: space[i] == 0
  {
    var n: u64 := 1;
    space := [0];
    var i := 1;
    while i <= lenMax
      invariant 1 <= i <= lenMax + 1
      invariant |space| == i
      invariant n == Pow(charsetLen, i - 1) % TWO_TO_64
      invariant forall j | 0 <= j < i :: space[j] == SumPow(charsetLen, CountedFrom(lenMin), j) % TWO_TO_64
    {
      ModMul(Pow(charsetLen, i - 1), charsetLen, TWO_TO_64);
      n := (n * charsetLen) % TWO_TO_64;
      if i < lenMin {
        space := space + [0];
      } else {
        ModAdd(SumPow(charsetLen, CountedFrom(lenMin), i - 1), Pow(charsetLen, i), TWO_TO_64);
        space := space + [(space[i - 1] + n) % TWO_TO_64];
      }
      i := i + 1;
    }
    total := space[lenMax];
  }

  /** The table the lookup code builds, (256, 7, 7): seven zero entries, then 2^56. */
  lemma ByteSevenSpaceTable()
    ensures SpaceTable(256, 7, 7) == [0, 0, 0, 0, 0, 0, 0, TWO_TO_56]
  {
    Pow256Values();
    var s := SpaceTable(256, 7, 7);
    assert SumPow(256, 7, 6) == 0;
    assert SumPow(256, 7, 7) == TWO_TO_56;
    assert s[7] == TWO_TO_56;
  }

  /** hash_to_index: read the 8 hash bytes little-endian (hash[0] least significant), add
      reduction_offset + pos in uint64_t arithmetic, and reduce modulo the plaintext space. */
  function HashToIndex(hash: Block, offset: u32, total: u64, pos: u32): (r: u64)
    requires total > 0
    ensures r < total
  {
    ((LittleEndian(hash) + offset + pos) % TWO_TO_64) % total
  }

  /** The reduction reads the hash as the little-endian encoding of a 64-bit value. */
  lemma HashToIndexOfEncoding(v: u64, offset: u32, total: u64, pos: u32)
    requires total > 0
    ensures HashToIndex(LittleEndianBytes(v, 8), offset, total, pos)
            == ((v + offset + pos) % TWO_TO_64) % total
  {
    Pow256Values();
    LittleEndianRoundTrip(v, 8);
  }

  /** Per-column differentiation: when the space size divides 2^64 (as 2^56 does), moving one
      column to the right moves the reduced index by exactly one, modulo the space. */
  lemma NextColumnReduction(hash: Block, offset: u32, total: u64, pos: u32)
    requires total > 0 && TWO_TO_64 % total == 0
    requires pos + 1 < TWO_TO_32
    ensures HashToIndex(hash, offset, total, pos + 1) == (HashToIndex(hash, offset, total, pos) + 1) % total
  {
    var x := LittleEndian(hash) + offset + pos;
    assert HashToIndex(hash, offset, total, pos + 1) == ((x + 1) % TWO_TO_64) % total;
    assert HashToIndex(hash, offset, total, pos) == (x % TWO_TO_64) % total;
    ModModDivisor(x + 1, TWO_TO_64, total);
    ModModDivisor(x, TWO_TO_64, total);
    ModSucc(x, total);
  }

  /** Hence adjacent columns reduce the same hash to different indices. */
  lemma AdjacentColumnsDiffer(hash: Block, offset: u32, total: u64, pos: u32)
    requires total > 1 && TWO_TO_64 % total == 0
    requires pos + 1 < TWO_TO_32
    ensures HashToIndex(hash, offset, total, pos + 1) != HashToIndex(hash, offset, total, pos)
  {
    NextColumnReduction(hash, offset, total, pos);
  }

  /** The length search of index_to_plaintext: scanning i from `i` down to `lo`, the first
      entry with index >= space[i] fixes the length i + 1; 0 when none does. */
  function FindLength(index: u64, space: seq<u64>, i: int, lo: nat): (len: nat)
    requires i < |space|
    decreases i + 1 - lo
    ensures len == 0 ==> forall j | lo <= j <= i :: index < space[j]
    ensures len != 0 ==> lo + 1 <= len <= i + 1 && index >= space[len - 1]
    ensures len != 0 ==> forall j | len <= j <= i :: index < space[j]
  {
    if i < lo then 0
    else if index >= space[i] then i + 1
    else FindLength(index, space, i - 1, lo)
  }

  /** index_to_plaintext: the plaintext numbered `index`; its length is |key|
      (key_len_out). The length falls back to len_min when no space entry is at most
      `index`; each digit is stored into a uint8_t. */
  function IndexToPlaintext(index: u64, charsetLen: u32, lenMin: u32, lenMax: u32, space: seq<u64>): (key: seq<bv8>)
    requires 1 <= lenMin <= lenMax < |space|
    requires charsetLen > 0
    ensures lenMin <= |key| <= lenMax
  {
    var found := FindLength(index, space, lenMax - 1, lenMin - 1);
    var len := if found == 0 then lenMin else found;
    Bytes(Digits((index - space[len - 1]) % TWO_TO_64, charsetLen, len))
  }

  /** Reference inverse of index_to_plaintext: the index of a plaintext is the count of all
      shorter plaintexts plus its own big-endian base-charset value. */
  function PlaintextToIndex(key: seq<bv8>, c: nat, space: seq<u64>): nat
    requires 1 <= |key| < |space|
  {
    space[|key| - 1] + BigEndianValue(ByteValues(key), c)
  }

  /** In a wrap-free table every entry is the exact count, with no reduction modulo 2^64. */
  lemma SpaceEntry(c: nat, lenMin: nat, lenMax: nat, i: nat)
    requires NoWrap(c, lenMin, lenMax) && i <= lenMax
    ensures SpaceTable(c, lenMin, lenMax)[i] == SumPow(c, lenMin, i)
  {
    SumPowMonotone(c, lenMin, i, lenMax);
    ModUnique(SumPow(c, lenMin, i), 0, TWO_TO_64, SumPow(c, lenMin, i));
  }

  /** In a wrap-free table, entry i exceeds entry i-1 by exactly c^i from len_min on. */
  lemma SpaceStep(c: nat, lenMin: nat, lenMax: nat, i: nat)
    requires NoWrap(c, lenMin, lenMax) && lenMin <= i <= lenMax
    ensures SpaceTable(c, lenMin, lenMax)[i] == SpaceTable(c, lenMin, lenMax)[i - 1] + Pow(c, i)
  {
    SpaceEntry(c, lenMin, lenMax, i);
    SpaceEntry(c, lenMin, lenMax, i - 1);
  }

  lemma {:induction false} SumPowMonotone(c: nat, lo: nat, i: nat, j: nat)
    requires 1 <= lo && i <= j
    ensures SumPow(c, lo, i) <= SumPow(c, lo, j)
    decreases j - i
  {
    if i < j {
      SumPowMonotone(c, lo, i, j - 1);
    }
  }

  predicate NoWrap(c: nat, lenMin: nat, lenMax: nat)
  {
    1 <= lenMin <= lenMax && SumPow(c, lenMin, lenMax) < TWO_TO_64
  }

  /** Where index_to_plaintext puts an index of a wrap-free table: it picks the length whose
      block of indices holds it, and takes the offset within that block as its digits. */
  lemma IndexSplit(index: u64, c: u32, lenMin: u32, lenMax: u32) returns (len: nat, x: nat)
    requires 0 < c && NoWrap(c, lenMin, lenMax)
    requires index < SumPow(c, lenMin, lenMax)
    ensures lenMin <= len <= lenMax
    ensures index == SpaceTable(c, lenMin, lenMax)[len - 1] + x && x < Pow(c, len)
    ensures IndexToPlaintext(index, c, lenMin, lenMax, SpaceTable(c, lenMin, lenMax)) == Bytes(Digits(x, c, len))
  {
    var space := SpaceTable(c, lenMin, lenMax);
    SpaceEntry(c, lenMin, lenMax, lenMin - 1);
    SpaceEntry(c, lenMin, lenMax, lenMax);
    len := FindLength(index, space, lenMax - 1, lenMin - 1);
    assert len != 0;
    x := index - space[len - 1];
    ModUnique(x, 0, TWO_TO_64, x);
    SpaceStep(c, lenMin, lenMax, len);
  }

  /** The bijection, forwards: every index below the total space names a plaintext of an
      allowed length whose symbols are all below charset_len, and PlaintextToIndex gives the
      index back. */
  lemma IndexToPlaintextRoundTrip(index: u64, c: u32, lenMin: u32, lenMax: u32)
    requires 0 < c <= 256 && NoWrap(c, lenMin, lenMax)
    requires index < SumPow(c, lenMin, lenMax)
    ensures var key := IndexToPlaintext(index, c, lenMin, lenMax, SpaceTable(c, lenMin, lenMax));
      && DigitsBelow(ByteValues(key), c)
      && PlaintextToIndex(key, c, SpaceTable(c, lenMin, lenMax)) == index
  {
    var len, x := IndexSplit(index, c, lenMin, lenMax);
    var ds := Digits(x, c, len);
    DigitsValue(x, c, len);
    DigitsBelowCharset(x, c, len);
    ByteValuesOfBytes(ds);
  }

  /** The bijection, backwards: a plaintext of an allowed length over the charset is what
      index_to_plaintext produces from its index. */
  lemma PlaintextToIndexRoundTrip(key: seq<bv8>, c: u32, lenMin: u32, lenMax: u32)
    requires 0 < c <= 256 && NoWrap(c, lenMin, lenMax)
    requires lenMin <= |key| <= lenMax && DigitsBelow(ByteValues(key), c)
    ensures PlaintextToIndex(key, c, SpaceTable(c, lenMin, lenMax)) < SumPow(c, lenMin, lenMax)
    ensures IndexToPlaintext(PlaintextToIndex(key, c, SpaceTable(c, lenMin, lenMax)), c, lenMin, lenMax,
                             SpaceTable(c, lenMin, lenMax)) == key
  {
    var vs := ByteValues(key);
    var v := BigEndianValue(vs, c);
    BigEndianValueBound(vs, c);
    var index := PlaintextToIndex(key, c, SpaceTable(c, lenMin, lenMax));
    BlockOfLength(c, lenMin, lenMax, |key|, v);
    var len, x := IndexSplit(index, c, lenMin, lenMax);
    BlocksDisjoint(c, lenMin, lenMax, |key|, v, len, x);
    ValueDigits(vs, c);
    BytesOfByteValues(key);
  }

  /** An offset inside the block of length len gives an index below the total space. */
  lemma BlockOfLength(c: nat, lenMin: nat, lenMax: nat, len: nat, v: nat)
    requires NoWrap(c, lenMin, lenMax) && lenMin <= len <= lenMax && v < Pow(c, len)
    ensures SpaceTable(c, lenMin, lenMax)[len - 1] + v < SumPow(c, lenMin, lenMax)
  {
    SpaceStep(c, lenMin, lenMax, len);
    SpaceEntry(c, lenMin, lenMax, len);
    SumPowMonotone(c, lenMin, len, lenMax);
  }

  /** The blocks of different lengths do not overlap: an index has one length and one offset. */
  lemma BlocksDisjoint(c: nat, lenMin: nat, lenMax: nat, a: nat, v: nat, b: nat, w: nat)
    requires NoWrap(c, lenMin, lenMax)
    requires lenMin <= a <= lenMax && v < Pow(c, a)
    requires lenMin <= b <= lenMax && w < Pow(c, b)
    requires SpaceTable(c, lenMin, lenMax)[a - 1] + v == SpaceTable(c, lenMin, lenMax)[b - 1] + w
    ensures a == b && v == w
  {
    var space := SpaceTable(c, lenMin, lenMax);
    if a < b {
      SpaceStep(c, lenMin, lenMax, a);
      SpaceMonotone(c, lenMin, lenMax, a, b - 1);
    } else if b < a {
      SpaceStep(c, lenMin, lenMax, b);
      SpaceMonotone(c, lenMin, lenMax, b, a - 1);
    }
  }

  lemma SpaceMonotone(c: nat, lenMin: nat, lenMax: nat, i: nat, j: nat)
    requires NoWrap(c, lenMin, lenMax) && i <= j <= lenMax
    ensures SpaceTable(c, lenMin, lenMax)[i] <= SpaceTable(c, lenMin, lenMax)[j]
  {
    SumPowMonotone(c, lenMin, i, j);
    SpaceEntry(c, lenMin, lenMax, i);
    SpaceEntry(c, lenMin, lenMax, j);
  }

  /** The lookup parameters (256, 7, 7): every index of the 2^56 space is exactly the 7-byte
      big-endian encoding of the index. */
  lemma ByteSevenPlaintext(index: u64)
    requires index < TWO_TO_56
    ensures var key := IndexToPlaintext(index, 256, 7, 7, SpaceTable(256, 7, 7));
      |key| == 7 && BigEndianValue(ByteValues(key), 256) == index
  {
    ByteSevenSpaceTable();
    Pow256Values();
    assert SumPow(256, 7, 7) == TWO_TO_56;
    IndexToPlaintextRoundTrip(index, 256, 7, 7);
  }
}

=== FILE: table.dfy ===
/** The rainbow-table store (src/table.c): a file of 16-byte records, each a little-endian
    uint64_t start index followed by a little-endian uint64_t end index, held in memory as an
    interleaved array data[2i] = start, data[2i+1] = end, and searched by end index. */
module Table {
  import opened Words
  import opened Wrappers

  /** The largest file size ftell can report (a signed 64-bit long). */
  const LONG_MAX: nat := 0x7FFF_FFFF_FFFF_FFFF

  /** The contents of a file whose size ftell can report. */
  type FileBytes = s: seq<bv8> | |s| <= LONG_MAX

  /** rt_table: the word array (None stands for NULL) and the record count. */
  datatype RtTable = RtTable(data: Option<seq<u64>>, numChains: u64)

  /** What table_search may read: no record at all, or an array holding every record. */
  predicate Searchable(t: RtTable)
  {
    t.numChains == 0 || (t.data.Some? && 2 * t.numChains <= |t.data.value|)
  }

  function Start(t: RtTable, m: nat): u64
    requires Searchable(t) && m < t.numChains
  {
    t.data.value[2 * m]
  }

  function End(t: RtTable, m: nat): u64
    requires Searchable(t) && m < t.numChains
  {
    t.data.value[2 * m + 1]
  }

  /** One little-endian uint64_t read from 8 bytes. */
  function Word64(b: seq<bv8>): (w: u64)
    requires |b| == 8
    ensures w == LittleEndian(b)
  {
    LittleEndianBound(b);
    Pow256Values();
    LittleEndian(b)
  }

  /** fread of whole uint64_t words on a little-endian host: word i is bytes 8i .. 8i+7. */
  function Words64(bytes: seq<bv8>): (ws: seq<u64>)
    ensures |ws| == |bytes| / 8
    ensures forall i | 0 <= i < |ws| :: ws[i] == LittleEndian(bytes[8 * i..8 * i + 8])
    decreases |bytes|
  {
    if |bytes| < 8 then []
    else
      var rest := Words64(bytes[8..]);
      assert forall i | 1 <= i <= |rest| :: bytes[8 * i..8 * i + 8] == bytes[8..][8 * (i - 1)..8 * (i - 1) + 8];
      [Word64(bytes[..8])] + rest
  }

  /** table_load: `file` is the file's contents, None when it cannot be opened or read in full
      (or its buffer cannot be allocated); ftell reports its size as a long. The record count
      is the size divided by 16, rounded down: a trailing partial record is ignored, not rejected. */
  function TableLoad(file: Option<FileBytes>): (r: Option<RtTable>)
    ensures r.Some? <==> file.Some?
    ensures r.Some? ==> r.value.numChains == |file.value| / 16 && Searchable(r.value)
    ensures r.Some? ==> forall m | 0 <= m < r.value.numChains ::
      && Start(r.value, m) == LittleEndian(file.value[16 * m..16 * m + 8])
      && End(r.value, m) == LittleEndian(file.value[16 * m + 8..16 * m + 16])
  {
    match file
    case None => None
    case Some(bytes) =>
      var t := RtTable(Some(Words64(bytes)), |bytes| / 16);
      assert forall m | 0 <= m < t.numChains :: 8 * (2 * m + 1) == 16 * m + 8;
      Some(t)
  }

  /** table_free: release the array and clear the count. */
  function TableFree(t: RtTable): (r: RtTable)
    ensures r.data.None? && r.numChains == 0
  {
    RtTable(None, 0)
  }

  /** Freeing twice is harmless: the second call leaves the table as the first did. */
  lemma TableFreeIdempotent(t: RtTable)
    ensures TableFree(TableFree(t)) == TableFree(t)
    ensures Searchable(TableFree(t))
  {
  }

  /** The result of table_search: the found flag and the returned start index. */
  datatype Hit = Hit(found: bool, start: u64)

  /** The end column ascends. */
  predicate Sorted(t: RtTable)
    requires Searchable(t)
  {
    forall i, j | 0 <= i < j < t.numChains :: End(t, i) <= End(t, j)
  }

  predicate HasEnd(t: RtTable, key: u64)
    requires Searchable(t)
  {
    exists m | 0 <= m < t.numChains :: End(t, m) == key
  }

  /** The binary search over records left..right, one step per loop iteration of the C code:
      probe the middle record, return its start on a match, go right when its end is
      smaller, otherwise go left, stopping at record 0 where right would underflow. */
  function SearchRange(t: RtTable, key: u64, left: nat, right: nat): Hit
    requires Searchable(t) && right < t.numChains
    decreases right + 1 - left
  {
    if left > right then Hit(false, 0)
    else
      var mid := left + (right - left) / 2;
      if End(t, mid) == key then Hit(true, Start(t, mid))
      else if End(t, mid) < key then
        SearchRange(t, key, mid + 1, right)
      else if mid == 0 then Hit(false, 0)
      else SearchRange(t, key, left, mid - 1)
  }

  /** Soundness, whatever the order of the records: a hit names a record of the range whose
      end is `key`, and a miss returns 0. */
  lemma {:induction false} SearchRangeSound(t: RtTable, key: u64, left: nat, right: nat)
    requires Searchable(t) && right < t.numChains
    ensures var h := SearchRange(t, key, left, right);
      && (!h.found ==> h.start == 0)
      && (h.found ==> exists m | left <= m <= right :: End(t, m) == key && Start(t, m) == h.start)
    decreases right + 1 - left
  {
    if left <= right {
      var mid := left + (right - left) / 2;
      if End(t, mid) < key {
        SearchRangeSound(t, key, mid + 1, right);
      } else if End(t, mid) > key && mid > 0 {
        SearchRangeSound(t, key, left, mid - 1);
      }
    }
  }

  /** A sorted range that holds `key` is searched successfully. */
  lemma {:induction false} SearchRangeComplete(t: RtTable, key: u64, left: nat, right: nat, m: nat)
    requires Searchable(t) && right < t.numChains && Sorted(t)
    requires left <= m <= right && End(t, m) == key
    ensures SearchRange(t, key, left, right).found
    decreases right + 1 - left
  {
    var mid := left + (right - left) / 2;
    if End(t, mid) < key {
      assert mid < m by {
        if m <= mid {
          SortedAt(t, m, mid);
        }
      }
      SearchRangeComplete(t, key, mid + 1, right, m);
    } else if End(t, mid) > key {
      assert m < mid by {
        if mid <= m {
          SortedAt(t, mid, m);
        }
      }
      SearchRangeComplete(t, key, left, mid - 1, m);
    }
  }

  lemma SortedAt(t: RtTable, i: nat, j: nat)
    requires Searchable(t) && Sorted(t) && i <= j < t.numChains
    ensures End(t, i) <= End(t, j)
  {
  }

  /** table_search as a function: nothing is found in an empty table. */
  function Search(t: RtTable, key: u64): (h: Hit)
    requires Searchable(t)
    ensures !h.found ==> h.start == 0
    ensures h.found ==> exists m | 0 <= m < t.numChains :: End(t, m) == key && Start(t, m) == h.start
    ensures t.numChains == 0 ==> !h.found
  {
    if t.numChains == 0 then Hit(false, 0)
    else
      SearchRangeSound(t, key, 0, t.numChains - 1);
      SearchRange(t, key, 0, t.numChains - 1)
  }

  /** Completeness: a sorted table that holds `key` in its end column is searched successfully. */
  lemma SearchComplete(t: RtTable, key: u64)
    requires Searchable(t) && Sorted(t) && HasEnd(t, key)
    ensures Search(t, key).found
  {
    var m :| 0 <= m < t.numChains && End(t, m) == key;
    SearchRangeComplete(t, key, 0, t.numChains - 1, m);
  }

  /** With unique end indices, the start found for `key` is the start paired with it. */
  lemma SearchUnique(t: RtTable, key: u64, m: nat)
    requires Searchable(t) && Sorted(t) && m < t.numChains && End(t, m) == key
    requires forall i, j | 0 <= i < j < t.numChains :: End(t, i) != End(t, j)
    ensures Search(t, key) == Hit(true, Start(t, m))
  {
    SearchComplete(t, key);
  }

  /** table_search, as the C loop: `left` and `right` are uint64_t, the probe is
      left + (right - left) / 2, and the `mid == 0` break keeps `right` from wrapping. Every
      probe is a record of the table; a hit returns that record's start. */
  method TableSearch(t: RtTable, key: u64) returns (start: u64, found: bool)
    requires Searchable(t)
    ensures Hit(found, start) == Search(t, key)
    ensures !found ==> start == 0
    ensures found ==> exists m | 0 <= m < t.numChains :: End(t, m) == key && Start(t, m) == start
  {
    found := false;
    start := 0;
    if t.numChains == 0 {
      return;
    }
    var left: u64 := 0;
    var right: u64 := t.numChains - 1;
    while left <= right
      invariant right < t.numChains && left <= right + 1
      invariant Search(t, key) == SearchRange(t, key, left, right)
      decreases right + 1 - left
    {
      var mid: u64 := left + (right - left) / 2;
      var midEnd := t.data.value[mid * 2 + 1];
      if midEnd == key {
        found := true;
        start := t.data.value[mid * 2];
        return;
      }
      if midEnd < key {
        left := mid + 1;
      } else {
        if mid == 0 {
          break;
        }
        right := mid - 1;
      }
    }
  }
}

=== FILE: words.dfy ===
/** Fixed-width unsigned integers, powers and byte-order conversions shared by the model.
    The C sources use uint8_t, uint32_t and uint64_t; Dafny integers are unbounded, so
    every wrap-around is written out with the moduli below. */
module Words {

  const TWO_TO_32: nat := 0x1_0000_0000
  const TWO_TO_56: nat := 0x100_0000_0000_0000
  const TWO_TO_64: nat := 0x1_0000_0000_0000_0000

  /** uint32_t */
  type u32 = x: int | 0 <= x < 0x1_0000_0000
  /** uint64_t */
  type u64 = x: int | 0 <= x < 0x1_0000_0000_0000_0000

  function Pow(b: nat, e: nat): (r: nat)
    ensures b > 0 ==> r > 0
  {
    if e == 0 then 1 else b * Pow(b, e - 1)
  }

  lemma {:induction false} PowAdd(b: nat, m: nat, n: nat)
    ensures Pow(b, m + n) == Pow(b, m) * Pow(b, n)
  {
    if n > 0 {
      PowAdd(b, m, n - 1);
      assert Pow(b, m + n) == b * Pow(b, m + n - 1);
      MulSwap(b, Pow(b, m), Pow(b, n - 1));
    }
  }

  lemma {:induction false} PowMonotone(b: nat, m: nat, n: nat)
    requires b >= 1 && m <= n
    ensures Pow(b, m) <= Pow(b, n)
    decreases n
  {
    if m < n {
      PowMonotone(b, m, n - 1);
      MulLe(1, b, Pow(b, n - 1));
    }
  }

  /** 256^7 = 2^56 and 256^8 = 2^64: the sizes of a 7-byte key space and of a u64. */
  lemma Pow256Values()
    ensures Pow(256, 4) == TWO_TO_32
    ensures Pow(256, 7) == TWO_TO_56
    ensures Pow(256, 8) == TWO_TO_64
  {
    assert Pow(256, 1) == 256;
    assert Pow(256, 2) == 0x1_0000;
    assert Pow(256, 3) == 0x100_0000;
    assert Pow(256, 4) == 0x1_0000_0000;
    assert Pow(256, 5) == 0x100_0000_0000;
    assert Pow(256, 6) == 0x1_0000_0000_0000;
    assert Pow(256, 7) == 0x100_0000_0000_0000;
  }

  /** The unsigned value of a byte string read little-endian: bs[0] is the least significant byte. */
  function LittleEndian(bs: seq<bv8>): nat
  {
    if |bs| == 0 then 0 else bs[0] as nat + 256 * LittleEndian(bs[1..])
  }

  /** The n low-order bytes of x, least significant first (what fwrite of a uint on a
      little-endian host writes). */
  function LittleEndianBytes(x: nat, n: nat): (r: seq<bv8>)
    ensures |r| == n
  {
    if n == 0 then [] else [(x % 256) as bv8] + LittleEndianBytes(x / 256, n - 1)
  }

  lemma {:induction false} LittleEndianBound(bs: seq<bv8>)
    ensures LittleEndian(bs) < Pow(256, |bs|)
  {
    if |bs| > 0 {
      LittleEndianBound(bs[1..]);
    }
  }

  /** Writing the n low bytes of x and reading them back gives x, for every x that fits. */
  lemma {:induction false} LittleEndianRoundTrip(x: nat, n: nat)
    requires x < Pow(256, n)
    ensures LittleEndian(LittleEndianBytes(x, n)) == x
  {
    if n > 0 {
      var r := LittleEndianBytes(x, n);
      var q := x / 256;
      assert r[1..] == LittleEndianBytes(q, n - 1);
      DivBound(x, 256, Pow(256, n - 1));
      LittleEndianRoundTrip(q, n - 1);
      ByteOfResidue(x);
      assert LittleEndian(r) == r[0] as nat + 256 * LittleEndian(r[1..]);
      assert x == x % 256 + 256 * q;
    }
  }

  /** The low byte of v, as a store into a uint8_t keeps it. */
  function ByteOf(v: nat): (b: bv8)
    ensures b as nat == v % 256
  {
    ByteOfNat(v % 256);
    (v % 256) as bv8
  }

  lemma ByteOfResidue(x: nat)
    ensures ((x % 256) as bv8) as nat == x % 256
  {
    ByteOfNat(x % 256);
  }

  lemma ByteOfNat(v: nat)
    requires v < 256
    ensures (v as bv8) as nat == v
  {
    var b := ByteWithValue(v);
    NatOfByte(b);
  }

  /** Every value below 256 is the value of some byte, reached from 0 by increments. */
  lemma {:induction false} ByteWithValue(v: nat) returns (b: bv8)
    requires v < 256
    ensures b as nat == v
  {
    if v == 0 {
      b := 0;
    } else {
      var a := ByteWithValue(v - 1);
      ByteIncrement(a);
      b := a + 1;
    }
  }

  lemma ByteIncrement(b: bv8)
    requires b as nat < 255
    ensures (b + 1) as nat == b as nat + 1
  {
  }

  lemma DivMod(x: nat, c: nat)
    requires c > 0
    ensures x == (x / c) * c + x % c
  {
  }

  /** Appending a digit d < c to a value below p gives a value below c * p. */
  lemma DigitStep(v: nat, p: nat, c: nat, d: nat)
    requires v < p && d < c
    ensures v * c + d < c * p
  {
    MulLe(v + 1, p, c);
  }

  lemma DivBound(x: nat, d: nat, m: nat)
    requires d > 0 && x < d * m
    ensures x / d < m
  {
  }

  /** Reading a byte string and writing it back at the same width gives the same bytes. */
  lemma {:induction false} LittleEndianBytesRoundTrip(bs: seq<bv8>)
    ensures LittleEndianBytes(LittleEndian(bs), |bs|) == bs
  {
    if |bs| > 0 {
      LittleEndianBytesRoundTrip(bs[1..]);
      var x := LittleEndian(bs);
      ModUnique(x, LittleEndian(bs[1..]), 256, bs[0] as nat);
      NatOfByte(bs[0]);
    }
  }

  /** Little-endian reading of a concatenation: the second part is scaled by the first's width. */
  lemma {:induction false} LittleEndianAppend(a: seq<bv8>, b: seq<bv8>)
    ensures LittleEndian(a + b) == LittleEndian(a) + Pow(256, |a|) * LittleEndian(b)
  {
    if |a| > 0 {
      assert (a + b)[1..] == a[1..] + b;
      LittleEndianAppend(a[1..], b);
      var p, l := Pow(256, |a| - 1), LittleEndian(b);
      Distribute(256, LittleEndian(a[1..]), p * l);
      MulAssoc(256, p, l);
    } else {
      assert a + b == b;
    }
  }

  /** Adding residues: (a mod m + b mod m) mod m = (a + b) mod m. */
  lemma ModAdd(a: nat, b: nat, m: nat)
    requires m > 0
    ensures (a % m + b % m) % m == (a + b) % m
  {
    var qa, qb := a / m, b / m;
    assert a == qa * m + a % m;
    assert b == qb * m + b % m;
    assert a + b == (qa + qb) * m + (a % m + b % m);
    ModMultipleAdd(qa + qb, m, a % m + b % m);
  }

  /** Multiplying a residue: ((a mod m) * c) mod m = (a * c) mod m. */
  lemma ModMul(a: nat, c: nat, m: nat)
    requires m > 0
    ensures ((a % m) * c) % m == (a * c) % m
  {
    var q := a / m;
    assert a == q * m + a % m;
    assert a * c == (q * c) * m + (a % m) * c;
    ModMultipleAdd(q * c, m, (a % m) * c);
  }

  /** Adding a multiple of m does not change the residue. */
  lemma ModMultipleAdd(k: nat, m: nat, r: nat)
    requires m > 0
    ensures (k * m + r) % m == r % m
  {
    var q := r / m;
    assert r == q * m + r % m;
    assert k * m + r == (k + q) * m + r % m;
    ModUnique(k * m + r, k + q, m, r % m);
  }

  lemma ModUnique(x: nat, q: nat, m: nat, r: nat)
    requires m > 0 && r < m && x == q * m + r
    ensures x % m == r && x / m == q
  {
    var q', r' := x / m, x % m;
    assert x == q' * m + r';
    if q' > q {
      MulLe(q + 1, q', m);
    } else if q' < q {
      MulLe(q' + 1, q, m);
    }
  }

  lemma MulAssoc(a: nat, b: nat, c: nat)
    ensures a * (b * c) == (a * b) * c
  {
  }

  lemma MulSwap(a: nat, b: nat, c: nat)
    ensures a * (b * c) == b * (a * c)
  {
  }

  lemma Distribute(k: nat, x: nat, y: nat)
    ensures k * (x + y) == k * x + k * y
  {
  }

  lemma MulLe(a: nat, b: nat, m: nat)
    requires a <= b
    ensures a * m <= b * m
  {
  }

  /** Reducing modulo a multiple first does not change the residue modulo a divisor. */
  lemma ModModDivisor(x: nat, m: nat, t: nat)
    requires t > 0 && m > 0 && m % t == 0
    ensures (x % m) % t == x % t
  {
    var q, k := x / m, m / t;
    assert x == q * m + x % m;
    assert m == k * t;
    MulAssoc(q, k, t);
    ModMultipleAdd(q * k, t, x % m);
  }

  /** The successor of a residue. */
  lemma ModSucc(x: nat, m: nat)
    requires m > 0
    ensures (x + 1) % m == (x % m + 1) % m
  {
    var q := x / m;
    assert x == q * m + x % m;
    assert x + 1 == q * m + (x % m + 1);
    ModMultipleAdd(q, m, x % m + 1);
  }

  /** The unsigned values of a byte string. */
  function ByteValues(bs: seq<bv8>): (vs: seq<nat>)
    ensures |vs| == |bs|
    ensures forall i | 0 <= i < |bs| :: vs[i] == bs[i] as nat
  {
    seq(|bs|, i requires 0 <= i < |bs| => bs[i] as nat)
  }

  /** Storing each value into a uint8_t, which keeps its low byte. */
  function Bytes(vs: seq<nat>): (bs: seq<bv8>)
    ensures |bs| == |vs|
    ensures forall i | 0 <= i < |vs| :: bs[i] as nat == vs[i] % 256
  {
    seq(|vs|, i requires 0 <= i < |vs| => ByteOf(vs[i]))
  }

  lemma BytesOfByteValues(bs: seq<bv8>)
    ensures Bytes(ByteValues(bs)) == bs
  {
    var r := Bytes(ByteValues(bs));
    forall i | 0 <= i < |bs|
      ensures r[i] == bs[i]
    {
      NatOfByte(bs[i]);
    }
  }

  lemma NatOfByte(b: bv8)
    ensures (b as nat) as bv8 == b
  {
  }

  lemma ByteValuesOfBytes(vs: seq<nat>)
    requires forall i | 0 <= i < |vs| :: vs[i] < 256
    ensures ByteValues(Bytes(vs)) == vs
  {
  }

  // Positional numerals: the digits of a number in base c, most significant first.

  /** The n base-c digits of x, most significant first. */
  function Digits(x: nat, c: nat, n: nat): (ds: seq<nat>)
    requires c > 0
    ensures |ds| == n
    decreases n
  {
    if n == 0 then [] else Digits(x / c, c, n - 1) + [x % c]
  }

  /** Big-endian base-c value of a digit string. */
  function BigEndianValue(ds: seq<nat>, c: nat): nat
  {
    if |ds| == 0 then 0 else BigEndianValue(ds[..|ds| - 1], c) * c + ds[|ds| - 1]
  }

  predicate DigitsBelow(ds: seq<nat>, c: nat)
  {
    forall i | 0 <= i < |ds| :: ds[i] < c
  }

  lemma {:induction false} DigitsBelowCharset(x: nat, c: nat, n: nat)
    requires c > 0
    ensures DigitsBelow(Digits(x, c, n), c)
    decreases n
  {
    if n > 0 {
      DigitsBelowCharset(x / c, c, n - 1);
    }
  }

  /** Reading the digits back gives the number, for every number that fits in n digits. */
  lemma {:induction false} DigitsValue(x: nat, c: nat, n: nat)
    requires c > 0 && x < Pow(c, n)
    ensures BigEndianValue(Digits(x, c, n), c) == x
    decreases n
  {
    if n > 0 {
      var ds := Digits(x, c, n);
      var q := x / c;
      assert ds[..n - 1] == Digits(q, c, n - 1);
      assert ds[n - 1] == x % c;
      DivBound(x, c, Pow(c, n - 1));
      DigitsValue(q, c, n - 1);
      DivMod(x, c);
    }
  }

  lemma {:induction false} BigEndianValueBound(ds: seq<nat>, c: nat)
    requires c > 0 && DigitsBelow(ds, c)
    ensures BigEndianValue(ds, c) < Pow(c, |ds|)
  {
    if |ds| > 0 {
      var n := |ds|;
      BigEndianValueBound(ds[..n - 1], c);
      var v := BigEndianValue(ds[..n - 1], c);
      assert BigEndianValue(ds, c) == v * c + ds[n - 1];
      DigitStep(v, Pow(c, n - 1), c, ds[n - 1]);
    }
  }

  /** Writing the value of a digit string back as digits gives the same string. */
  lemma {:induction false} ValueDigits(ds: seq<nat>, c: nat)
    requires c > 0 && DigitsBelow(ds, c)
    ensures Digits(BigEndianValue(ds, c), c, |ds|) == ds
  {
    if |ds| > 0 {
      var n := |ds|;
      var init := ds[..n - 1];
      var v := BigEndianValue(init, c);
      ModUnique(v * c + ds[n - 1], v, c, ds[n - 1]);
      ValueDigits(init, c);
      assert ds == init + [ds[n - 1]];
    }
  }
}

=== FILE: wrappers.dfy ===
/** Optional values, for the C functions that report failure through a -1 or a NULL. */
module Wrappers {

  datatype Option<T> = None | Some(value: T)
}
